=== FILE: README.md ===
# JEHibernate core, modelled in Dafny

JEHibernate is a thin layer over Hibernate/JPA. This project models its core:

- the generic `BaseRepository` (CRUD and query operations, each inside one transaction, plus the fluent `QueryBuilder`);
- the Caffeine-backed `CachedRepository`, which keeps a key cache and an id cache beside the table;
- the `RepositoryManager` registry, which instantiates repositories by reflection and injects them into `@InjectRepository` fields;
- the `RepositoryMetadata` record;
- the `OptimisticLockHandler` retry loop;
- the two configuration builders, `ConfigLoader` and `HibernateConfigManager`;
- the `BaseEntity` lifecycle;
- the two naming strategies;
- the two UUID converters.

Each Java file becomes one Dafny module, in the form the Java takes:

- Pure code becomes functions and lemmas: converters, naming strategies, type resolution, metadata, and the retry loop's outcome.
- Objects whose fields change become classes with `modifies` clauses: `BaseEntity`, `Properties`, `BaseRepository`, `CachedRepository`, `QueryBuilder`, `RepositoryManager` and the static singleton holder.
- Loops become methods with invariants, each proved against a function that specifies it:
  - the retry loop;
  - the `createAll`/`updateAll` batch;
  - the predicate loop of `QueryBuilder`;
  - the map walk of `applyPredicates`;
  - the superclass/field walk of `injectInto`;
  - the constructor search.

Some things the model takes as inputs:

- **The database.** It is a map from id to entity that changes only when a transaction commits.
- **The provider's failures.** Whether opening, beginning, committing, closing or rolling back throws is a `TxEnv` value.
- **Query results.** The rows a query returns are a parameter, since what a query selects is the database's business. What the model computes for a query is its *plan*: filters, order, first row and row limit. A plan whose first row or limit is negative throws IllegalArgumentException, as the provider's `setFirstResult` and `setMaxResults` do.
- **Reflection.** It works on `JClass` values: a name, a superclass, interfaces, declared fields and constructor parameter types. Classes are compared by fully qualified name.
- **Timestamps, pauses and interruptions.** `LocalDateTime.now()`, `Thread.sleep` and interruption are parameters.
- **Java `int` arithmetic.** It wraps explicitly (`JavaLang.Wrap32`, `JavaLang.Mul32`), wherever the source multiplies page numbers and sizes or folds hash codes.

Helper modules:

- `Wrappers`: `Option`, `Result` and `Outcome`.
- `JavaLang`: `int` wrap-around, exceptions with causes, and the `String` operations used.
- `ClassModel`: classes, `isAssignableFrom`, and primitive boxing.
- `DatabaseTypes`: the `DatabaseType` enum with `valueOf`.
- `JavaProperties`: `java.util.Properties`, plus the Hibernate setting names.
- `UuidLayout`: big-endian long packing.
- `QueryPlans`: query plans and `resolvePath`.
- `Transactions`: `executeInTransaction`.

Where a test and the code disagree, the model follows the code:

- `OptimisticLockHandlerTest.java:92` expects the message "entityName must not be blank". The code says "Entity name cannot be null or empty".
- `OptimisticLockHandlerTest.java:107` expects an `InterruptedException`. The code throws a `RuntimeException` wrapping it.

`HibernateConfigManager` is modelled as written, including behaviours a reader may not expect:

- Its type resolution only upper-cases: it does not turn `-` into `_`.
- Its URL scheme is the lower-cased enum name. `MSSQL_SERVER` therefore gives `jdbc:mssql_server://…`, and the default port is 3306 for every vendor.

## Model

| member | source | states |
|---|---|---|
| UuidLayout.ReadLayout | src/main/java/de/jexcellence/hibernate/converter/UuidBytesConverter.java:42-45 | reading two big-endian longs back from the 16 bytes written for a UUID gives the same UUID |
| UuidLayout.LayoutRead | src/main/java/de/jexcellence/hibernate/converter/UuidBytesConverter.java:27-30 | writing back a UUID read from 16 bytes gives the same 16 bytes |
| UUIDConverter.ConvertToDatabaseColumn | src/main/java/de/jexcellence/hibernate/converter/UUIDConverter.java:23-28 | a null UUID throws NullPointerException; otherwise 16 bytes, the most significant long big-endian then the least significant |
| UUIDConverter.ConvertToEntityAttribute | src/main/java/de/jexcellence/hibernate/converter/UUIDConverter.java:37-42 | null throws NullPointerException, fewer than 16 bytes throw BufferUnderflowException, otherwise the UUID of the first 16 bytes |
| UUIDConverter.RoundTrip | src/main/java/de/jexcellence/hibernate/converter/UUIDConverter.java:23-42 | converting a UUID to bytes and back gives the same UUID |
| UUIDConverter.TrailingBytesIgnored | src/main/java/de/jexcellence/hibernate/converter/UUIDConverter.java:37-42 | bytes after the sixteenth do not change the UUID read |
| UUIDConverter.AgreesWithUuidBytesConverter | src/main/java/de/jexcellence/hibernate/converter/UUIDConverter.java:23-42 | on a UUID and on 16 bytes both converters give the same result |
| UuidBytesConverter.ConvertToDatabaseColumn | src/main/java/de/jexcellence/hibernate/converter/UuidBytesConverter.java:23-31 | null maps to null; otherwise exactly 16 bytes, most significant long first, big-endian |
| UuidBytesConverter.ConvertToEntityAttribute | src/main/java/de/jexcellence/hibernate/converter/UuidBytesConverter.java:35-46 | null maps to null, a length other than 16 throws IllegalArgumentException, 16 bytes give the UUID they encode |
| UuidBytesConverter.EntityRoundTrip | src/main/java/de/jexcellence/hibernate/converter/UuidBytesConverter.java:23-46 | every UUID, null included, survives a write and a read |
| UuidBytesConverter.ColumnRoundTrip | src/main/java/de/jexcellence/hibernate/converter/UuidBytesConverter.java:23-46 | every 16-byte column survives a read and a write |
| UuidBytesConverter.ExtremeValues | src/test/java/de/jexcellence/hibernate/converter/UuidBytesConverterTest.java:118-129 | the all-zero UUID gives sixteen 0x00 bytes and the all-ones UUID sixteen 0xFF bytes |
| SnakeCaseNamingStrategy.ReplaceCamelPairsSplitsAtBoundaries | src/main/java/de/jexcellence/hibernate/naming/SnakeCaseNamingStrategy.java:44-45 | the `([a-z])([A-Z])` replace-all inserts `_` at exactly the lower-to-upper boundaries of the input |
| SnakeCaseNamingStrategy.ReplaceCamelPairsNoUpper | src/main/java/de/jexcellence/hibernate/naming/SnakeCaseNamingStrategy.java:44-45 | text without upper-case letters is left unchanged by the replace-all |
| SnakeCaseNamingStrategy.ReplaceCamelPairsNoBoundary | src/main/java/de/jexcellence/hibernate/naming/SnakeCaseNamingStrategy.java:44-45 | text without a lower-to-upper boundary is left unchanged by the replace-all |
| SnakeCaseNamingStrategy.ScanSkip | src/main/java/de/jexcellence/hibernate/naming/SnakeCaseNamingStrategy.java:44-45 | where no match starts, the scan keeps the character and moves on one |
| SnakeCaseNamingStrategy.ScanMatch | src/main/java/de/jexcellence/hibernate/naming/SnakeCaseNamingStrategy.java:44-45 | a lower-case letter followed by an upper-case one is rewritten with `_` between them and the scan resumes after both |
| SnakeCaseNamingStrategy.ConvertTextIsSnake | src/main/java/de/jexcellence/hibernate/naming/SnakeCaseNamingStrategy.java:43-47 | a converted name has no hyphen, no upper-case letter and no camel boundary left |
| SnakeCaseNamingStrategy.ConvertTextIdempotent | src/main/java/de/jexcellence/hibernate/naming/SnakeCaseNamingStrategy.java:43-47 | converting a converted name changes nothing |
| SnakeCaseNamingStrategy.ScanUserAccount | src/test/java/de/jexcellence/hibernate/naming/SnakeCaseNamingStrategyTest.java:29 | the replace-all turns `UserAccount` into `User_Account` |
| SnakeCaseNamingStrategy.ExampleUserAccount | src/test/java/de/jexcellence/hibernate/naming/SnakeCaseNamingStrategyTest.java:29 | `UserAccount` converts to `user_account` |
| SnakeCaseNamingStrategy.ExampleHttpRequest | src/test/java/de/jexcellence/hibernate/naming/SnakeCaseNamingStrategyTest.java:31 | `HTTPRequest` has no lower-to-upper boundary and converts to `httprequest` |
| SnakeCaseNamingStrategy.ExampleHyphen | src/test/java/de/jexcellence/hibernate/naming/SnakeCaseNamingStrategyTest.java:48 | `user-account` converts to `user_account` |
| SnakeCaseNamingStrategy.Convert | src/main/java/de/jexcellence/hibernate/naming/SnakeCaseNamingStrategy.java:43-50 | the text is split at camel boundaries, hyphens become underscores, then it is lower-cased; the quoted flag is kept |
| SnakeCaseNamingStrategy.ToPhysicalTableName | src/main/java/de/jexcellence/hibernate/naming/SnakeCaseNamingStrategy.java:28-31 | table names go through the one conversion |
| SnakeCaseNamingStrategy.ToPhysicalColumnName | src/main/java/de/jexcellence/hibernate/naming/SnakeCaseNamingStrategy.java:33-36 | column names go through the one conversion |
| SnakeCaseNamingStrategy.ToPhysicalSequenceName | src/main/java/de/jexcellence/hibernate/naming/SnakeCaseNamingStrategy.java:38-41 | sequence names go through the one conversion |
| JENamingStrategy.UpperRun | src/main/java/de/jexcellence/hibernate/naming/JENamingStrategy.java:56 | `[A-Z]+` takes the longest run of upper-case letters |
| JENamingStrategy.SplitAfterUpperRun | src/main/java/de/jexcellence/hibernate/naming/JENamingStrategy.java:56 | a run of upper-case letters holds no boundary, so splitting passes over it |
| JENamingStrategy.InsertBeforeRunsSplitsAtBoundaries | src/main/java/de/jexcellence/hibernate/naming/JENamingStrategy.java:56 | the `([a-z])([A-Z]+)` replace-all inserts `_` at exactly the lower-to-upper boundaries, like the `([a-z])([A-Z])` pattern |
| JENamingStrategy.ToLowerIn | src/main/java/de/jexcellence/hibernate/naming/JENamingStrategy.java:58 | `toLowerCase()` in the default locale: each ASCII letter lowercased, except that a Turkic locale maps `I` to the dotless `ı` |
| JENamingStrategy.LocaleLowering | src/main/java/de/jexcellence/hibernate/naming/JENamingStrategy.java:58 | lowering the split name agrees with the root locale when the locale is not Turkic or the name holds no `I`, and differs, holding `ı`, when a Turkic locale meets an `I` in the name |
| JENamingStrategy.ApplyNamingConvention | src/main/java/de/jexcellence/hibernate/naming/JENamingStrategy.java:55-59 | the convention produces the same text as `SnakeCaseNamingStrategy`'s conversion whenever the default locale is not Turkic or the name holds no `I`; under a Turkic locale a name with `I` converts differently, to a text holding `ı` |
| JENamingStrategy.ToPhysicalTableName | src/main/java/de/jexcellence/hibernate/naming/JENamingStrategy.java:20-23 | keeps the quoted flag; gives the same table identifier as `SnakeCaseNamingStrategy` exactly as `ApplyNamingConvention` agrees with its conversion, and a different one under a Turkic default locale for a name with `I` |
| JENamingStrategy.ToPhysicalColumnName | src/main/java/de/jexcellence/hibernate/naming/JENamingStrategy.java:32-35 | keeps the quoted flag; gives the same column identifier as `SnakeCaseNamingStrategy` exactly as `ApplyNamingConvention` agrees with its conversion, and a different one under a Turkic default locale for a name with `I` |
| JENamingStrategy.ToPhysicalSequenceName | src/main/java/de/jexcellence/hibernate/naming/JENamingStrategy.java:44-47 | keeps the quoted flag; gives the same sequence identifier as `SnakeCaseNamingStrategy` exactly as `ApplyNamingConvention` agrees with its conversion, and a different one under a Turkic default locale for a name with `I` |
| ConfigLoader.DatabasePrefixInjective | src/main/java/de/jexcellence/hibernate/util/ConfigLoader.java:157-168 | different database types read different property prefixes |
| ConfigLoader.NormalizeTypeName | src/main/java/de/jexcellence/hibernate/util/ConfigLoader.java:205 | the normalised type name has the same length, no hyphen and no lower-case letter |
| ConfigLoader.NormalizeRespelled | src/main/java/de/jexcellence/hibernate/util/ConfigLoader.java:205 | normalising an enum name, or its lower-case hyphenated spelling, gives the enum name |
| ConfigLoader.SupportedTypesJoinsValues | src/main/java/de/jexcellence/hibernate/util/ConfigLoader.java:210-212 | the supported-types list in the error message is every enum name, in declaration order, joined by `, ` |
| ConfigLoader.ResolveDatabaseType | src/main/java/de/jexcellence/hibernate/util/ConfigLoader.java:199-216 | a missing or blank type is H2; otherwise it succeeds iff the normalised name is an enum name, and it fails with IllegalArgumentException quoting the input and the supported types |
| ConfigLoader.ResolveIgnoresCaseAndHyphens | src/main/java/de/jexcellence/hibernate/util/ConfigLoader.java:199-216 | every type resolves from its own name and from its lower-case spelling with hyphens |
| ConfigLoader.MissingCredentialMentions | src/main/java/de/jexcellence/hibernate/util/ConfigLoader.java:115-122 | the missing-credential message names the missing field |
| ConfigLoader.LocationWrites | src/main/java/de/jexcellence/hibernate/util/ConfigLoader.java:84-97 | the URL, driver and dialect writes, in order, add exactly the location entries to the target |
| ConfigLoader.CopyKey | src/main/java/de/jexcellence/hibernate/util/ConfigLoader.java:144-154 | a present key is copied with its value; an absent key leaves the target as it was |
| ConfigLoader.CopyExtendsRestriction | src/main/java/de/jexcellence/hibernate/util/ConfigLoader.java:150-153 | copying one more key extends the copied part of the source by that key |
| ConfigLoader.CopiesAddHibernateSettings | src/main/java/de/jexcellence/hibernate/util/ConfigLoader.java:128-142 | the nine copies in sequence add exactly the source's Hibernate settings to the target |
| ConfigLoader.FinalPropertiesKeys | src/main/java/de/jexcellence/hibernate/util/ConfigLoader.java:64-76 | the final properties hold only connection and Hibernate keys; a Hibernate key is present iff it is in the raw file, with its value; driver, dialect, user and password are always set |
| ConfigLoader.ConnectionEntriesKeys | src/main/java/de/jexcellence/hibernate/util/ConfigLoader.java:84-125 | the connection entries use only connection keys and always set driver, dialect, user and password |
| ConfigLoader.ConnectionEntriesValues | src/main/java/de/jexcellence/hibernate/util/ConfigLoader.java:84-125 | driver and dialect are the resolved settings, user and password the credentials, and the URL is present iff one was resolved |
| ConfigLoader.ConnectionKeysFromEntries | src/main/java/de/jexcellence/hibernate/util/ConfigLoader.java:72-73 | the Hibernate copies never overwrite a connection key |
| ConfigLoader.FinalPropertiesUrl | src/main/java/de/jexcellence/hibernate/util/ConfigLoader.java:84-89 | a non-blank vendor URL is copied; otherwise H2 gets the in-memory default URL and other vendors get no URL |
| ConfigLoader.FinalPropertiesDriverDialect | src/main/java/de/jexcellence/hibernate/util/ConfigLoader.java:91-97 | driver and dialect are the vendor's non-blank values, else the vendor defaults |
| ConfigLoader.H2Defaults | src/main/java/de/jexcellence/hibernate/util/ConfigLoader.java:108-113 | with no `database.type` the build succeeds as H2, with user defaulting to `sa`, password to empty and driver to `org.h2.Driver` |
| ConfigLoader.NonH2MissingUser | src/main/java/de/jexcellence/hibernate/util/ConfigLoader.java:115-118 | a non-H2 vendor without a non-blank username fails with IllegalArgumentException naming the username |
| ConfigLoader.NonH2MissingPassword | src/main/java/de/jexcellence/hibernate/util/ConfigLoader.java:119-122 | a non-H2 vendor with a username but no password fails with IllegalArgumentException naming the password |
| ConfigLoader.NonH2Credentials | src/main/java/de/jexcellence/hibernate/util/ConfigLoader.java:123-124 | with both credentials given, a non-H2 build succeeds and copies them unchanged, an empty password included |
| ConfigLoader.UnsupportedType | src/main/java/de/jexcellence/hibernate/util/ConfigLoader.java:207-215 | an unknown type fails the build with IllegalArgumentException naming the unsupported type |
| ConfigLoader.CopyIfPresent | src/main/java/de/jexcellence/hibernate/util/ConfigLoader.java:144-154 | sets the target key to the source value when the source has it, and otherwise leaves the target unchanged |
| ConfigLoader.ApplyHibernateSettings | src/main/java/de/jexcellence/hibernate/util/ConfigLoader.java:128-142 | the target gains exactly the source's Hibernate settings |
| ConfigLoader.ApplyCredentials | src/main/java/de/jexcellence/hibernate/util/ConfigLoader.java:102-126 | on success user then password are written; on failure the target is untouched and the error is the credentials rule's |
| ConfigLoader.ApplyDatabaseProperties | src/main/java/de/jexcellence/hibernate/util/ConfigLoader.java:78-100 | location entries are written first, then the credentials, and a credential failure keeps the location writes |
| ConfigLoader.ApplyLocation | src/main/java/de/jexcellence/hibernate/util/ConfigLoader.java:84-97 | the target gains exactly the URL, driver and dialect entries |
| ConfigLoader.FinalPropertiesAssembled | src/main/java/de/jexcellence/hibernate/util/ConfigLoader.java:64-76 | the step-by-step writes assemble the final properties |
| ConfigLoader.BuildFinalProperties | src/main/java/de/jexcellence/hibernate/util/ConfigLoader.java:64-76 | the method's new Properties hold exactly the final properties, and it fails with their error |
| HibernateConfigManager.PutIfAbsent | src/main/java/de/jexcellence/hibernate/util/HibernateConfigManager.java:62 | adds the key when it is absent and never changes an existing value |
| HibernateConfigManager.ResolveDatabaseType | src/main/java/de/jexcellence/hibernate/util/HibernateConfigManager.java:85-90 | a missing or blank type is H2; otherwise it succeeds iff the upper-cased text is an enum name, and otherwise it throws IllegalArgumentException |
| HibernateConfigManager.HyphenatedNameRejected | src/main/java/de/jexcellence/hibernate/util/HibernateConfigManager.java:85-90 | a type name containing `-` is rejected, because no enum name contains one |
| HibernateConfigManager.LowercaseNameResolves | src/main/java/de/jexcellence/hibernate/util/HibernateConfigManager.java:85-90 | every enum name resolves from its lower-case spelling |
| HibernateConfigManager.VendorUrlContains | src/main/java/de/jexcellence/hibernate/util/HibernateConfigManager.java:102 | a vendor URL contains the host, the port and the database name |
| HibernateConfigManager.DefaultH2ConnectionString | src/main/java/de/jexcellence/hibernate/util/HibernateConfigManager.java:94-96 | without `database.name`, H2's URL is the in-memory `testdb` URL |
| HibernateConfigManager.DefaultConnectionString | src/main/java/de/jexcellence/hibernate/util/HibernateConfigManager.java:99-102 | without name, host or port, a vendor URL uses `localhost`, `3306` and `testdb` |
| HibernateConfigManager.ConnectionStringUsesName | src/main/java/de/jexcellence/hibernate/util/HibernateConfigManager.java:93-103 | a given database name appears in the URL for every vendor |
| HibernateConfigManager.ConnectionStringUsesHostAndPort | src/main/java/de/jexcellence/hibernate/util/HibernateConfigManager.java:99-102 | a given host and port appear in a non-H2 URL |
| HibernateConfigManager.ValidatedKeepsEntries | src/main/java/de/jexcellence/hibernate/util/HibernateConfigManager.java:59-69 | validation never removes or changes an existing entry, and adds only URL, driver, user and password |
| HibernateConfigManager.H2DefaultsEntries | src/main/java/de/jexcellence/hibernate/util/HibernateConfigManager.java:71-75 | the H2 defaults add driver `org.h2.Driver`, user `sa` and an empty password only where they are absent |
| HibernateConfigManager.ValidatedUrl | src/main/java/de/jexcellence/hibernate/util/HibernateConfigManager.java:62 | after validation the URL is set, and it is the built connection string when none was given |
| HibernateConfigManager.ValidatedCredentials | src/main/java/de/jexcellence/hibernate/util/HibernateConfigManager.java:64-82 | H2 always passes with defaults filled in; another vendor passes iff user and password keys are present, and otherwise fails with IllegalArgumentException |
| HibernateConfigManager.UnknownTypeWritesNothing | src/main/java/de/jexcellence/hibernate/util/HibernateConfigManager.java:59-62 | an unknown type fails before anything is written |
| HibernateConfigManager.ApplyDefaultH2Settings | src/main/java/de/jexcellence/hibernate/util/HibernateConfigManager.java:71-75 | the properties become the H2 defaults applied to what they held |
| HibernateConfigManager.CheckNonH2Settings | src/main/java/de/jexcellence/hibernate/util/HibernateConfigManager.java:77-82 | passes iff both user and password keys are present, and otherwise fails with the credentials message |
| HibernateConfigManager.EnsurePropertiesValidity | src/main/java/de/jexcellence/hibernate/util/HibernateConfigManager.java:59-69 | the new properties and the outcome are those of the validation function |
| HibernateConfigManager.FillUrl | src/main/java/de/jexcellence/hibernate/util/HibernateConfigManager.java:62 | the URL is added only when absent, and is the built connection string |
| HibernateConfigManager.ApplyVendorSettings | src/main/java/de/jexcellence/hibernate/util/HibernateConfigManager.java:64-68 | H2 gets its defaults; other vendors are only checked |
| BaseEntities.IdHash | src/main/java/de/jexcellence/hibernate/entity/BaseEntity.java:163-166 | a null id hashes to 31; a small non-negative id hashes to 31 + id |
| BaseEntities.LongHashCodeOfInt | src/main/java/de/jexcellence/hibernate/entity/BaseEntity.java:163-166 | `Long.hashCode` of a non-negative value that fits in an `int` is the value itself |
| BaseEntities.BaseEntity.constructor | src/main/java/de/jexcellence/hibernate/entity/BaseEntity.java:54-58 | a new entity has no id and no timestamps, and is not deleted |
| BaseEntities.BaseEntity.OnPrePersist | src/main/java/de/jexcellence/hibernate/entity/BaseEntity.java:60-69 | fills in only the missing timestamps with `now` and changes nothing else |
| BaseEntities.BaseEntity.OnPreUpdate | src/main/java/de/jexcellence/hibernate/entity/BaseEntity.java:71-74 | sets `updatedAt` to `now` and changes nothing else |
| BaseEntities.BaseEntity.SoftDelete | src/main/java/de/jexcellence/hibernate/entity/BaseEntity.java:88-93 | marks the entity deleted, and touches `updatedAt` only on the first call |
| BaseEntities.BaseEntity.SetId | src/main/java/de/jexcellence/hibernate/entity/BaseEntity.java:104-109 | succeeds iff the entity is new; otherwise throws IllegalStateException and leaves the id unchanged |
| BaseEntities.BaseEntity.SetCreatedAt | src/main/java/de/jexcellence/hibernate/entity/BaseEntity.java:124-129 | succeeds iff the entity is new; otherwise throws IllegalStateException and leaves `createdAt` unchanged |
| BaseEntities.BaseEntity.SetDeleted | src/main/java/de/jexcellence/hibernate/entity/BaseEntity.java:144-150 | sets the flag; setting it to true from false also touches `updatedAt` |
| BaseEntities.EqualsIsIdEquality | src/main/java/de/jexcellence/hibernate/entity/BaseEntity.java:152-166 | entities are equal iff their ids are; equality is symmetric, and equal entities have equal hash codes |
| BaseEntities.NewEntitiesAreEqual | src/main/java/de/jexcellence/hibernate/entity/BaseEntity.java:152-166 | any two unsaved entities (null ids) are equal and hash to 31 |
| BaseEntities.SetIdTwice | src/main/java/de/jexcellence/hibernate/entity/BaseEntity.java:104-129 | once an id is set, a second `setId` and a `setCreatedAt` both fail, and the first id stays |
| BaseEntities.SoftDeleteTwice | src/main/java/de/jexcellence/hibernate/entity/BaseEntity.java:88-93 | soft-deleting twice keeps the first `updatedAt` |
| OptimisticLockHandler.CauseChain | src/main/java/de/jexcellence/hibernate/repository/OptimisticLockHandler.java:206-218 | the chain is empty iff there is no throwable, and starts with the throwable itself |
| OptimisticLockHandler.IsOptimisticLockSearchesChain | src/main/java/de/jexcellence/hibernate/repository/OptimisticLockHandler.java:195-219 | the classifier accepts iff some link of the cause chain marks a conflict, by class or by message, where a rollback with a cause defers to that cause |
| OptimisticLockHandler.RollbackIgnoresOwnMessage | src/main/java/de/jexcellence/hibernate/repository/OptimisticLockHandler.java:206-208 | a rollback with a non-conflict cause is not a conflict, whatever its own message says |
| OptimisticLockHandler.ConflictMessageMarks | src/main/java/de/jexcellence/hibernate/repository/OptimisticLockHandler.java:210-216 | a non-rollback throwable whose message contains the row-changed text is a conflict |
| OptimisticLockHandler.InterruptedFailure | src/main/java/de/jexcellence/hibernate/repository/OptimisticLockHandler.java:145-147 | an interrupted pause throws RuntimeException "Retry operation was interrupted", caused by the interruption |
| OptimisticLockHandler.Attempt | src/main/java/de/jexcellence/hibernate/repository/OptimisticLockHandler.java:130-157 | the loop calls at most three times and pauses once fewer than it calls, unless a pause is interrupted |
| OptimisticLockHandler.Execute | src/main/java/de/jexcellence/hibernate/repository/OptimisticLockHandler.java:119-158 | the operation is never called iff the operation is null or the entity name is null or blank; there are never more than three calls and two pauses |
| OptimisticLockHandler.ExecuteWithRetry | src/main/java/de/jexcellence/hibernate/repository/OptimisticLockHandler.java:119-158 | the `while` loop computes exactly the outcome, call count, pause count and interrupt flag of the retry specification |
| OptimisticLockHandler.FirstSuccessReturned | src/main/java/de/jexcellence/hibernate/repository/OptimisticLockHandler.java:131-132 | a first call that returns gives its value after one call and no pause |
| OptimisticLockHandler.NonConflictRethrown | src/main/java/de/jexcellence/hibernate/repository/OptimisticLockHandler.java:133-153 | a non-conflict exception is rethrown unchanged after one call |
| OptimisticLockHandler.ErrorEscapes | src/main/java/de/jexcellence/hibernate/repository/OptimisticLockHandler.java:131-133 | an Error escapes the catch of Exception at once, even with a conflict message |
| OptimisticLockHandler.ConflictsThenValue | src/main/java/de/jexcellence/hibernate/repository/OptimisticLockHandler.java:130-155 | conflicts on calls j..k-1, then a value on call k: the value, after k+1 calls and k pauses |
| OptimisticLockHandler.ConflictsThenSuccess | src/main/java/de/jexcellence/hibernate/repository/OptimisticLockHandler.java:119-158 | up to two conflicts followed by a value return that value after k+1 calls |
| OptimisticLockHandler.RetriesExhausted | src/main/java/de/jexcellence/hibernate/repository/OptimisticLockHandler.java:136-153 | three conflicts rethrow the third after three calls and two pauses |
| OptimisticLockHandler.InterruptStops | src/main/java/de/jexcellence/hibernate/repository/OptimisticLockHandler.java:143-148 | an interrupted pause ends the run with the wrapped interruption and re-sets the interrupt flag |
| OptimisticLockHandler.ArgumentChecks | src/main/java/de/jexcellence/hibernate/repository/OptimisticLockHandler.java:120-125 | a null operation, or a null or blank name, throws IllegalArgumentException before any call |
| Transactions.FirstFailure | src/main/java/de/jexcellence/hibernate/repository/BaseRepository.java:346-350 | there is no failure iff open, begin, the action, commit and close all succeed |
| Transactions.Wrapped | src/main/java/de/jexcellence/hibernate/repository/BaseRepository.java:355-357 | a checked exception is wrapped in IllegalStateException "Repository operation failed" with it as the cause |
| Transactions.ExecuteInTransaction | src/main/java/de/jexcellence/hibernate/repository/BaseRepository.java:343-359 | the call commits iff open, begin, the action and commit all succeed |
| Transactions.RunInTransaction | src/main/java/de/jexcellence/hibernate/repository/BaseRepository.java:361-366 | `runInTransaction` behaves as `executeInTransaction` with a unit result |
| Transactions.ReturnsOnlyCommitted | src/main/java/de/jexcellence/hibernate/repository/BaseRepository.java:343-359 | the action's value is returned iff the call commits and the entity manager then closes cleanly |
| Transactions.FailurePropagation | src/main/java/de/jexcellence/hibernate/repository/BaseRepository.java:352-358 | a RuntimeException or an Error propagates unchanged and a checked exception is wrapped, unless the rollback itself throws an Error |
| Transactions.RollbackRules | src/main/java/de/jexcellence/hibernate/repository/BaseRepository.java:405-414 | rollback happens only after an Exception, on an obtained and active transaction; a RuntimeException from rollback is swallowed |
| Transactions.SmoothProvider | src/main/java/de/jexcellence/hibernate/repository/BaseRepository.java:343-359 | with a provider that never fails, a value commits and a RuntimeException passes through with no commit |
| BaseRepositories.FirstRow | src/main/java/de/jexcellence/hibernate/repository/BaseRepository.java:272 | `findFirst` is present iff there are rows, and is the first one |
| BaseRepositories.FindAllPlan | src/main/java/de/jexcellence/hibernate/repository/BaseRepository.java:232-249 | no filter; a non-blank `sortBy` orders by that attribute in the `ascending` direction, and otherwise there is no order; first row `max(page,0)*max(size,1)` in `int`; exactly `max(size,1)` as the row limit; it fails with IllegalArgumentException iff a non-blank `sortBy` is not an attribute |
| BaseRepositories.AttributePlan | src/main/java/de/jexcellence/hibernate/repository/BaseRepository.java:265-274 | one EQUAL filter on the attribute name taken whole; an unknown attribute throws IllegalArgumentException |
| BaseRepositories.FindAllPaging | src/main/java/de/jexcellence/hibernate/repository/BaseRepository.java:245-246 | without overflow, page p of size s starts at row p*s and holds at most s rows |
| BaseRepositories.FindAllClamps | src/main/java/de/jexcellence/hibernate/repository/BaseRepository.java:245-246 | a non-positive page and a size of at most 1 ask for row 0 and one row |
| BaseRepositories.FindAllOffsetWraps | src/main/java/de/jexcellence/hibernate/repository/BaseRepository.java:245 | page 2^30 of size 2 wraps to a negative first row, as Java `int` does, and the query then throws IllegalArgumentException instead of returning rows |
| BaseRepositories.BatchCount | src/main/java/de/jexcellence/hibernate/repository/BaseRepository.java:96-99 | one more entity completes a batch exactly when the count reaches a multiple of 50 |
| BaseRepositories.BaseRepository.constructor | src/main/java/de/jexcellence/hibernate/repository/BaseRepository.java:44-53 | the repository starts over the given table and entity metamodel |
| BaseRepositories.BaseRepository.WriteAllKeys | src/main/java/de/jexcellence/hibernate/repository/BaseRepository.java:89-102 | after a batch the table holds every entity's id plus the ids it held before, and no others |
| BaseRepositories.BaseRepository.WriteAllStep | src/main/java/de/jexcellence/hibernate/repository/BaseRepository.java:93-100 | writing a batch is writing its first entity, then the rest |
| BaseRepositories.BaseRepository.WriteBatch | src/main/java/de/jexcellence/hibernate/repository/BaseRepository.java:89-102 | the loop returns the entities in order, writes them all, and flushes once per 50 entities |
| BaseRepositories.BaseRepository.Create | src/main/java/de/jexcellence/hibernate/repository/BaseRepository.java:80-86 | returns the transaction's result; the entity is stored under its id iff the transaction commits |
| BaseRepositories.BaseRepository.Update | src/main/java/de/jexcellence/hibernate/repository/BaseRepository.java:110-113 | the merged entity replaces the row under its id iff the transaction commits |
| BaseRepositories.BaseRepository.Save | src/main/java/de/jexcellence/hibernate/repository/BaseRepository.java:131-140 | on the fresh entity manager `contains` is false, so the entity is persisted: it is stored under its id iff the transaction commits |
| BaseRepositories.BaseRepository.CreateAll | src/main/java/de/jexcellence/hibernate/repository/BaseRepository.java:88-103 | all entities are written in order iff the transaction commits, with one flush per full batch of 50 |
| BaseRepositories.BaseRepository.UpdateAll | src/main/java/de/jexcellence/hibernate/repository/BaseRepository.java:115-129 | all entities are merged in order iff the transaction commits, with one flush per full batch of 50 |
| BaseRepositories.BaseRepository.Delete | src/main/java/de/jexcellence/hibernate/repository/BaseRepository.java:142-151 | returns whether the id was present; the row is removed iff the transaction commits |
| BaseRepositories.BaseRepository.DeleteEntity | src/main/java/de/jexcellence/hibernate/repository/BaseRepository.java:153-158 | the entity's row is removed iff the transaction commits |
| BaseRepositories.BaseRepository.DeleteAll | src/main/java/de/jexcellence/hibernate/repository/BaseRepository.java:160-171 | an empty id list returns 0 without a transaction; otherwise it returns the number of listed ids present, and those rows go iff the transaction commits |
| BaseRepositories.BaseRepository.FindById | src/main/java/de/jexcellence/hibernate/repository/BaseRepository.java:183-186 | the stored entity, or empty when the id is absent |
| BaseRepositories.BaseRepository.FindAll | src/main/java/de/jexcellence/hibernate/repository/BaseRepository.java:217-225 | the transaction's result over every stored entity exactly once, in an exposed order; a failed transaction fails the call |
| BaseRepositories.BaseRepository.FindAllPage | src/main/java/de/jexcellence/hibernate/repository/BaseRepository.java:227-249 | the page plan, and the returned rows under that plan; rows come back only for a plan whose first row is not negative, and a wrapped negative first row throws IllegalArgumentException |
| BaseRepositories.BaseRepository.FindAllById | src/main/java/de/jexcellence/hibernate/repository/BaseRepository.java:251-263 | an empty list returns empty with no transaction; otherwise the result lists, once each and in an exposed order, exactly the listed ids that are stored, each with its stored entity; the result is the transaction's, so a failed transaction fails the call |
| BaseRepositories.BaseRepository.FindByAttribute | src/main/java/de/jexcellence/hibernate/repository/BaseRepository.java:265-274 | the attribute plan, and the first returned row under it |
| BaseRepositories.BaseRepository.FindAllByAttribute | src/main/java/de/jexcellence/hibernate/repository/BaseRepository.java:276-285 | the attribute plan, and all returned rows under it; a result implies the plan resolved |
| BaseRepositories.BaseRepository.AttributeFilters | src/main/java/de/jexcellence/hibernate/repository/BaseRepository.java:378-403 | one EQUAL filter per map entry, dotted keys walked segment by segment; it succeeds iff every key resolves, and otherwise fails with a RuntimeException |
| BaseRepositories.BaseRepository.FindByAttributes | src/main/java/de/jexcellence/hibernate/repository/BaseRepository.java:287-302 | the attribute query is one EQUAL filter per entry on its resolved path, in iteration order, built iff every key resolves; an unresolvable key gives empty; otherwise the first row the database returns for that query, with a RuntimeException degraded to empty |
| BaseRepositories.BaseRepository.FindAllByAttributes | src/main/java/de/jexcellence/hibernate/repository/BaseRepository.java:304-319 | the same attribute query; an unresolvable key gives an empty list; otherwise every row the database returns for that query, with a RuntimeException degraded to an empty list |
| BaseRepositories.BaseRepository.Query | src/main/java/de/jexcellence/hibernate/repository/BaseRepository.java:326-329 | a fresh builder: no predicates, no order, offset 0, limit `Integer.MAX_VALUE` |
| BaseRepositories.Degrade | src/main/java/de/jexcellence/hibernate/repository/BaseRepository.java:294-300 | rows pass through, and a RuntimeException becomes the empty shape |
| QueryPlans.SplitAll | src/main/java/de/jexcellence/hibernate/repository/BaseRepository.java:583 | splitting on `.` gives at least one piece, and no piece contains the separator |
| QueryPlans.SplitAllJoin | src/main/java/de/jexcellence/hibernate/repository/BaseRepository.java:583 | joining the pieces with `.` restores the string |
| QueryPlans.DropTrailingEmpty | src/main/java/de/jexcellence/hibernate/repository/BaseRepository.java:583 | `String.split` drops exactly the trailing empty pieces |
| QueryPlans.ContainsDotIsHasDot | src/main/java/de/jexcellence/hibernate/repository/BaseRepository.java:580 | `contains(".")` holds iff some character is a dot |
| QueryPlans.DottedPath | src/main/java/de/jexcellence/hibernate/repository/BaseRepository.java:579-589 | a dotted attribute resolves along its split segments, and no segment contains a dot |
| QueryPlans.WalkPathResolves | src/main/java/de/jexcellence/hibernate/repository/BaseRepository.java:584-587 | a path resolves iff every prefix is an attribute of the metamodel; the failure is a RuntimeException |
| QueryPlans.WalkFromResolves | src/main/java/de/jexcellence/hibernate/repository/BaseRepository.java:585-587 | the walk from segment k succeeds iff every longer prefix resolves, and otherwise fails with IllegalArgumentException |
| QueryBuilders.ResolveSpecsInOrder | src/main/java/de/jexcellence/hibernate/repository/BaseRepository.java:557-577 | the predicates resolve iff every attribute path does, giving one filter per predicate in order |
| QueryBuilders.WhereClause | src/main/java/de/jexcellence/hibernate/repository/BaseRepository.java:557-560 | no predicates, no where clause |
| QueryBuilders.CountPlan | src/main/java/de/jexcellence/hibernate/repository/BaseRepository.java:514-523 | counting ignores order, offset and limit |
| QueryBuilders.QueryBuilder.constructor | src/main/java/de/jexcellence/hibernate/repository/BaseRepository.java:416-426 | no predicates, no sort, ascending, offset 0, limit `Integer.MAX_VALUE` |
| QueryBuilders.QueryBuilder.Append | src/main/java/de/jexcellence/hibernate/repository/BaseRepository.java:430 | appends one predicate and changes nothing else |
| QueryBuilders.QueryBuilder.Where | src/main/java/de/jexcellence/hibernate/repository/BaseRepository.java:428-432 | appends an EQUAL predicate and returns the same builder |
| QueryBuilders.QueryBuilder.WhereLike | src/main/java/de/jexcellence/hibernate/repository/BaseRepository.java:434-438 | appends a LIKE predicate |
| QueryBuilders.QueryBuilder.WhereIn | src/main/java/de/jexcellence/hibernate/repository/BaseRepository.java:440-444 | appends an IN predicate |
| QueryBuilders.QueryBuilder.WhereNotNull | src/main/java/de/jexcellence/hibernate/repository/BaseRepository.java:446-450 | appends a NOT_NULL predicate |
| QueryBuilders.QueryBuilder.WhereNull | src/main/java/de/jexcellence/hibernate/repository/BaseRepository.java:452-456 | appends an IS_NULL predicate |
| QueryBuilders.QueryBuilder.WhereGreaterThan | src/main/java/de/jexcellence/hibernate/repository/BaseRepository.java:458-462 | appends a GREATER_THAN predicate |
| QueryBuilders.QueryBuilder.WhereLessThan | src/main/java/de/jexcellence/hibernate/repository/BaseRepository.java:464-468 | appends a LESS_THAN predicate |
| QueryBuilders.QueryBuilder.OrderBy | src/main/java/de/jexcellence/hibernate/repository/BaseRepository.java:470-475 | sorts ascending on the attribute, replacing any earlier order |
| QueryBuilders.QueryBuilder.OrderByDesc | src/main/java/de/jexcellence/hibernate/repository/BaseRepository.java:477-482 | sorts descending on the attribute, replacing any earlier order |
| QueryBuilders.QueryBuilder.Offset | src/main/java/de/jexcellence/hibernate/repository/BaseRepository.java:484-488 | the offset is n, clamped at 0 |
| QueryBuilders.QueryBuilder.Limit | src/main/java/de/jexcellence/hibernate/repository/BaseRepository.java:490-494 | the limit is n, clamped at 1 |
| QueryBuilders.QueryBuilder.Page | src/main/java/de/jexcellence/hibernate/repository/BaseRepository.java:496-501 | offset `max(0,page)*max(1,size)` in `int`, limit `max(1,size)` |
| QueryBuilders.QueryBuilder.ApplyPredicates | src/main/java/de/jexcellence/hibernate/repository/BaseRepository.java:556-577 | the loop builds the where clause of the predicate specification, stopping at the first unresolvable path |
| QueryBuilders.QueryBuilder.ExecuteQuery | src/main/java/de/jexcellence/hibernate/repository/BaseRepository.java:534-554 | the select plan of the builder's state |
| QueryBuilders.QueryBuilder.List | src/main/java/de/jexcellence/hibernate/repository/BaseRepository.java:503-506 | the select plan, and the returned rows in a transaction |
| QueryBuilders.QueryBuilder.First | src/main/java/de/jexcellence/hibernate/repository/BaseRepository.java:508-512 | sets the limit to 1 for good; the plan asks for one row and the result is the first row |
| QueryBuilders.QueryBuilder.Count | src/main/java/de/jexcellence/hibernate/repository/BaseRepository.java:514-523 | the count plan, and the count in a transaction |
| QueryBuilders.QueryBuilder.Exists | src/main/java/de/jexcellence/hibernate/repository/BaseRepository.java:525-527 | true iff the count is positive |
| QueryBuilders.TwoWheres | src/main/java/de/jexcellence/hibernate/repository/BaseRepository.java:428-432 | two `where` calls keep both predicates, in call order |
| QueryBuilders.LastOrderWins | src/main/java/de/jexcellence/hibernate/repository/BaseRepository.java:470-482 | the last order call wins |
| QueryBuilders.DefaultPlan | src/main/java/de/jexcellence/hibernate/repository/BaseRepository.java:534-554 | a fresh builder asks for no filter, no order, no first row and no row limit |
| QueryBuilders.PagePlan | src/main/java/de/jexcellence/hibernate/repository/BaseRepository.java:496-501 | without overflow, page p of size s starts at p*s and asks for s rows |
| QueryBuilders.WithRows | src/main/java/de/jexcellence/hibernate/repository/BaseRepository.java:547-552 | a plan yields the rows iff it resolved and its first row and maximum are not negative; a negative one throws IllegalArgumentException, as `setFirstResult`/`setMaxResults` do |
| CachedRepositories.SkipLimit | src/main/java/de/jexcellence/hibernate/repository/CachedRepository.java:137-140 | consecutive values from position `skip`, exactly `min(size, length - skip)` of them (none past the end); a negative skip throws |
| CachedRepositories.CachedRepository.constructor | src/main/java/de/jexcellence/hibernate/repository/CachedRepository.java:45-69 | both caches start empty |
| CachedRepositories.CachedRepository.CacheAllWritesThrough | src/main/java/de/jexcellence/hibernate/repository/CachedRepository.java:160 | caching a list keeps earlier keys, caches every entity's key, and the last entity with a key wins |
| CachedRepositories.CachedRepository.CacheEach | src/main/java/de/jexcellence/hibernate/repository/CachedRepository.java:144 | the loop caches each entity in order |
| CachedRepositories.CachedRepository.CacheEntity | src/main/java/de/jexcellence/hibernate/repository/CachedRepository.java:260-266 | caches under the key, and under the id only when the id extractor yields one |
| CachedRepositories.CachedRepository.FindById | src/main/java/de/jexcellence/hibernate/repository/CachedRepository.java:71-85 | a cached id is answered from the id cache without the database; otherwise a found entity is cached under its id and key |
| CachedRepositories.CachedRepository.FindByKey | src/main/java/de/jexcellence/hibernate/repository/CachedRepository.java:87-91 | present iff the key is cached, with the cached entity |
| CachedRepositories.CachedRepository.FindByKeyQuery | src/main/java/de/jexcellence/hibernate/repository/CachedRepository.java:93-109 | a cached key is answered from the key cache; otherwise a found entity is cached under the key and, when it has one, its id |
| CachedRepositories.CachedRepository.GetOrCreate | src/main/java/de/jexcellence/hibernate/repository/CachedRepository.java:116-119 | a cached entity is returned with nothing changed; a failing lookup is rethrown with nothing changed; an entity found by the query is returned and cached, with the table unchanged; otherwise the creator's entity is created, stored iff its transaction commits and cached iff it succeeds |
| CachedRepositories.CachedRepository.FindAllPage | src/main/java/de/jexcellence/hibernate/repository/CachedRepository.java:130-146 | a non-empty key cache holding at least `pageSize` entries serves the page itself, a negative wrapped offset throwing IllegalArgumentException; otherwise the database page is returned and cached, under the same rule for a negative first row |
| CachedRepositories.CachedRepository.Create | src/main/java/de/jexcellence/hibernate/repository/CachedRepository.java:148-154 | the base create, then the entity cached iff it succeeded |
| CachedRepositories.CachedRepository.Update | src/main/java/de/jexcellence/hibernate/repository/CachedRepository.java:164-170 | the base update, then the entity cached iff it succeeded |
| CachedRepositories.CachedRepository.Save | src/main/java/de/jexcellence/hibernate/repository/CachedRepository.java:172-178 | the base save, then the entity cached iff it succeeded |
| CachedRepositories.CachedRepository.CreateAll | src/main/java/de/jexcellence/hibernate/repository/CachedRepository.java:156-162 | the base batch create, then each entity cached iff it succeeded |
| CachedRepositories.CachedRepository.Delete | src/main/java/de/jexcellence/hibernate/repository/CachedRepository.java:180-187 | removes the row iff the transaction commits, and evicts by id only when the delete returned true |
| CachedRepositories.CachedRepository.DeleteEntity | src/main/java/de/jexcellence/hibernate/repository/CachedRepository.java:189-193 | removes the entity's row iff the transaction commits, and evicts its key and id after a successful delete |
| CachedRepositories.CachedRepository.Evict | src/main/java/de/jexcellence/hibernate/repository/CachedRepository.java:195-201 | removes the entity's key and, when it has one, its id |
| CachedRepositories.CachedRepository.EvictById | src/main/java/de/jexcellence/hibernate/repository/CachedRepository.java:203-209 | removes the id, and the key of the entity cached under it |
| CachedRepositories.CachedRepository.EvictByKey | src/main/java/de/jexcellence/hibernate/repository/CachedRepository.java:211-220 | removes the key, and the id of the entity cached under it |
| CachedRepositories.CachedRepository.EvictAll | src/main/java/de/jexcellence/hibernate/repository/CachedRepository.java:222-225 | empties both caches |
| CachedRepositories.CachedRepository.Preload | src/main/java/de/jexcellence/hibernate/repository/CachedRepository.java:227-229 | succeeds iff the `findAll` transaction does, failing with its error; caches every stored entity on success and nothing on failure |
| CachedRepositories.CachedRepository.Expire | src/main/java/de/jexcellence/hibernate/repository/CachedRepository.java:58-68 | expiry or size eviction removes entries and never adds or changes one |
| CachedRepositories.CachedRepository.CachedByKey | src/main/java/de/jexcellence/hibernate/repository/CachedRepository.java:236-239 | the snapshot holds exactly the keys `findByKey` answers |
| CachedRepositories.CachedRepository.CachedById | src/main/java/de/jexcellence/hibernate/repository/CachedRepository.java:241-244 | the snapshot equals the id cache |
| CachedRepositories.StaleKeyAfterUpdate | src/main/java/de/jexcellence/hibernate/repository/CachedRepository.java:164-170 | an update that changes an entity's key leaves the old key cached, still mapping to the old entity |
| CachedRepositories.FindByIdTwice | src/main/java/de/jexcellence/hibernate/repository/CachedRepository.java:71-85 | once found, a second lookup returns the same entity from the cache |
| ClassModel.AssignableToSubclass | src/main/java/de/jexcellence/hibernate/repository/RepositoryManager.java:334 | a parameter type that accepts a class accepts its subclasses |
| ClassModel.PrimitiveMatchIsOneBox | src/main/java/de/jexcellence/hibernate/repository/RepositoryManager.java:341-350 | a primitive parameter accepts exactly one box class, and only the eight primitives accept any |
| RepositoryMetadatas.NewRepositoryMetadata | src/main/java/de/jexcellence/hibernate/repository/RepositoryMetadata.java:33-48 | succeeds iff the class extends BaseRepository, keeping all three fields; otherwise throws IllegalArgumentException naming the class |
| RepositoryMetadatas.RepositoryMetadata.HashCode | src/main/java/de/jexcellence/hibernate/repository/RepositoryMetadata.java:102-105 | the hash is `Objects.hash` of the two classes' hash codes in `int` arithmetic |
| RepositoryMetadatas.EqualsMatchesClasses | src/main/java/de/jexcellence/hibernate/repository/RepositoryMetadata.java:89-100 | metadata are equal iff they name the same two classes; equality is reflexive and symmetric, null is unequal, and equal metadata hash alike |
| RepositoryMetadatas.EqualsIgnoresExtractor | src/main/java/de/jexcellence/hibernate/repository/RepositoryMetadata.java:89-100 | metadata that differ only in the key extractor are equal |
| RepositoryMetadatas.ToStringNamesRepository | src/main/java/de/jexcellence/hibernate/repository/RepositoryMetadata.java:107-114 | the text names the repository class |
| RepositoryMetadatas.ToStringNamesEntity | src/main/java/de/jexcellence/hibernate/repository/RepositoryMetadata.java:107-114 | the text names the entity class |
| RepositoryMetadatas.ToStringReportsExtractor | src/main/java/de/jexcellence/hibernate/repository/RepositoryMetadata.java:107-114 | the text reports `hasKeyExtractor=` with true or false |
| RepositoryManagers.ShapeFor | src/main/java/de/jexcellence/hibernate/repository/RepositoryManager.java:273-292 | the four-argument constructor is used iff there is a key extractor and the class is a CachedRepository |
| RepositoryManagers.FieldNotRegisteredNames | src/main/java/de/jexcellence/hibernate/repository/RepositoryManager.java:193-198 | the message names the field type, the field and the target class |
| RepositoryManagers.ClassesOf | src/main/java/de/jexcellence/hibernate/repository/RepositoryManager.java:315-318 | one argument class per argument, in order |
| RepositoryManagers.AssignHolds | src/main/java/de/jexcellence/hibernate/repository/RepositoryManager.java:201-202 | after injection every injected field holds the registry's instance of its type |
| RepositoryManagers.RepositoryManager.constructor | src/main/java/de/jexcellence/hibernate/repository/RepositoryManager.java:46-54 | both registries start empty |
| RepositoryManagers.RepositoryManager.Register | src/main/java/de/jexcellence/hibernate/repository/RepositoryManager.java:115-121 | records metadata without a key extractor iff the class extends BaseRepository; instances untouched |
| RepositoryManagers.RepositoryManager.RegisterKeyed | src/main/java/de/jexcellence/hibernate/repository/RepositoryManager.java:133-140 | records metadata with the key extractor iff the class extends BaseRepository |
| RepositoryManagers.RepositoryManager.InstantiateRepository | src/main/java/de/jexcellence/hibernate/repository/RepositoryManager.java:268-303 | succeeds iff the class declares the constructor of its shape; otherwise "Failed to instantiate" |
| RepositoryManagers.RepositoryManager.GetRepository | src/main/java/de/jexcellence/hibernate/repository/RepositoryManager.java:151-175 | a cached instance is returned; an unregistered class throws "Repository not registered"; otherwise a new instance is made and recorded |
| RepositoryManagers.RepositoryManager.InjectSite | src/main/java/de/jexcellence/hibernate/repository/RepositoryManager.java:193-205 | fails, changing nothing, iff the field type is unregistered or has no instance and no constructor of its shape; otherwise the field gets the registry's instance |
| RepositoryManagers.RepositoryManager.InjectDeclared | src/main/java/de/jexcellence/hibernate/repository/RepositoryManager.java:186-206 | the annotated fields of one class are injected in order up to the first failure |
| RepositoryManagers.RepositoryManager.InjectLevel | src/main/java/de/jexcellence/hibernate/repository/RepositoryManager.java:185-207 | one class of the hierarchy: its annotated fields are injected after those of its subclasses; on success the rest of the hierarchy remains |
| RepositoryManagers.RepositoryManager.InjectInto | src/main/java/de/jexcellence/hibernate/repository/RepositoryManager.java:182-208 | walks the class and its superclasses, injecting each annotated field in order; stops at the first field whose type is unregistered or cannot be instantiated, having injected exactly the fields before it |
| RepositoryManagers.RepositoryManager.FindConstructor | src/main/java/de/jexcellence/hibernate/repository/RepositoryManager.java:307-327 | no arguments: the no-argument constructor or NoSuchMethodException; otherwise the first compatible constructor, or NoSuchMethodException when there is none; a null argument throws NullPointerException |
| RepositoryManagers.RepositoryManager.CreateWithInjection | src/main/java/de/jexcellence/hibernate/repository/RepositoryManager.java:230-244 | a created object has every annotated field injected; constructor lookup failures are wrapped in "Failed to create"; once a constructor is found, the call fails exactly with the unwrapped failure of the first field that cannot be injected |
| RepositoryManagers.RepositoryManager.ClearInstances | src/main/java/de/jexcellence/hibernate/repository/RepositoryManager.java:249-251 | forgets every instance and keeps the registrations |
| RepositoryManagers.ManagerHolder.Initialize | src/main/java/de/jexcellence/hibernate/repository/RepositoryManager.java:62-69 | installs a fresh, empty manager |
| RepositoryManagers.ManagerHolder.GetInstance | src/main/java/de/jexcellence/hibernate/repository/RepositoryManager.java:77-84 | the manager, or IllegalStateException when not initialised |
| RepositoryManagers.ManagerHolder.Get | src/main/java/de/jexcellence/hibernate/repository/RepositoryManager.java:102-105 | the not-initialised error; otherwise `getRepository` on the installed manager: its cached instance, "Repository not registered", or a newly built and recorded instance iff the shape's constructor is declared |
| RepositoryManagers.ManagerHolder.Shutdown | src/main/java/de/jexcellence/hibernate/repository/RepositoryManager.java:256-264 | empties the manager's registries and uninstalls it |
| RepositoryManagers.GetRepositoryTwice | src/main/java/de/jexcellence/hibernate/repository/RepositoryManager.java:151-175 | two lookups return the same instance, or the same error |
| RepositoryManagers.RebuildAfterClear | src/main/java/de/jexcellence/hibernate/repository/RepositoryManager.java:249-251 | after clearing, a lookup builds a new instance distinct from the old one |

## Left out

- **Async wrappers and the executor.** `createAsync`, `findAllByAttributesAsync`, `listAsync`, `findByKeyAsync`, `getOrCreateAsync`, `preloadAsync` and the rest only schedule the synchronous operation on the executor. Concurrency is not modelled.
- **Thread safety in `RepositoryManager`.** The `volatile` singleton, `synchronized` blocks and the double-checked locking in `getRepository` are not modelled. The model runs one thread, so the second check in `getRepository` is the first check again.
- **File and resource loading.** `loadProperties` in `ConfigLoader` and `HibernateConfigManager` and the bundled fallback are I/O. The loaded properties are the input to `BuildFinalProperties` and `EnsurePropertiesValidity`.
- **Logging.** Log output is not modelled.
- **Pause length.** Only the number of `Thread.sleep` pauses is modelled, not their 100 ms length.
- **Reflection.** It is abstracted: classes are `JClass` values compared by name, and `getDeclaredFields` is the field list in declaration order.
  - Constructors are identified by their parameter types.
  - `setAccessible`, `IllegalAccessException` and `newInstance` failures are not modelled; an instance is always created once a constructor is found.
  - `Object.class.isAssignableFrom` of an interface, and arrays and generics, are not modelled.
- **`RepositoryMetadatas.RepositoryMetadata.HashCode`.** It takes each class's identity hash code as a parameter.
- **`RepositoryMetadatas.RepositoryMetadata.Equals`.** It compares against null or another metadata only; an argument of another class is not modelled.
- **`BaseEntities.BaseEntity` getters and `toString`.** The `version` field, `setVersion`, `setUpdatedAt` and `toString` are plain field access and formatting and are not modelled. The empty lifecycle hooks (`onPostPersist`, `onPostUpdate` and `onPreRemove`) do nothing.
- **`BaseEntities.IdHash`.** It is stated for ids in `0 .. 2^31-32`. Large and negative ids fold the high word with `^` and are only computed, not characterised.
- **`BaseRepository` operations not modelled.** `existsById`, `count()`, `countByAttribute`, `deleteByAttribute`, `refresh` and `detach` are single queries or entity-manager calls whose effect on the modelled state is nil, or is the database's count.
- **`getEntityClass` and `getExecutorService`.** These are accessors.
- **`BaseRepositories.BaseRepository.Save`.** `executeInTransaction` opens a fresh EntityManager, so `em.contains(entity)` is always false and the merge branch never runs: `save` always persists. The model takes `persist` as never throwing. Saving an entity that is already stored is modelled as overwriting its row, where the provider refuses a detached entity (its id is generated) and the transaction rolls back.
- **`CachedRepositories.CachedRepository.Save`.** It inherits the base `Save` simplification: re-saving a stored entity overwrites its row and caches it, where the provider would throw and nothing would be cached.
- **`BaseRepositories.BaseRepository.Create`.** The same holds for `persist` in `create` (and `CachedRepositories.CachedRepository.Create`): re-creating a stored entity is modelled as an overwrite.
- **`BaseRepositories.BaseRepository.CreateAll`.** The batch's `persist` calls are taken as never throwing too. A batch that holds an already-stored entity is modelled as overwriting its row, where the provider throws and the whole batch rolls back.
- **`CachedRepositories.CachedRepository.CreateAll`.** It inherits the base `CreateAll` simplification: such a batch is written and every entity cached, where the provider would throw and nothing would be cached.
- **`BaseRepositories.BaseRepository.Update`.** `merge` returns a managed copy; the model returns and stores the argument.
- **`BaseRepositories.BaseRepository.UpdateAll`.** The same: each merged copy is taken to be its argument.
- **`CachedRepositories.CachedRepository.Update`.** The same, for the entity the base update returns and the caches then hold.
- **`BaseRepositories.BaseRepository.FindAll`.** It returns the table's rows in an order the model does not fix. Database ordering is not modelled.
- **Query results.** Filtering, ordering and paging of rows is the database's work. The model states the query plan and takes the returned rows as a parameter.
- **Hibernate path errors.** The model does not reproduce Hibernate's exact message for an unknown attribute; it records IllegalArgumentException.
- **Caffeine statistics and size estimates.** `getCacheSize`, `getKeyCacheStats` and `getIdCacheStats` report statistics and estimates.
- **Cache expiry and size eviction.** The 30-minute expiry and the 10000-entry bound happen at times the model does not track. `CachedRepositories.CachedRepository.Expire` stands for any such removal.
- **`createIdExtractor`.** The reflective `getId` call is the `idExtractor` parameter, which returns `None` where the reflection fails.
- **Non-ASCII case mapping.** `toLowerCase` and `toUpperCase` map ASCII letters only. Of the locale-specific rules of `JENamingStrategy`'s default-locale `toLowerCase()`, only the Turkish and Azerbaijani mapping of `I` to `ı` is modelled (as `JENamingStrategy.DefaultLocale`); the other locale rules touch non-ASCII letters only.
- **`Identifier.toIdentifier`.** Its quoting of names with backticks and its blank-to-null rule are not modelled. The naming strategies keep the quoted flag they are given.

=== FILE: base_entity.dfy ===
/** `BaseEntity`: the mapped superclass of the persistent entities, with a write-once id and
    creation time, soft deletion, lifecycle timestamps, and equality by id. */
module BaseEntities {
  import opened Wrappers
  import opened JavaLang

  /** A `LocalDateTime`, as an abstract instant; the clock reading is passed in as `now`. */
  type Instant = int

  const ID_ALREADY_SET: string := "Id cannot be set after persistence"
  const CREATED_AT_ALREADY_SET: string := "createdAt cannot be changed after persistence"

  function Pow2(n: nat): (r: nat)
    ensures r >= 1
  {
    if n == 0 then 1 else 2 * Pow2(n - 1)
  }

  /** Bitwise XOR of the low `width` bits of `a` and `b`. */
  function Xor(a: nat, b: nat, width: nat): (r: nat)
    ensures r < Pow2(width)
  {
    if width == 0 then 0 else (a % 2 + b % 2) % 2 + 2 * Xor(a / 2, b / 2, width - 1)
  }

  /** XOR with zero keeps every bit. */
  lemma {:induction false} XorZero(a: nat, width: nat)
    requires a < Pow2(width)
    ensures Xor(a, 0, width) == a
  {
    if width > 0 {
      XorZero(a / 2, width - 1);
    }
  }

  /** `Long.hashCode(v)`: `(int) (v ^ (v >>> 32))`, the XOR of the low and high 32-bit halves
      of the two's-complement pattern, read as an `int`. */
  function LongHashCode(v: int64): int32 {
    var pattern := v as int % 0x1_0000_0000_0000_0000;
    Wrap32(Xor(pattern % 0x1_0000_0000, pattern / 0x1_0000_0000, 32))
  }

  /** The high half of a non-negative `int` value is zero, so its `long` hash is the value. */
  lemma LongHashCodeOfInt(v: int64)
    requires 0 <= v as int <= INT_MAX
    ensures LongHashCode(v) as int == v as int
  {
    var pattern := v as int % 0x1_0000_0000_0000_0000;
    assert pattern == v as int;
    assert pattern % 0x1_0000_0000 == v as int && pattern / 0x1_0000_0000 == 0;
    Pow2Of32();
    XorZero(v as int, 32);
    assert Xor(pattern % 0x1_0000_0000, pattern / 0x1_0000_0000, 32) == v as int;
  }

  lemma Pow2Of32()
    ensures Pow2(32) == 0x1_0000_0000
  {
    assert Pow2(2) == 4;
    Pow2Add(2, 2);
    Pow2Add(4, 4);
    Pow2Add(8, 8);
    Pow2Add(16, 16);
  }

  lemma {:induction false} Pow2Add(m: nat, n: nat)
    ensures Pow2(m + n) == Pow2(m) * Pow2(n)
  {
    if m > 0 {
      Pow2Add(m - 1, n);
    }
  }

  /** `Objects.hash(id)`: `31 * 1 + (id == null ? 0 : Long.hashCode(id))`, in `int` arithmetic. */
  function IdHash(id: Option<int64>): (r: int32)
    ensures id.None? ==> r == 31
    ensures id.Some? && 0 <= id.value as int <= INT_MAX - 31 ==> r as int == 31 + id.value as int
  {
    if id.None? then Wrap32(31)
    else
      var h := LongHashCode(id.value);
      if 0 <= id.value as int <= INT_MAX - 31 then
        LongHashCodeOfInt(id.value);
        Wrap32(31 + h as int)
      else
        Wrap32(31 + h as int)
  }

  class BaseEntity {
    var id: Option<int64>
    var createdAt: Option<Instant>
    var updatedAt: Option<Instant>
    var deleted: bool

    /** A new entity: no id, no timestamps, not deleted. */
    constructor()
      ensures id.None? && createdAt.None? && updatedAt.None? && !deleted
    {
      id := None;
      createdAt := None;
      updatedAt := None;
      deleted := false;
    }

    /** `isNew()`: no id yet. */
    predicate IsNew()
      reads this
    {
      id.None?
    }

    /** `onPrePersist`: fills each timestamp with the same instant `now`, only where it is null. */
    method OnPrePersist(now: Instant)
      modifies this
      ensures createdAt == if old(createdAt).None? then Some(now) else old(createdAt)
      ensures updatedAt == if old(updatedAt).None? then Some(now) else old(updatedAt)
      ensures id == old(id) && deleted == old(deleted)
    {
      if createdAt.None? {
        createdAt := Some(now);
      }
      if updatedAt.None? {
        updatedAt := Some(now);
      }
    }

    /** `onPreUpdate`: the update time becomes `now`. */
    method OnPreUpdate(now: Instant)
      modifies this
      ensures updatedAt == Some(now)
      ensures id == old(id) && createdAt == old(createdAt) && deleted == old(deleted)
    {
      updatedAt := Some(now);
    }

    /** `softDelete`: marks the entity deleted and bumps the update time, only on the first call. */
    method SoftDelete(now: Instant)
      modifies this
      ensures deleted
      ensures updatedAt == if old(deleted) then old(updatedAt) else Some(now)
      ensures id == old(id) && createdAt == old(createdAt)
    {
      if !deleted {
        deleted := true;
        OnPreUpdate(now);
      }
    }

    /** `setId`: allowed only while the entity is new; otherwise IllegalStateException and the id
        is unchanged. */
    method SetId(newId: int64) returns (outcome: Outcome<Throwable>)
      modifies this
      ensures outcome.Pass? <==> old(IsNew())
      ensures outcome.Pass? ==> id == Some(newId)
      ensures outcome.Fail? ==> id == old(id) && outcome.error == Raise(IllegalStateException, ID_ALREADY_SET)
      ensures createdAt == old(createdAt) && updatedAt == old(updatedAt) && deleted == old(deleted)
    {
      if !IsNew() {
        return Fail(Raise(IllegalStateException, ID_ALREADY_SET));
      }
      id := Some(newId);
      return Pass;
    }

    /** `setCreatedAt`: allowed only while the entity is new; otherwise IllegalStateException. */
    method SetCreatedAt(instant: Instant) returns (outcome: Outcome<Throwable>)
      modifies this
      ensures outcome.Pass? <==> old(IsNew())
      ensures outcome.Pass? ==> createdAt == Some(instant)
      ensures outcome.Fail? ==> createdAt == old(createdAt) && outcome.error == Raise(IllegalStateException, CREATED_AT_ALREADY_SET)
      ensures id == old(id) && updatedAt == old(updatedAt) && deleted == old(deleted)
    {
      if !IsNew() {
        return Fail(Raise(IllegalStateException, CREATED_AT_ALREADY_SET));
      }
      createdAt := Some(instant);
      return Pass;
    }

    /** `setDeleted`: `true` soft-deletes; `false` clears the flag and leaves the update time. */
    method SetDeleted(flag: bool, now: Instant)
      modifies this
      ensures deleted == flag
      ensures flag && !old(deleted) ==> updatedAt == Some(now)
      ensures !flag || old(deleted) ==> updatedAt == old(updatedAt)
      ensures id == old(id) && createdAt == old(createdAt)
    {
      if flag {
        SoftDelete(now);
      } else {
        deleted := false;
      }
    }

    /** `equals`: the same object, or another entity with an equal id (two null ids are equal). */
    predicate Equals(other: BaseEntity?)
      reads this, other
    {
      other != null && (this == other || id == other.id)
    }

    /** `hashCode`: `Objects.hash(id)`. */
    function HashCode(): int32
      reads this
    {
      IdHash(id)
    }
  }

  /** `equals` is an equivalence that holds exactly for equal ids, and `hashCode` agrees with it. */
  lemma EqualsIsIdEquality(a: BaseEntity, b: BaseEntity)
    ensures a.Equals(b) <==> a.id == b.id
    ensures a.Equals(b) <==> b.Equals(a)
    ensures a.Equals(b) ==> a.HashCode() == b.HashCode()
  {
  }

  /** Two entities that are both still new are equal to each other. */
  lemma NewEntitiesAreEqual(a: BaseEntity, b: BaseEntity)
    requires a.IsNew() && b.IsNew()
    ensures a.Equals(b) && a.HashCode() == b.HashCode() == 31
  {
  }

  /** The write-once rule across two calls: once `setId` has succeeded, every further `setId`
      and `setCreatedAt` fails and changes nothing. */
  method SetIdTwice(e: BaseEntity, first: int64, second: int64, created: Instant)
    returns (o1: Outcome<Throwable>, o2: Outcome<Throwable>, o3: Outcome<Throwable>)
    requires e.IsNew()
    modifies e
    ensures o1.Pass? && o2.Fail? && o3.Fail? && e.id == Some(first)
    ensures e.createdAt == old(e.createdAt)
  {
    o1 := e.SetId(first);
    o2 := e.SetId(second);
    o3 := e.SetCreatedAt(created);
  }

  /** `softDelete` is idempotent: the second call changes nothing. */
  method SoftDeleteTwice(e: BaseEntity, now1: Instant, now2: Instant)
    modifies e
    ensures e.deleted
    ensures e.updatedAt == if old(e.deleted) then old(e.updatedAt) else Some(now1)
  {
    e.SoftDelete(now1);
    e.SoftDelete(now2);
  }
}

=== FILE: base_repository.dfy ===
/** `BaseRepository`: CRUD and query operations, each run in its own transaction
    (`executeInTransaction`). The database table is a map from id to entity that changes only
    when a transaction commits; the rows a query returns are passed in, since what a query
    selects is the database's business. */
module BaseRepositories {
  import opened Wrappers
  import opened JavaLang
  import opened Transactions
  import opened QueryPlans
  import QueryBuilders

  /** `createAll`/`updateAll` flush and clear the entity manager after every this many entities. */
  const BATCH_SIZE: nat := 50

  /** The values of `m` at the listed keys, in order. */
  function ValuesAt<K, X>(m: map<K, X>, order: seq<K>): (r: seq<X>)
    requires forall i :: 0 <= i < |order| ==> order[i] in m
    ensures |r| == |order| && forall i :: 0 <= i < |order| ==> r[i] == m[order[i]]
  {
    seq(|order|, i requires 0 <= i < |order| => m[order[i]])
  }

  /** Lists the entries of `m` whose keys are in `keys`, once each, in an order the map does not
      fix (the order in which the database or a hash map hands them out). */
  method Enumerate<K, X>(m: map<K, X>, keys: set<K>) returns (order: seq<K>, rows: seq<X>)
    ensures |order| == |rows|
    ensures forall k :: k in order <==> k in keys && k in m
    ensures forall i, j :: 0 <= i < j < |order| ==> order[i] != order[j]
    ensures forall i :: 0 <= i < |order| ==> order[i] in m
    ensures rows == ValuesAt(m, order)
  {
    var wanted := keys * m.Keys;
    var left := wanted;
    order, rows := [], [];
    while left != {}
      invariant left <= wanted
      invariant |order| == |rows|
      invariant forall k :: k in order <==> k in wanted && k !in left
      invariant forall i, j :: 0 <= i < j < |order| ==> order[i] != order[j]
      invariant forall i :: 0 <= i < |order| ==> order[i] in m && rows[i] == m[order[i]]
      decreases |left|
    {
      var k :| k in left;
      order, rows := order + [k], rows + [m[k]];
      left := left - {k};
    }
  }

  /** The first row, as `getResultStream().findFirst()` gives it. */
  function FirstRow<X>(rows: seq<X>): (r: Option<X>)
    ensures r.Some? <==> |rows| > 0
    ensures r.Some? ==> r.value == rows[0]
  {
    if |rows| > 0 then Some(rows[0]) else None
  }

  /** The plan of `findAll(pageNumber, pageSize, sortBy, ascending)`: no `where`, the order when
      `sortBy` is non-blank, first result `max(page, 0) * max(size, 1)` in `int` arithmetic and at
      most `max(size, 1)` rows. */
  function FindAllPlan<V>(metamodel: Metamodel, pageNumber: int32, pageSize: int32, sortBy: Option<string>,
                          ascending: bool): (r: Result<QueryPlan<V>, Throwable>)
    ensures r.Ok? ==> r.value.where.None? && r.value.maxResults.Some? && r.value.maxResults.value >= 1
    ensures r.Ok? ==> r.value.firstResult == Some(Mul32(Max(pageNumber, 0), Max(pageSize, 1)))
    ensures r.Ok? ==> (r.value.order.Some? <==> sortBy.Some? && !IsBlank(sortBy.value))
    ensures r.Ok? ==> r.value.maxResults == Some(Max(pageSize, 1))
    ensures r.Ok? && sortBy.Some? && !IsBlank(sortBy.value) ==> r.value.order == Some(Order(sortBy.value, ascending))
    ensures r.Err? <==> sortBy.Some? && !IsBlank(sortBy.value) && [sortBy.value] !in metamodel
    ensures r.Err? ==> r.error.kind == IllegalArgumentException
  {
    var key := if sortBy.Some? then sortBy.value else "";
    WalkPathResolves(metamodel, [key]);
    assert [key][..1] == [key];
    var sorted := sortBy.Some? && !IsBlank(sortBy.value);
    if sorted && WalkPath(metamodel, [sortBy.value]).Err? then Err(WalkPath(metamodel, [sortBy.value]).error)
    else
      Ok(QueryPlan(None,
                   if sorted then Some(Order(sortBy.value, ascending)) else None,
                   Some(Mul32(Max(pageNumber, 0), Max(pageSize, 1))),
                   Some(Max(pageSize, 1))))
  }

  /** The plan of `findByAttribute`: one EQUAL filter on the attribute, its name taken whole
      (`root.get(attribute)` does not split on dots). */
  function AttributePlan<V>(metamodel: Metamodel, attribute: string, value: V): (r: Result<QueryPlan<V>, Throwable>)
    ensures r.Ok? <==> [attribute] in metamodel
    ensures r.Ok? ==> r.value == QueryPlan(Some([Filter([attribute], Equal(value))]), None, None, None)
    ensures r.Err? ==> r.error.kind == IllegalArgumentException
  {
    WalkPathResolves(metamodel, [attribute]);
    assert [attribute][..1] == [attribute];
    var path := WalkPath(metamodel, [attribute]);
    if path.Ok? then Ok(QueryPlan(Some([Filter([attribute], Equal(value))]), None, None, None)) else Err(path.error)
  }

  /** Without overflow, page `p` of size `s` starts at row `p * s` and has at most `s` rows. */
  lemma FindAllPaging<V>(metamodel: Metamodel, pageNumber: int32, pageSize: int32, sortBy: Option<string>, ascending: bool)
    requires 0 <= pageNumber && 1 <= pageSize && pageNumber as int * pageSize as int <= INT_MAX
    requires FindAllPlan<V>(metamodel, pageNumber, pageSize, sortBy, ascending).Ok?
    ensures var plan := FindAllPlan<V>(metamodel, pageNumber, pageSize, sortBy, ascending).value;
      plan.firstResult.value as int == pageNumber as int * pageSize as int && plan.maxResults == Some(pageSize)
      && ValidWindow(plan)
  {
    assert Max(pageNumber, 0) == pageNumber && Max(pageSize, 1) == pageSize;
  }

  /** Negative page numbers and sizes are clamped: they ask for the first row, one row at most. */
  lemma FindAllClamps<V>(metamodel: Metamodel, pageNumber: int32, pageSize: int32)
    requires pageNumber <= 0 && pageSize <= 1
    ensures FindAllPlan<V>(metamodel, pageNumber, pageSize, None, true) == Ok(QueryPlan(None, None, Some(0), Some(1)))
  {
  }

  /** The offset is `int` arithmetic: page 2^30 of size 2 wraps round to a negative first row,
      which `setFirstResult` refuses, so the query throws instead of returning rows. */
  lemma FindAllOffsetWraps<V, R>(metamodel: Metamodel, pageNumber: int32, pageSize: int32, rows: R)
    requires pageNumber as int == 0x4000_0000 && pageSize == 2
    ensures FindAllPlan<V>(metamodel, pageNumber, pageSize, None, true).value.firstResult == Some(INT_MIN as int32)
    ensures var r := QueryBuilders.WithRows(FindAllPlan<V>(metamodel, pageNumber, pageSize, None, true), rows);
      r.Err? && r.error.kind == IllegalArgumentException
  {
    assert Max(pageNumber, 0) == pageNumber && Max(pageSize, 1) == pageSize;
    assert Wrap32(0x8000_0000) as int == INT_MIN;
  }

  /** One more entity completes a batch exactly when the count reaches a multiple of the batch size. */
  lemma BatchCount(count: nat)
    ensures (count + 1) / BATCH_SIZE == count / BATCH_SIZE + (if (count + 1) % BATCH_SIZE == 0 then 1 else 0)
  {
  }

  class BaseRepository<ID(==, !new), T, V> {
    /** The committed table. */
    var store: map<ID, T>
    /** The id a persisted or merged entity is stored under (id generation is the provider's). */
    const idOf: T -> ID
    /** The metamodel of the entity class. */
    const metamodel: Metamodel

    constructor(idOf: T -> ID, metamodel: Metamodel, store: map<ID, T>)
      ensures this.idOf == idOf && this.metamodel == metamodel && this.store == store
    {
      this.idOf := idOf;
      this.metamodel := metamodel;
      this.store := store;
    }

    /** The table after writing each entity under its id, in order (`persist` or `merge`). */
    function WriteAll(rows: map<ID, T>, entities: seq<T>): map<ID, T>
      decreases |entities|
    {
      if |entities| == 0 then rows else WriteAll(rows[idOf(entities[0]) := entities[0]], entities[1..])
    }

    /** After the batch, the table holds every entity's id, and the ids it held before, and no others. */
    lemma {:induction false} WriteAllKeys(rows: map<ID, T>, entities: seq<T>)
      ensures forall e :: e in entities ==> idOf(e) in WriteAll(rows, entities)
      ensures forall id :: id in WriteAll(rows, entities) <==> id in rows || exists e :: e in entities && idOf(e) == id
      decreases |entities|
    {
      if |entities| > 0 {
        var e0 := entities[0];
        WriteAllKeys(rows[idOf(e0) := e0], entities[1..]);
        assert forall e :: e in entities ==> e == e0 || e in entities[1..];
      }
    }

    /** Writing a non-empty batch is writing its first entity, then the rest. */
    lemma WriteAllStep(rows: map<ID, T>, entities: seq<T>)
      requires |entities| > 0
      ensures WriteAll(rows, entities) == WriteAll(rows[idOf(entities[0]) := entities[0]], entities[1..])
    {
    }

    /** The batching loop of `createAll` and `updateAll` (`persist` and `merge` both write the
        entity under its id): one result per entity, in order, and a flush and clear after every
        50th entity. */
    method WriteBatch(rows: map<ID, T>, entities: seq<T>) returns (result: seq<T>, written: map<ID, T>, flushes: nat)
      ensures result == entities
      ensures written == WriteAll(rows, entities)
      ensures flushes == |entities| / BATCH_SIZE
    {
      result, written, flushes := [], rows, 0;
      var count := 0;
      while count < |entities|
        invariant 0 <= count <= |entities|
        invariant result == entities[..count]
        invariant WriteAll(rows, entities) == WriteAll(written, entities[count..])
        invariant flushes == count / BATCH_SIZE
      {
        var entity := entities[count];
        WriteAllStep(written, entities[count..]);
        assert entities[count..][1..] == entities[count + 1..];
        written := written[idOf(entity) := entity];
        result := result + [entity];
        BatchCount(count);
        count := count + 1;
        if count % BATCH_SIZE == 0 {
          flushes := flushes + 1;
        }
      }
      assert result == entities;
    }

    /** `create`: persists the entity and returns it. */
    method Create(entity: T, tx: TxEnv) returns (r: Result<T, Throwable>)
      modifies this
      ensures r == ExecuteInTransaction(tx, Ok(entity)).result
      ensures store == if ExecuteInTransaction(tx, Ok(entity)).committed then old(store)[idOf(entity) := entity] else old(store)
    {
      var run := ExecuteInTransaction(tx, Ok(entity));
      if run.committed {
        store := store[idOf(entity) := entity];
      }
      r := run.result;
    }

    /** `update`: merges the entity and returns the managed copy (equal to it as a value). */
    method Update(entity: T, tx: TxEnv) returns (r: Result<T, Throwable>)
      modifies this
      ensures r == ExecuteInTransaction(tx, Ok(entity)).result
      ensures store == if ExecuteInTransaction(tx, Ok(entity)).committed then old(store)[idOf(entity) := entity] else old(store)
    {
      r := Create(entity, tx);
    }

    /** `save`: the entity manager of `executeInTransaction` is fresh, so `contains` is false and
        the entity is persisted: it is written under its id and returned. */
    method Save(entity: T, tx: TxEnv) returns (r: Result<T, Throwable>)
      modifies this
      ensures r == ExecuteInTransaction(tx, Ok(entity)).result
      ensures store == if ExecuteInTransaction(tx, Ok(entity)).committed then old(store)[idOf(entity) := entity] else old(store)
    {
      r := Create(entity, tx);
    }

    /** `createAll` (and `updateAll`, which differs only in calling `merge`): the entities in
        input order, `n / 50` flushes when the action runs, the table written on commit. */
    method CreateAll(entities: seq<T>, tx: TxEnv) returns (r: Result<seq<T>, Throwable>, flushes: nat)
      modifies this
      ensures r == ExecuteInTransaction(tx, Ok(entities)).result
      ensures flushes == if tx.open.Pass? && tx.begin.Pass? then |entities| / BATCH_SIZE else 0
      ensures store == if ExecuteInTransaction(tx, Ok(entities)).committed then WriteAll(old(store), entities) else old(store)
    {
      flushes := 0;
      var written := store;
      var result := entities;
      if tx.open.Pass? && tx.begin.Pass? {
        result, written, flushes := WriteBatch(store, entities);
      }
      var run := ExecuteInTransaction(tx, Ok(result));
      if run.committed {
        store := written;
      }
      r := run.result;
    }

    /** `updateAll`. */
    method UpdateAll(entities: seq<T>, tx: TxEnv) returns (r: Result<seq<T>, Throwable>, flushes: nat)
      modifies this
      ensures r == ExecuteInTransaction(tx, Ok(entities)).result
      ensures flushes == if tx.open.Pass? && tx.begin.Pass? then |entities| / BATCH_SIZE else 0
      ensures store == if ExecuteInTransaction(tx, Ok(entities)).committed then WriteAll(old(store), entities) else old(store)
    {
      r, flushes := CreateAll(entities, tx);
    }

    /** `delete(id)`: true exactly when the table held a row for `id`; only that row goes. */
    method Delete(id: ID, tx: TxEnv) returns (r: Result<bool, Throwable>)
      modifies this
      ensures r == ExecuteInTransaction(tx, Ok(id in old(store))).result
      ensures store == if ExecuteInTransaction(tx, Ok(id in old(store))).committed then old(store) - {id} else old(store)
    {
      var found := id in store;
      var run := ExecuteInTransaction(tx, Ok(found));
      if run.committed {
        store := store - {id};
      }
      r := run.result;
    }

    /** `deleteEntity`: removes the row of the entity's id. */
    method DeleteEntity(entity: T, tx: TxEnv) returns (outcome: Outcome<Throwable>)
      modifies this
      ensures var run := RunInTransaction(tx, Pass);
        (outcome.Pass? <==> run.result.Ok?) && (outcome.Fail? ==> outcome.error == run.result.error)
      ensures store == if RunInTransaction(tx, Pass).committed then old(store) - {idOf(entity)} else old(store)
    {
      var run := RunInTransaction(tx, Pass);
      if run.committed {
        store := store - {idOf(entity)};
      }
      outcome := if run.result.Ok? then Pass else Fail(run.result.error);
    }

    /** `deleteAll(ids)`: an empty collection returns 0 without opening a transaction; otherwise
        the bulk delete removes the rows of the listed ids and returns how many there were. */
    method DeleteAll(ids: seq<ID>, tx: TxEnv) returns (r: Result<nat, Throwable>, transacted: bool)
      modifies this
      ensures transacted <==> |ids| > 0
      ensures |ids| == 0 ==> r == Ok(0) && store == old(store)
      ensures |ids| > 0 ==> r == ExecuteInTransaction(tx, Ok(|set i | i in ids && i in old(store)|)).result
      ensures |ids| > 0 ==> (store ==
        if ExecuteInTransaction(tx, Ok(|set i | i in ids && i in old(store)|)).committed
        then old(store) - set i | i in ids else old(store))
    {
      if |ids| == 0 {
        return Ok(0), false;
      }
      var deleted := |set i | i in ids && i in store|;
      var run := ExecuteInTransaction(tx, Ok(deleted));
      if run.committed {
        store := store - set i | i in ids;
      }
      return run.result, true;
    }

    /** `findById`: the row of `id`, if any. */
    method FindById(id: ID, tx: TxEnv) returns (r: Result<Option<T>, Throwable>)
      ensures r == ExecuteInTransaction(tx, Ok(if id in store then Some(store[id]) else None)).result
    {
      r := ExecuteInTransaction(tx, Ok(if id in store then Some(store[id]) else None)).result;
    }

    /** `findAll()`: every row, once, in the database's order (`order` lists their ids). */
    method FindAll(tx: TxEnv) returns (r: Result<seq<T>, Throwable>, order: seq<ID>)
      ensures r.Ok? ==> |r.value| == |order| == |store|
      ensures forall id :: id in order <==> id in store
      ensures r.Ok? ==> r.value == ValuesAt(store, order)
      ensures r == ExecuteInTransaction(tx, Ok(ValuesAt(store, order))).result
      ensures r.Err? ==> r == ExecuteInTransaction(tx, Ok([])).result
    {
      var rows;
      order, rows := Enumerate(store, store.Keys);
      DistinctCover(order, store.Keys);
      r := ExecuteInTransaction(tx, Ok(rows)).result;
    }

    /** `findAll(pageNumber, pageSize, sortBy, ascending)`; `rows` is what the database returns
        for the plan. */
    method FindAllPage(pageNumber: int32, pageSize: int32, sortBy: Option<string>, ascending: bool,
                       tx: TxEnv, rows: seq<T>)
      returns (plan: Result<QueryPlan<V>, Throwable>, r: Result<seq<T>, Throwable>)
      ensures plan == FindAllPlan(metamodel, pageNumber, pageSize, sortBy, ascending)
      ensures r == ExecuteInTransaction(tx, QueryBuilders.WithRows(plan, rows)).result
      ensures r.Ok? ==> plan.Ok? && plan.value.firstResult.value >= 0 && r.value == rows
    {
      plan := FindAllPlan(metamodel, pageNumber, pageSize, sortBy, ascending);
      r := ExecuteInTransaction(tx, QueryBuilders.WithRows(plan, rows)).result;
      ReturnsOnlyCommitted(tx, QueryBuilders.WithRows(plan, rows));
    }

    /** `findAllById(ids)`: an empty collection returns an empty list without opening a
        transaction; otherwise the rows of the listed ids, once each, in the database's order
        (`order` lists their ids). */
    method FindAllById(ids: seq<ID>, tx: TxEnv) returns (r: Result<seq<T>, Throwable>, transacted: bool, order: seq<ID>)
      ensures transacted <==> |ids| > 0
      ensures |ids| == 0 ==> r == Ok([]) && order == []
      ensures forall id :: id in order <==> id in ids && id in store
      ensures forall i, j :: 0 <= i < j < |order| ==> order[i] != order[j]
      ensures forall i :: 0 <= i < |order| ==> order[i] in store
      ensures r.Ok? ==> r.value == ValuesAt(store, order)
      ensures r.Ok? ==> |r.value| == |set id | id in ids && id in store|
      ensures |ids| > 0 ==> r == ExecuteInTransaction(tx, Ok(ValuesAt(store, order))).result
      ensures r.Err? ==> r == ExecuteInTransaction(tx, Ok([])).result
    {
      if |ids| == 0 {
        return Ok([]), false, [];
      }
      var rows;
      order, rows := Enumerate(store, set id | id in ids);
      DistinctCover(order, set id | id in ids && id in store);
      r := ExecuteInTransaction(tx, Ok(rows)).result;
      transacted := true;
    }

    /** `findByAttribute(attribute, value)`: the first row the database returns (`rows`) for
        one EQUAL filter on the attribute. */
    method FindByAttribute(attribute: string, value: V, tx: TxEnv, rows: seq<T>)
      returns (plan: Result<QueryPlan<V>, Throwable>, r: Result<Option<T>, Throwable>)
      ensures plan == AttributePlan(metamodel, attribute, value)
      ensures r == ExecuteInTransaction(tx, QueryBuilders.WithRows(plan, FirstRow(rows))).result
    {
      var path := WalkPath(metamodel, [attribute]);
      plan := if path.Ok? then Ok(QueryPlan(Some([Filter([attribute], Equal(value))]), None, None, None)) else Err(path.error);
      r := ExecuteInTransaction(tx, QueryBuilders.WithRows(plan, FirstRow(rows))).result;
    }

    /** `findAllByAttribute(attribute, value)`: every row the database returns (`rows`) for the
        same single EQUAL filter. */
    method FindAllByAttribute(attribute: string, value: V, tx: TxEnv, rows: seq<T>)
      returns (plan: Result<QueryPlan<V>, Throwable>, r: Result<seq<T>, Throwable>)
      ensures plan == AttributePlan(metamodel, attribute, value)
      ensures r == ExecuteInTransaction(tx, QueryBuilders.WithRows(plan, rows)).result
      ensures r.Ok? ==> plan.Ok? && r.value == rows
    {
      var path := WalkPath(metamodel, [attribute]);
      plan := if path.Ok? then Ok(QueryPlan(Some([Filter([attribute], Equal(value))]), None, None, None)) else Err(path.error);
      r := ExecuteInTransaction(tx, QueryBuilders.WithRows(plan, rows)).result;
      ReturnsOnlyCommitted(tx, QueryBuilders.WithRows(plan, rows));
    }

    /** The map form of `applyPredicates`: one EQUAL filter per entry, in the map's iteration
        order (`order`), dotted keys walked segment by segment; the first key that does not
        resolve throws. */
    method AttributeFilters(attributes: map<string, V>) returns (order: seq<string>, r: Result<seq<Filter<V>>, Throwable>)
      ensures forall k :: k in order <==> k in attributes
      ensures forall i, j :: 0 <= i < j < |order| ==> order[i] != order[j]
      ensures r.Ok? <==> forall k :: k in attributes ==> ResolvePath(metamodel, k).Ok?
      ensures r.Ok? ==> (|r.value| == |order| &&
        forall i :: 0 <= i < |order| ==>
          r.value[i] == Filter(ResolvePath(metamodel, order[i]).value, Equal(attributes[order[i]])))
      ensures r.Err? ==> IsRuntime(r.error.kind)
    {
      var values;
      order, values := Enumerate(attributes, attributes.Keys);
      var filters: seq<Filter<V>> := [];
      var i := 0;
      while i < |order|
        invariant 0 <= i <= |order|
        invariant |filters| == i
        invariant forall j :: 0 <= j < i ==> (ResolvePath(metamodel, order[j]).Ok? &&
          filters[j] == Filter(ResolvePath(metamodel, order[j]).value, Equal(attributes[order[j]])))
      {
        var key := order[i];
        var path := ResolvePath(metamodel, key);
        if path.Err? {
          WalkPathResolves(metamodel, AttributePath(key));
          return order, Err(path.error);
        }
        filters := filters + [Filter(path.value, Equal(attributes[key]))];
        i := i + 1;
      }
      r := Ok(filters);
      forall k | k in attributes
        ensures ResolvePath(metamodel, k).Ok?
      {
        var j :| 0 <= j < |order| && order[j] == k;
      }
    }

    /** The criteria query of `findByAttributes` and `findAllByAttributes`: the conjunction of
        one EQUAL filter per entry, in the iteration order `order`, and no order or window; it
        is built iff every key resolves, and otherwise fails with a RuntimeException. */
    ghost predicate AttributesQuery(attributes: map<string, V>, order: seq<string>, plan: Result<QueryPlan<V>, Throwable>) {
      (forall k :: k in order <==> k in attributes)
      && (forall i, j :: 0 <= i < j < |order| ==> order[i] != order[j])
      && (plan.Ok? <==> forall k :: k in attributes ==> ResolvePath(metamodel, k).Ok?)
      && (plan.Err? ==> IsRuntime(plan.error.kind))
      && (plan.Ok? ==>
            plan.value.order.None? && plan.value.firstResult.None? && plan.value.maxResults.None?
            && plan.value.where.Some? && |plan.value.where.value| == |order|
            && forall i :: 0 <= i < |order| ==>
                 plan.value.where.value[i] == Filter(ResolvePath(metamodel, order[i]).value, Equal(attributes[order[i]])))
    }

    /** `findByAttributes`: the first row the database returns (`rows`) for the attribute query
        `plan`; a RuntimeException while building the filters or running the query gives an
        empty result instead. */
    method FindByAttributes(attributes: map<string, V>, tx: TxEnv, rows: Result<seq<T>, Throwable>)
      returns (order: seq<string>, plan: Result<QueryPlan<V>, Throwable>, r: Result<Option<T>, Throwable>)
      ensures AttributesQuery(attributes, order, plan)
      ensures plan.Err? ==> r == ExecuteInTransaction(tx, Ok(None)).result
      ensures plan.Ok? ==> r == ExecuteInTransaction(tx, Degrade(rows, FirstRow)).result
    {
      var filters;
      order, filters := AttributeFilters(attributes);
      plan := if filters.Err? then Err(filters.error) else Ok(QueryPlan(Some(filters.value), None, None, None));
      var action := if plan.Err? then Ok(None) else Degrade(rows, FirstRow);
      r := ExecuteInTransaction(tx, action).result;
    }

    /** `findAllByAttributes`: as `findByAttributes`, with every row and an empty list on a
        RuntimeException. */
    method FindAllByAttributes(attributes: map<string, V>, tx: TxEnv, rows: Result<seq<T>, Throwable>)
      returns (order: seq<string>, plan: Result<QueryPlan<V>, Throwable>, r: Result<seq<T>, Throwable>)
      ensures AttributesQuery(attributes, order, plan)
      ensures plan.Err? ==> r == ExecuteInTransaction(tx, Ok([])).result
      ensures plan.Ok? ==> r == ExecuteInTransaction(tx, Degrade(rows, (all: seq<T>) => all)).result
    {
      var filters;
      order, filters := AttributeFilters(attributes);
      plan := if filters.Err? then Err(filters.error) else Ok(QueryPlan(Some(filters.value), None, None, None));
      var action := if plan.Err? then Ok([]) else Degrade(rows, (all: seq<T>) => all);
      r := ExecuteInTransaction(tx, action).result;
    }

    /** `query()`: a fresh builder over the entity's metamodel. */
    method Query() returns (builder: QueryBuilders.QueryBuilder<T, V>)
      ensures fresh(builder) && builder.metamodel == metamodel
      ensures builder.predicates == [] && builder.sortBy.None? && builder.offset == 0 && builder.limit as int == INT_MAX
    {
      builder := new QueryBuilders.QueryBuilder(metamodel);
    }
  }

  /** Running the query: its rows shaped by `shape`, an empty shape of nothing on a
      RuntimeException, any other failure passed on. */
  function Degrade<X, R>(rows: Result<seq<X>, Throwable>, shape: seq<X> -> R): Result<R, Throwable>
    ensures rows.Ok? ==> Degrade(rows, shape) == Ok(shape(rows.value))
    ensures rows.Err? && IsRuntime(rows.error.kind) ==> Degrade(rows, shape) == Ok(shape([]))
  {
    if rows.Ok? then Ok(shape(rows.value))
    else if IsRuntime(rows.error.kind) then Ok(shape([]))
    else Err(rows.error)
  }

  /** A sequence without repeats covering a set has the set's size. */
  lemma {:induction false} DistinctCover<K>(order: seq<K>, s: set<K>)
    requires forall i, j :: 0 <= i < j < |order| ==> order[i] != order[j]
    requires forall k :: k in order <==> k in s
    ensures |order| == |s|
    decreases |order|
  {
    if |order| > 0 {
      var last := order[|order| - 1];
      var init := order[..|order| - 1];
      assert forall k :: k in init <==> k in s - {last} by {
        forall k ensures k in init <==> k in s - {last} {
          if k in init {
            var i :| 0 <= i < |init| && init[i] == k;
            assert order[i] == k && order[|order| - 1] == last;
          }
          if k in s - {last} {
            assert k in order;
            var i :| 0 <= i < |order| && order[i] == k;
            assert i != |order| - 1;
            assert init[i] == k;
          }
        }
      }
      DistinctCover(init, s - {last});
    } else {
      assert forall k :: k !in s;
      assert s == {};
    }
  }
}

=== FILE: cached_repository.dfy ===
/** `CachedRepository`: a `BaseRepository` with two write-through caches, entities by id and
    entities by business key. */
module CachedRepositories {
  import opened Wrappers
  import opened JavaLang
  import opened Transactions
  import opened QueryPlans
  import opened BaseRepositories

  /** `stream.skip(n).limit(size)`: `skip` rejects a negative count. */
  function SkipLimit<X>(xs: seq<X>, skip: int, size: nat): (r: Result<seq<X>, Throwable>)
    ensures r.Ok? <==> skip >= 0
    ensures r.Ok? ==> |r.value| <= size
    ensures r.Ok? ==> forall i :: 0 <= i < |r.value| ==> skip + i < |xs| && r.value[i] == xs[skip + i]
    ensures r.Ok? && skip + size <= |xs| ==> |r.value| == size
    ensures r.Ok? ==> |r.value| == if skip >= |xs| then 0 else if skip + size <= |xs| then size else |xs| - skip
  {
    if skip < 0 then Err(Throwable(IllegalArgumentException, None, None))
    else if skip >= |xs| then Ok([])
    else if skip + size <= |xs| then Ok(xs[skip..skip + size])
    else Ok(xs[skip..])
  }

  class CachedRepository<ID(==, !new), T, K(==, !new)> {
    const base: BaseRepository<ID, T, K>
    var idCache: map<ID, T>
    var keyCache: map<K, T>
    /** `keyExtractor`. */
    const keyOf: T -> K
    /** The reflective `getId()` call: `None` when it returns null or the method is missing. */
    const idExtractor: T -> Option<ID>

    /** A repository with empty caches. */
    constructor(base: BaseRepository<ID, T, K>, keyOf: T -> K, idExtractor: T -> Option<ID>)
      ensures this.base == base && this.keyOf == keyOf && this.idExtractor == idExtractor
      ensures idCache == map[] && keyCache == map[]
    {
      this.base := base;
      this.keyOf := keyOf;
      this.idExtractor := idExtractor;
      idCache := map[];
      keyCache := map[];
    }

    /** The key cache after `cacheEntity(e)`. */
    function KeyPut(keys: map<K, T>, e: T): (r: map<K, T>)
      ensures r == keys[keyOf(e) := e]
    {
      keys[keyOf(e) := e]
    }

    /** The id cache after `cacheEntity(e)`: written only when the entity has an id. */
    function IdPut(ids: map<ID, T>, e: T): (r: map<ID, T>)
      ensures idExtractor(e).None? ==> r == ids
      ensures idExtractor(e).Some? ==> r == ids[idExtractor(e).value := e]
    {
      match idExtractor(e)
      case None => ids
      case Some(id) => ids[id := e]
    }

    /** Both caches after `forEach(this::cacheEntity)`. */
    function CacheAll(keys: map<K, T>, ids: map<ID, T>, es: seq<T>): (r: (map<K, T>, map<ID, T>))
      decreases |es|
    {
      if |es| == 0 then (keys, ids) else CacheAll(KeyPut(keys, es[0]), IdPut(ids, es[0]), es[1..])
    }

    /** Caching a list only adds and overwrites: no key is dropped, every entity's key is cached,
        and the last entity with a given key is the one cached under it. */
    lemma {:induction false} CacheAllWritesThrough(keys: map<K, T>, ids: map<ID, T>, es: seq<T>)
      ensures keys.Keys <= CacheAll(keys, ids, es).0.Keys && ids.Keys <= CacheAll(keys, ids, es).1.Keys
      ensures forall i :: 0 <= i < |es| ==> keyOf(es[i]) in CacheAll(keys, ids, es).0
      ensures forall i :: 0 <= i < |es| && (forall j :: i < j < |es| ==> keyOf(es[j]) != keyOf(es[i])) ==>
        CacheAll(keys, ids, es).0[keyOf(es[i])] == es[i]
      ensures forall k :: k in keys && (forall j :: 0 <= j < |es| ==> keyOf(es[j]) != k) ==>
        CacheAll(keys, ids, es).0[k] == keys[k]
      decreases |es|
    {
      if |es| > 0 {
        CacheAllWritesThrough(KeyPut(keys, es[0]), IdPut(ids, es[0]), es[1..]);
        assert forall i :: 1 <= i < |es| ==> es[1..][i - 1] == es[i];
      }
    }

    /** The loop over a list calling `cacheEntity` for each element. */
    method CacheEach(es: seq<T>)
      modifies this
      ensures (keyCache, idCache) == CacheAll(old(keyCache), old(idCache), es)
    {
      var i := 0;
      while i < |es|
        invariant 0 <= i <= |es|
        invariant CacheAll(old(keyCache), old(idCache), es) == CacheAll(keyCache, idCache, es[i..])
      {
        assert es[i..][1..] == es[i + 1..];
        CacheEntity(es[i]);
        i := i + 1;
      }
      assert es[i..] == [];
    }

    /** `cacheEntity`: puts the entity under its key, and under its id when it has one. */
    method CacheEntity(e: T)
      modifies this
      ensures keyCache == KeyPut(old(keyCache), e) && idCache == IdPut(old(idCache), e)
    {
      keyCache := keyCache[keyOf(e) := e];
      var id := idExtractor(e);
      if id.Some? {
        idCache := idCache[id.value := e];
      }
    }

    /** `findById`: a cached entity is returned without touching the store; a miss asks the
        store and caches what it finds under the asked id and under its key. */
    method FindById(id: ID, tx: TxEnv) returns (r: Result<Option<T>, Throwable>)
      modifies this
      ensures id in old(idCache) ==> r == Ok(Some(old(idCache)[id])) && keyCache == old(keyCache) && idCache == old(idCache)
      ensures id !in old(idCache) ==>
        r == ExecuteInTransaction(tx, Ok(if id in base.store then Some(base.store[id]) else None)).result
      ensures id !in old(idCache) && r.Ok? && r.value.Some? ==>
        idCache == old(idCache)[id := r.value.value] && keyCache == KeyPut(old(keyCache), r.value.value)
      ensures !(r.Ok? && r.value.Some?) ==> keyCache == old(keyCache) && idCache == old(idCache)
    {
      if id in idCache {
        return Ok(Some(idCache[id]));
      }
      r := base.FindById(id, tx);
      if r.Ok? && r.value.Some? {
        idCache := idCache[id := r.value.value];
        keyCache := keyCache[keyOf(r.value.value) := r.value.value];
      }
    }

    /** `findByKey(key)`: the key cache alone, never the store. */
    function FindByKey(key: K): (r: Option<T>)
      reads this
      ensures r.Some? <==> key in keyCache
      ensures r.Some? ==> r.value == keyCache[key]
    {
      if key in keyCache then Some(keyCache[key]) else None
    }

    /** `findByKey(queryAttribute, key)`: a cached entity, or else the store's first row whose
        attribute equals `key` (`rows`), cached under the asked key (not its own key) and under
        its id when it has one. */
    method FindByKeyQuery(queryAttribute: string, key: K, tx: TxEnv, rows: seq<T>) returns (r: Result<Option<T>, Throwable>)
      modifies this
      ensures key in old(keyCache) ==> r == Ok(Some(old(keyCache)[key])) && keyCache == old(keyCache) && idCache == old(idCache)
      ensures key !in old(keyCache) && r.Ok? && r.value.Some? ==>
        keyCache == old(keyCache)[key := r.value.value] && idCache == IdPut(old(idCache), r.value.value)
      ensures key !in old(keyCache) ==>
        r == ExecuteInTransaction(tx, QueryBuilders.WithRows(AttributePlan(base.metamodel, queryAttribute, key), FirstRow(rows))).result
      ensures !(r.Ok? && r.value.Some?) ==> keyCache == old(keyCache) && idCache == old(idCache)
    {
      if key in keyCache {
        return Ok(Some(keyCache[key]));
      }
      var _, found := base.FindByAttribute(queryAttribute, key, tx, rows);
      r := found;
      if r.Ok? && r.value.Some? {
        var e := r.value.value;
        keyCache := keyCache[key := e];
        var id := idExtractor(e);
        if id.Some? {
          idCache := idCache[id.value := e];
        }
      }
    }

    /** The outcome of the `findByKey(queryAttribute, key)` query on a cache miss. */
    function KeyQuery(queryAttribute: string, key: K, tx: TxEnv, rows: seq<T>): Result<Option<T>, Throwable>
      reads this
    {
      ExecuteInTransaction(tx, QueryBuilders.WithRows(AttributePlan(base.metamodel, queryAttribute, key), FirstRow(rows))).result
    }

    /** `getOrCreate`: the entity found by key, or else `create(creator(key))` (in a second
        transaction, `createTx`). A failing lookup is rethrown and nothing is created. */
    method GetOrCreate(queryAttribute: string, key: K, creator: K -> T, tx: TxEnv, rows: seq<T>, createTx: TxEnv)
      returns (r: Result<T, Throwable>)
      modifies this, base
      ensures key in old(keyCache) ==>
        r == Ok(old(keyCache)[key]) && base.store == old(base.store)
        && keyCache == old(keyCache) && idCache == old(idCache)
      ensures key !in old(keyCache) && KeyQuery(queryAttribute, key, tx, rows).Err? ==>
        r == Err(KeyQuery(queryAttribute, key, tx, rows).error) && base.store == old(base.store)
        && keyCache == old(keyCache) && idCache == old(idCache)
      ensures key !in old(keyCache) && KeyQuery(queryAttribute, key, tx, rows).Ok?
              && KeyQuery(queryAttribute, key, tx, rows).value.Some? ==>
        var e := KeyQuery(queryAttribute, key, tx, rows).value.value;
        r == Ok(e) && base.store == old(base.store)
        && keyCache == old(keyCache)[key := e] && idCache == IdPut(old(idCache), e)
      ensures key !in old(keyCache) && KeyQuery(queryAttribute, key, tx, rows) == Ok(None) ==>
        var created := creator(key);
        var run := ExecuteInTransaction(createTx, Ok(created));
        r == run.result
        && base.store == (if run.committed then old(base.store)[base.idOf(created) := created] else old(base.store))
        && (r.Ok? ==> keyCache == KeyPut(old(keyCache), created) && idCache == IdPut(old(idCache), created))
        && (r.Err? ==> keyCache == old(keyCache) && idCache == old(idCache))
    {
      var found := FindByKeyQuery(queryAttribute, key, tx, rows);
      if found.Err? {
        return Err(found.error);
      }
      if found.value.Some? {
        return Ok(found.value.value);
      }
      r := Create(creator(key), createTx);
    }

    /** `findAll(pageNumber, pageSize)`: served from the key cache when it is non-empty and holds
        at least `pageSize` entries (skip `max(p, 0) * max(s, 1)`, at most `max(s, 1)` values,
        `order` listing their keys in the map's order); otherwise from the store, caching every
        row it returns. */
    method FindAllPage(pageNumber: int32, pageSize: int32, tx: TxEnv, rows: seq<T>)
      returns (r: Result<seq<T>, Throwable>, order: seq<K>)
      modifies this, base
      ensures base.store == old(base.store)
      ensures |old(keyCache)| > 0 && |old(keyCache)| >= pageSize as int ==>
        keyCache == old(keyCache) && idCache == old(idCache) &&
        (forall k :: k in order <==> k in old(keyCache)) && |order| == |old(keyCache)| &&
        r == SkipLimit(ValuesAt(old(keyCache), order), Mul32(Max(pageNumber, 0), Max(pageSize, 1)) as int, Max(pageSize, 1) as nat)
      ensures !(|old(keyCache)| > 0 && |old(keyCache)| >= pageSize as int) ==>
        r == ExecuteInTransaction(tx, QueryBuilders.WithRows(FindAllPlan<K>(base.metamodel, pageNumber, pageSize, None, true), rows)).result &&
        (r.Ok? ==> (keyCache, idCache) == CacheAll(old(keyCache), old(idCache), r.value)) &&
        (r.Err? ==> keyCache == old(keyCache) && idCache == old(idCache))
    {
      if |keyCache| > 0 && |keyCache| >= pageSize as int {
        var values;
        order, values := Enumerate(keyCache, keyCache.Keys);
        DistinctCover(order, keyCache.Keys);
        var size := Max(pageSize, 1);
        var offset := Mul32(Max(pageNumber, 0), size);
        return SkipLimit(values, offset as int, size as nat), order;
      }
      order := [];
      var _, found := base.FindAllPage(pageNumber, pageSize, None, true, tx, rows);
      r := found;
      if r.Ok? {
        CacheEach(r.value);
      }
    }

    /** `create`: write-through; nothing is cached when the store throws. */
    method Create(entity: T, tx: TxEnv) returns (r: Result<T, Throwable>)
      modifies this, base
      ensures r == ExecuteInTransaction(tx, Ok(entity)).result
      ensures base.store == if ExecuteInTransaction(tx, Ok(entity)).committed then old(base.store)[base.idOf(entity) := entity] else old(base.store)
      ensures r.Ok? ==> keyCache == KeyPut(old(keyCache), entity) && idCache == IdPut(old(idCache), entity)
      ensures r.Err? ==> keyCache == old(keyCache) && idCache == old(idCache)
    {
      r := base.Create(entity, tx);
      if r.Ok? {
        CacheEntity(r.value);
      }
    }

    /** `update`: write-through, like `create`. The entry under the entity's previous key is left
        in place. */
    method Update(entity: T, tx: TxEnv) returns (r: Result<T, Throwable>)
      modifies this, base
      ensures r == ExecuteInTransaction(tx, Ok(entity)).result
      ensures base.store == if ExecuteInTransaction(tx, Ok(entity)).committed then old(base.store)[base.idOf(entity) := entity] else old(base.store)
      ensures r.Ok? ==> keyCache == KeyPut(old(keyCache), entity) && idCache == IdPut(old(idCache), entity)
      ensures r.Err? ==> keyCache == old(keyCache) && idCache == old(idCache)
    {
      r := base.Update(entity, tx);
      if r.Ok? {
        CacheEntity(r.value);
      }
    }

    /** `save`: write-through, like `create`. */
    method Save(entity: T, tx: TxEnv) returns (r: Result<T, Throwable>)
      modifies this, base
      ensures r == ExecuteInTransaction(tx, Ok(entity)).result
      ensures base.store == if ExecuteInTransaction(tx, Ok(entity)).committed then old(base.store)[base.idOf(entity) := entity] else old(base.store)
      ensures r.Ok? ==> keyCache == KeyPut(old(keyCache), entity) && idCache == IdPut(old(idCache), entity)
      ensures r.Err? ==> keyCache == old(keyCache) && idCache == old(idCache)
    {
      r := base.Save(entity, tx);
      if r.Ok? {
        CacheEntity(r.value);
      }
    }

    /** `createAll`: write-through for every created entity, in order. */
    method CreateAll(entities: seq<T>, tx: TxEnv) returns (r: Result<seq<T>, Throwable>)
      modifies this, base
      ensures r == ExecuteInTransaction(tx, Ok(entities)).result
      ensures base.store == if ExecuteInTransaction(tx, Ok(entities)).committed then base.WriteAll(old(base.store), entities) else old(base.store)
      ensures r.Ok? ==> (keyCache, idCache) == CacheAll(old(keyCache), old(idCache), entities)
      ensures r.Err? ==> keyCache == old(keyCache) && idCache == old(idCache)
    {
      var created, _ := base.CreateAll(entities, tx);
      r := created;
      if r.Ok? {
        CacheEach(r.value);
      }
    }

    /** `delete(id)`: when the store deleted a row, the id is evicted (and the key of the entity
        cached under it); otherwise both caches are unchanged. */
    method Delete(id: ID, tx: TxEnv) returns (r: Result<bool, Throwable>)
      modifies this, base
      ensures r == ExecuteInTransaction(tx, Ok(id in old(base.store))).result
      ensures r == Ok(true) ==> (idCache == old(idCache) - {id} &&
        keyCache == if id in old(idCache) then old(keyCache) - {keyOf(old(idCache)[id])} else old(keyCache))
      ensures r != Ok(true) ==> keyCache == old(keyCache) && idCache == old(idCache)
      ensures base.store == if ExecuteInTransaction(tx, Ok(id in old(base.store))).committed
                            then old(base.store) - {id} else old(base.store)
    {
      r := base.Delete(id, tx);
      if r == Ok(true) {
        EvictById(id);
      }
    }

    /** `deleteEntity`: once the store has deleted it, the entity is evicted. */
    method DeleteEntity(entity: T, tx: TxEnv) returns (outcome: Outcome<Throwable>)
      modifies this, base
      ensures outcome.Pass? <==> RunInTransaction(tx, Pass).result.Ok?
      ensures outcome.Pass? ==> (keyCache == old(keyCache) - {keyOf(entity)} &&
        idCache == if idExtractor(entity).Some? then old(idCache) - {idExtractor(entity).value} else old(idCache))
      ensures outcome.Fail? ==> keyCache == old(keyCache) && idCache == old(idCache)
      ensures base.store == if RunInTransaction(tx, Pass).committed then old(base.store) - {base.idOf(entity)}
                            else old(base.store)
    {
      outcome := base.DeleteEntity(entity, tx);
      if outcome.Pass? {
        Evict(entity);
      }
    }

    /** `evict(e)`: drops the entity's key, and its id when it has one. */
    method Evict(e: T)
      modifies this
      ensures keyCache == old(keyCache) - {keyOf(e)}
      ensures idCache == if idExtractor(e).Some? then old(idCache) - {idExtractor(e).value} else old(idCache)
    {
      keyCache := keyCache - {keyOf(e)};
      var id := idExtractor(e);
      if id.Some? {
        idCache := idCache - {id.value};
      }
    }

    /** `evictById(id)`: drops the id, and the key of the entity cached under it. */
    method EvictById(id: ID)
      modifies this
      ensures idCache == old(idCache) - {id}
      ensures keyCache == if id in old(idCache) then old(keyCache) - {keyOf(old(idCache)[id])} else old(keyCache)
    {
      if id in idCache {
        keyCache := keyCache - {keyOf(idCache[id])};
      }
      idCache := idCache - {id};
    }

    /** `evictByKey(key)`: drops the key, and the id of the entity cached under it when it has one. */
    method EvictByKey(key: K)
      modifies this
      ensures keyCache == old(keyCache) - {key}
      ensures idCache ==
        if key in old(keyCache) && idExtractor(old(keyCache)[key]).Some?
        then old(idCache) - {idExtractor(old(keyCache)[key]).value} else old(idCache)
    {
      if key in keyCache {
        var id := idExtractor(keyCache[key]);
        if id.Some? {
          idCache := idCache - {id.value};
        }
      }
      keyCache := keyCache - {key};
    }

    /** `evictAll`: empties both caches. */
    method EvictAll()
      modifies this
      ensures keyCache == map[] && idCache == map[]
    {
      keyCache := map[];
      idCache := map[];
    }

    /** `preload`: caches every row of the store. */
    method Preload(tx: TxEnv) returns (outcome: Outcome<Throwable>, order: seq<ID>)
      modifies this
      ensures forall id :: id in order <==> id in base.store
      ensures var found := ExecuteInTransaction(tx, Ok(ValuesAt(base.store, order))).result;
        (outcome.Pass? <==> found.Ok?) && (outcome.Fail? ==> outcome.error == found.error)
      ensures outcome.Pass? ==>
        (keyCache, idCache) == CacheAll(old(keyCache), old(idCache), ValuesAt(base.store, order))
      ensures outcome.Fail? ==> keyCache == old(keyCache) && idCache == old(idCache)
    {
      var all;
      all, order := base.FindAll(tx);
      if all.Err? {
        return Fail(all.error), order;
      }
      CacheEach(all.value);
      outcome := Pass;
    }

    /** Caffeine's expiry and size eviction: any entries may disappear at any time. */
    method Expire(ids: set<ID>, keys: set<K>)
      modifies this
      ensures idCache == old(idCache) - ids && keyCache == old(keyCache) - keys
    {
      idCache := idCache - ids;
      keyCache := keyCache - keys;
    }

    /** `getCachedByKey`: a snapshot of the key cache. */
    function CachedByKey(): (r: map<K, T>)
      reads this
      ensures forall k :: k in r <==> FindByKey(k).Some?
    {
      keyCache
    }

    /** `getCachedById`: a snapshot of the id cache. */
    function CachedById(): (r: map<ID, T>)
      reads this
      ensures forall id :: id in r <==> id in idCache
      ensures forall id :: id in r ==> r[id] == idCache[id]
    {
      idCache
    }
  }

  /** The known gap: when `update` changes an entity's key, the entry under the old key survives
      and still finds the entity's old state. */
  method StaleKeyAfterUpdate<ID(==, !new), T, K(==, !new)>(repo: CachedRepository<ID, T, K>, before: T, after: T, tx: TxEnv)
    returns (r: Result<T, Throwable>)
    requires repo.keyOf(before) in repo.keyCache && repo.keyCache[repo.keyOf(before)] == before
    requires repo.keyOf(after) != repo.keyOf(before)
    modifies repo, repo.base
    ensures r.Ok? ==> repo.FindByKey(repo.keyOf(before)) == Some(before) && repo.FindByKey(repo.keyOf(after)) == Some(after)
  {
    r := repo.Update(after, tx);
  }

  /** A second `findById` of an id the first call cached is answered from the cache. */
  method FindByIdTwice<ID(==, !new), T, K(==, !new)>(repo: CachedRepository<ID, T, K>, id: ID, tx1: TxEnv, tx2: TxEnv)
    returns (r1: Result<Option<T>, Throwable>, r2: Result<Option<T>, Throwable>)
    modifies repo
    ensures r1.Ok? && r1.value.Some? ==> r2 == r1
  {
    r1 := repo.FindById(id, tx1);
    r2 := repo.FindById(id, tx2);
  }
}

=== FILE: class_model.dfy ===
/** The slice of `java.lang.Class` the repository registry reflects on: a class's name, its
    superclass and interfaces, its declared fields and its declared constructors. Classes are
    identified by their fully qualified name, as they are within one class loader. */
module ClassModel {
  import opened Wrappers

  /** A class. A class value holds its supertypes, so every hierarchy is finite and acyclic. */
  datatype JClass = JClass(
    name: string,
    superclass: Option<JClass>,
    interfaces: seq<JClass>,
    fields: seq<Field>,
    constructors: seq<seq<JClass>>)   // the parameter types of each declared constructor, in declaration order

  /** A declared field, with whether it carries `@InjectRepository`. */
  datatype Field = Field(name: string, fieldType: JClass, injectRepository: bool)

  /** `Class.isAssignableFrom` by name: `name` is the class `arg` itself or one of its supertypes. */
  predicate IsSubclassNamed(arg: JClass, name: string)
    decreases arg
  {
    arg.name == name
    || (arg.superclass.Some? && IsSubclassNamed(arg.superclass.value, name))
    || (exists i :: 0 <= i < |arg.interfaces| && IsSubclassNamed(arg.interfaces[i], name))
  }

  /** `param.isAssignableFrom(arg)`. */
  predicate IsAssignableFrom(param: JClass, arg: JClass) {
    IsSubclassNamed(arg, param.name)
  }

  /** `sub` is `sup` or lies below it in the hierarchy. */
  predicate Extends(sub: JClass, sup: JClass)
    decreases sub
  {
    sub == sup
    || (sub.superclass.Some? && Extends(sub.superclass.value, sup))
    || (exists i :: 0 <= i < |sub.interfaces| && Extends(sub.interfaces[i], sup))
  }

  /** Assignability passes down the hierarchy: whatever accepts a class accepts its subclasses. */
  lemma {:induction false} AssignableToSubclass(param: JClass, sup: JClass, sub: JClass)
    requires Extends(sub, sup) && IsAssignableFrom(param, sup)
    ensures IsAssignableFrom(param, sub)
    decreases sub
  {
    if sub == sup {
    } else if sub.superclass.Some? && Extends(sub.superclass.value, sup) {
      AssignableToSubclass(param, sup, sub.superclass.value);
    } else {
      var i :| 0 <= i < |sub.interfaces| && Extends(sub.interfaces[i], sup);
      AssignableToSubclass(param, sup, sub.interfaces[i]);
    }
  }

  /** The box class of each of the eight primitive types. */
  function BoxOf(primitive: string): (r: Option<string>)
  {
    match primitive
    case "int" => Some("java.lang.Integer")
    case "long" => Some("java.lang.Long")
    case "boolean" => Some("java.lang.Boolean")
    case "double" => Some("java.lang.Double")
    case "float" => Some("java.lang.Float")
    case "byte" => Some("java.lang.Byte")
    case "short" => Some("java.lang.Short")
    case "char" => Some("java.lang.Character")
    case _ => None
  }

  /** `isPrimitiveMatch`: a primitive parameter type accepts an argument of its box class. */
  predicate IsPrimitiveMatch(param: JClass, arg: JClass) {
    BoxOf(param.name) == Some(arg.name)
  }

  /** A primitive parameter accepts exactly one box class, and a reference parameter none. */
  lemma PrimitiveMatchIsOneBox(param: JClass, arg1: JClass, arg2: JClass)
    requires IsPrimitiveMatch(param, arg1)
    ensures IsPrimitiveMatch(param, arg2) <==> arg2.name == arg1.name
    ensures param.name in {"int", "long", "boolean", "double", "float", "byte", "short", "char"}
  {
  }

  /** `isCompatible`: equal arity, and each argument class is assignable to its parameter type
      or is the box of a primitive parameter type. */
  predicate IsCompatible(paramTypes: seq<JClass>, argTypes: seq<JClass>) {
    |paramTypes| == |argTypes|
    && forall i :: 0 <= i < |paramTypes| ==>
         IsAssignableFrom(paramTypes[i], argTypes[i]) || IsPrimitiveMatch(paramTypes[i], argTypes[i])
  }

  /** The names of a list of classes, as `getDeclaredConstructor(Class...)` compares them. */
  function Names(types: seq<JClass>): (r: seq<string>)
    ensures |r| == |types| && forall i :: 0 <= i < |types| ==> r[i] == types[i].name
  {
    if |types| == 0 then [] else Names(types[..|types| - 1]) + [types[|types| - 1].name]
  }

  /** `c` declares a constructor with exactly these parameter types. */
  predicate DeclaresConstructor(c: JClass, parameterNames: seq<string>) {
    exists i :: 0 <= i < |c.constructors| && Names(c.constructors[i]) == parameterNames
  }

  /** The message of the `NoSuchMethodException` that `getDeclaredConstructor` throws. */
  function ConstructorSignature(className: string, parameterNames: seq<string>): string {
    className + ".<init>(" + JoinComma(parameterNames) + ")"
  }

  function JoinComma(parts: seq<string>): string {
    if |parts| == 0 then ""
    else if |parts| == 1 then parts[0]
    else parts[0] + "," + JoinComma(parts[1..])
  }

  /** The number of classes on the superclass chain starting at `c`. */
  function ChainLength(c: Option<JClass>): nat
    decreases c
  {
    match c
    case None => 0
    case Some(k) => 1 + ChainLength(k.superclass)
  }
}

=== FILE: config_loader.dfy ===
/** `ConfigLoader`: turns the raw properties of a configuration file into the settings
    Hibernate is started with, per database vendor. */
module ConfigLoader {
  import opened Wrappers
  import opened JavaLang
  import opened DatabaseTypes
  import opened JavaProperties
  import opened AvailableSettings

  const DEFAULT_H2_URL: string := "jdbc:h2:mem:testdb;DB_CLOSE_DELAY=-1"

  /** The Hibernate settings copied verbatim when present; each is read and written under
      the same key. */
  const HIBERNATE_KEYS: set<string> := {HBM2DDL_AUTO, SHOW_SQL, FORMAT_SQL, USE_SQL_COMMENTS,
    HIGHLIGHT_SQL, STATEMENT_BATCH_SIZE, ORDER_INSERTS, ORDER_UPDATES, GENERATE_STATISTICS}

  /** The connection settings `applyDatabaseProperties` writes. */
  const CONNECTION_KEYS: set<string> := {JAKARTA_JDBC_URL, JAKARTA_JDBC_DRIVER, DIALECT,
    JAKARTA_JDBC_USER, JAKARTA_JDBC_PASSWORD}

  /** The keys written are pairwise distinct (told apart by length, or by one character). */
  lemma SettingKeysDistinct()
    ensures |JAKARTA_JDBC_URL| == 28 && |JAKARTA_JDBC_DRIVER| == 31 && |JAKARTA_JDBC_USER| == 29
    ensures |JAKARTA_JDBC_PASSWORD| == 33 && |DIALECT| == 17
    ensures JAKARTA_JDBC_USER != GENERATE_STATISTICS
    ensures CONNECTION_KEYS !! HIBERNATE_KEYS
  {
    ConnectionKeyLengths();
    assert JAKARTA_JDBC_USER[0] != GENERATE_STATISTICS[0];
    assert HIGHLIGHT_SQL[10] != ORDER_INSERTS[10];
  }

  function Get(m: map<string, string>, key: string): (r: Option<string>)
    ensures r.Some? <==> key in m
    ensures r.Some? ==> r.value == m[key]
  {
    if key in m then Some(m[key]) else None
  }

  /** A value given and not blank. */
  predicate Given(v: Option<string>) {
    v.Some? && !IsBlank(v.value)
  }

  /** `getDatabasePrefix`: the prefix of the vendor's own keys. */
  function DatabasePrefix(t: DatabaseType): string {
    match t
    case H2 => "h2"
    case MYSQL => "mysql"
    case MARIADB => "mariadb"
    case POSTGRESQL => "postgresql"
    case ORACLE => "oracle"
    case MSSQL_SERVER => "mssql"
    case SQLITE => "sqlite"
    case HSQLDB => "hsqldb"
  }

  /** `getDefaultDriver`. */
  function DefaultDriver(t: DatabaseType): string {
    match t
    case H2 => "org.h2.Driver"
    case MYSQL => "com.mysql.cj.jdbc.Driver"
    case MARIADB => "org.mariadb.jdbc.Driver"
    case POSTGRESQL => "org.postgresql.Driver"
    case ORACLE => "oracle.jdbc.OracleDriver"
    case MSSQL_SERVER => "com.microsoft.sqlserver.jdbc.SQLServerDriver"
    case SQLITE => "org.sqlite.JDBC"
    case HSQLDB => "org.hsqldb.jdbc.JDBCDriver"
  }

  /** `getDefaultDialect`. */
  function DefaultDialect(t: DatabaseType): string {
    match t
    case H2 => "org.hibernate.dialect.H2Dialect"
    case MYSQL => "org.hibernate.dialect.MySQLDialect"
    case MARIADB => "org.hibernate.dialect.MariaDBDialect"
    case POSTGRESQL => "org.hibernate.dialect.PostgreSQLDialect"
    case ORACLE => "org.hibernate.dialect.OracleDialect"
    case MSSQL_SERVER => "org.hibernate.dialect.SQLServerDialect"
    case SQLITE => "org.hibernate.community.dialect.SQLiteDialect"
    case HSQLDB => "org.hibernate.dialect.HSQLDialect"
  }

  /** Every vendor has its own prefix, so no two vendors read each other's keys. */
  lemma {:induction false} DatabasePrefixInjective(a: DatabaseType, b: DatabaseType)
    ensures DatabasePrefix(a) == DatabasePrefix(b) ==> a == b
  {
    if DatabasePrefix(a) == DatabasePrefix(b) {
      assert |DatabasePrefix(a)| == |DatabasePrefix(b)| && DatabasePrefix(a)[0] == DatabasePrefix(b)[0];
      assert DatabasePrefix(a)[1] == DatabasePrefix(b)[1];
    }
  }

  /** The name `valueOf` is asked for: uppercased, then `-` replaced by `_`. */
  function NormalizeTypeName(s: string): (r: string)
    ensures |r| == |s|
    ensures forall i :: 0 <= i < |r| ==> r[i] != '-' && !IsAsciiLower(r[i])
  {
    ReplaceChar(ToUpper(s), '-', '_')
  }

  const UNSUPPORTED_TYPE: string := "Unsupported database type"
  const IS_REQUIRED: string := " is required"

  /** The vendor names in declaration order, as `resolveDatabaseType` lists them. */
  const SUPPORTED_TYPES: string :=
    "ORACLE" + (", " + ("MSSQL_SERVER" + (", " + ("POSTGRESQL" + (", " + ("MYSQL" + (", " + ("MARIADB"
    + (", " + ("SQLITE" + (", " + ("HSQLDB" + (", " + "H2")))))))))))))

  /** Joining one more name in front of a non-empty list. */
  lemma JoinCons(t: DatabaseType, rest: seq<DatabaseType>, sep: string)
    requires |rest| > 0
    ensures JoinNames([t] + rest, sep) == Name(t) + (sep + JoinNames(rest, sep))
  {
    assert ([t] + rest)[1..] == rest;
  }

  /** The listed names are `Arrays.stream(values()).map(Enum::name).collect(Collectors.joining(", "))`. */
  lemma SupportedTypesJoinsValues(values: seq<DatabaseType>)
    requires values == Values
    ensures SUPPORTED_TYPES == JoinNames(values, ", ")
  {
    var sep := ", ";
    var s7 := [H2];
    var s6 := [HSQLDB] + s7;
    var s5 := [SQLITE] + s6;
    var s4 := [MARIADB] + s5;
    var s3 := [MYSQL] + s4;
    var s2 := [POSTGRESQL] + s3;
    var s1 := [MSSQL_SERVER] + s2;
    assert values == [ORACLE] + s1;
    JoinCons(HSQLDB, s7, sep);
    JoinCons(SQLITE, s6, sep);
    JoinCons(MARIADB, s5, sep);
    JoinCons(MYSQL, s4, sep);
    JoinCons(POSTGRESQL, s3, sep);
    JoinCons(MSSQL_SERVER, s2, sep);
    JoinCons(ORACLE, s1, sep);
  }

  /** `resolveDatabaseType`: H2 when the type is missing or blank, otherwise the constant named
      by the normalised text, otherwise IllegalArgumentException listing the supported names. */
  function ResolveDatabaseType(dbType: Option<string>): (r: Result<DatabaseType, Throwable>)
    ensures !Given(dbType) ==> r == Ok(H2)
    ensures Given(dbType) ==> (r.Ok? <==> exists t :: Name(t) == NormalizeTypeName(dbType.value))
    ensures Given(dbType) && r.Ok? ==> Name(r.value) == NormalizeTypeName(dbType.value)
    ensures r.Err? ==> r.error.kind == IllegalArgumentException && r.error.cause == None
    ensures r.Err? ==> r.error.message == Some(UNSUPPORTED_TYPE + (" '" + dbType.value + "'. Supported types: " + SUPPORTED_TYPES))
  {
    if !Given(dbType) then Ok(H2)
    else match ValueOf(NormalizeTypeName(dbType.value))
      case Ok(t) => Ok(t)
      case Err(_) => Err(Raise(IllegalArgumentException,
        UNSUPPORTED_TYPE + (" '" + dbType.value + "'. Supported types: " + SUPPORTED_TYPES)))
  }

  /** Uppercasing undoes lowercasing on enum-name characters, and `-` back to `_` undoes `_` to `-`. */
  lemma NormalizeRespelled(n: string)
    requires forall i :: 0 <= i < |n| ==> EnumNameChar(n[i])
    ensures NormalizeTypeName(n) == n
    ensures NormalizeTypeName(ReplaceChar(ToLower(n), '_', '-')) == n
  {
    var spelled := ReplaceChar(ToLower(n), '_', '-');
    assert forall i :: 0 <= i < |n| ==> NormalizeTypeName(spelled)[i] == n[i];
  }

  /** An enum name is not blank. */
  lemma NameNotBlank(t: DatabaseType, s: string)
    requires |s| == |Name(t)| && 0 < |s|
    requires !IsWhitespace(s[0])
    ensures Given(Some(s))
  {
  }

  /** The resolution ignores case and accepts `-` for `_`: the lowercase, hyphenated spelling
      of any vendor name (`mssql-server`) resolves to that vendor. */
  lemma {:induction false} ResolveIgnoresCaseAndHyphens(t: DatabaseType)
    ensures ResolveDatabaseType(Some(Name(t))) == Ok(t)
    ensures ResolveDatabaseType(Some(ReplaceChar(ToLower(Name(t)), '_', '-'))) == Ok(t)
  {
    var n := Name(t);
    NameChars(t);
    NormalizeRespelled(n);
    var spelled := ReplaceChar(ToLower(n), '_', '-');
    assert |n| > 0 && EnumNameChar(n[0]);
    NameNotBlank(t, n);
    NameNotBlank(t, spelled);
    var r := ResolveDatabaseType(Some(n));
    NameInjective(r.value, t);
    var r' := ResolveDatabaseType(Some(spelled));
    NameInjective(r'.value, t);
  }

  /** The URL `applyDatabaseProperties` writes: the vendor's non-blank URL, else the in-memory
      default for H2, else none. */
  function UrlSetting(raw: map<string, string>, prefix: string, t: DatabaseType): Option<string> {
    var url := Get(raw, prefix + ".url");
    if Given(url) then url
    else if t == H2 then Some(DEFAULT_H2_URL)
    else None
  }

  /** The vendor's non-blank driver, else the vendor default. */
  function DriverSetting(raw: map<string, string>, prefix: string, t: DatabaseType): string {
    var driver := Get(raw, prefix + ".driver");
    if Given(driver) then driver.value else DefaultDriver(t)
  }

  /** The vendor's non-blank dialect, else the vendor default. */
  function DialectSetting(raw: map<string, string>, prefix: string, t: DatabaseType): string {
    var dialect := Get(raw, prefix + ".dialect");
    if Given(dialect) then dialect.value else DefaultDialect(t)
  }

  /** "Database <field> is required for <type>. Set '<prefix>.<field>' in configuration." */
  function MissingCredentialMessage(field: string, t: DatabaseType, prefix: string): string {
    "Database " + (field + IS_REQUIRED) + (" for " + Name(t) + ". Set '" + prefix + "." + field + "' in configuration.")
  }

  /** The message names the missing field: it contains "<field> is required". */
  lemma MissingCredentialMentions(field: string, t: DatabaseType, prefix: string)
    ensures Contains(MissingCredentialMessage(field, t, prefix), field + IS_REQUIRED)
  {
    ContainsInfix("Database ", field + IS_REQUIRED, " for " + Name(t) + ". Set '" + prefix + "." + field + "' in configuration.");
  }

  /** `applyCredentials`: H2 defaults the user to `sa` and the password to the empty string;
      any other vendor needs a non-blank user (checked first) and a password. */
  function CredentialsSetting(raw: map<string, string>, prefix: string, t: DatabaseType)
    : Result<(string, string), Throwable>
  {
    var username := Get(raw, prefix + ".username");
    var password := Get(raw, prefix + ".password");
    if t == H2 then Ok((username.GetOr("sa"), password.GetOr("")))
    else if !Given(username) then Err(Raise(IllegalArgumentException, MissingCredentialMessage("username", t, prefix)))
    else if password.None? then Err(Raise(IllegalArgumentException, MissingCredentialMessage("password", t, prefix)))
    else Ok((username.value, password.value))
  }

  /** The URL (when there is one), the driver and the dialect. */
  function LocationEntries(raw: map<string, string>, prefix: string, t: DatabaseType): map<string, string>
  {
    var url := UrlSetting(raw, prefix, t);
    (if url.Some? then map[JAKARTA_JDBC_URL := url.value] else map[])
      [JAKARTA_JDBC_DRIVER := DriverSetting(raw, prefix, t)]
      [DIALECT := DialectSetting(raw, prefix, t)]
  }

  /** The connection entries, the credentials last. */
  function ConnectionEntries(raw: map<string, string>, prefix: string, t: DatabaseType, user: string, password: string)
    : map<string, string>
  {
    LocationEntries(raw, prefix, t)[JAKARTA_JDBC_USER := user][JAKARTA_JDBC_PASSWORD := password]
  }

  /** The three writes of `applyDatabaseProperties` before the credentials add `LocationEntries`. */
  lemma LocationWrites(base: map<string, string>, src: map<string, string>, prefix: string, t: DatabaseType,
      withUrl: map<string, string>, withDriver: map<string, string>, withDialect: map<string, string>)
    requires withUrl == (if Given(Get(src, prefix + ".url")) then base[JAKARTA_JDBC_URL := src[prefix + ".url"]]
                         else if t == H2 then base[JAKARTA_JDBC_URL := DEFAULT_H2_URL] else base)
    requires withDriver == withUrl[JAKARTA_JDBC_DRIVER := DriverSetting(src, prefix, t)]
    requires withDialect == withDriver[DIALECT := DialectSetting(src, prefix, t)]
    ensures withDialect == base + LocationEntries(src, prefix, t)
  {
    var url := UrlSetting(src, prefix, t);
    var urlPart: map<string, string> := if url.Some? then map[JAKARTA_JDBC_URL := url.value] else map[];
    if url.Some? {
      assert withUrl == base[JAKARTA_JDBC_URL := url.value];
      UpdateIsUnion(base, JAKARTA_JDBC_URL, url.value);
    } else {
      assert withUrl == base;
      UnionEmpty(base);
    }
    UpdateAfterUnion(base, urlPart, JAKARTA_JDBC_DRIVER, DriverSetting(src, prefix, t));
    UpdateAfterUnion(base, urlPart[JAKARTA_JDBC_DRIVER := DriverSetting(src, prefix, t)], DIALECT, DialectSetting(src, prefix, t));
  }

  /** A single write is a union with a one-entry map. */
  lemma UpdateIsUnion(base: map<string, string>, k: string, v: string)
    ensures base[k := v] == base + map[k := v]
  {
  }

  lemma UnionEmpty(base: map<string, string>)
    ensures base + map[] == base
  {
  }

  lemma EmptyUnion(m: map<string, string>)
    ensures map[] + m == m
  {
  }

  /** Writing into a union writes into its right-hand side. */
  lemma UpdateAfterUnion(base: map<string, string>, m: map<string, string>, k: string, v: string)
    ensures (base + m)[k := v] == base + m[k := v]
  {
  }

  /** The entries of `m` whose keys are in `keys`. */
  function Restrict(m: map<string, string>, keys: set<string>): (r: map<string, string>)
    ensures r.Keys == m.Keys * keys
    ensures forall k :: k in r ==> r[k] == m[k]
  {
    map k | k in m && k in keys :: m[k]
  }

  /** `applyHibernateSettings`: the listed settings that are present, verbatim. */
  function HibernateSettings(raw: map<string, string>): map<string, string>
  {
    Restrict(raw, HIBERNATE_KEYS)
  }

  /** `m` with `src`'s value for `k` copied in, when `src` has one. */
  function CopyKey(src: map<string, string>, m: map<string, string>, k: string): (r: map<string, string>)
    ensures k in src ==> r == m[k := src[k]]
    ensures k !in src ==> r == m
  {
    if k in src then m[k := src[k]] else m
  }

  /** Copying one more key, when present, extends the restriction by that key. */
  lemma CopyExtendsRestriction(base: map<string, string>, src: map<string, string>, keys: set<string>, k: string)
    ensures CopyKey(src, base + Restrict(src, keys), k) == base + Restrict(src, keys + {k})
  {
  }

  /** The nine keys, added one at a time in the order `applyHibernateSettings` copies them. */
  lemma HibernateKeysInOrder()
    ensures {} + {HBM2DDL_AUTO} + {SHOW_SQL} + {FORMAT_SQL} + {USE_SQL_COMMENTS} + {HIGHLIGHT_SQL}
            + {STATEMENT_BATCH_SIZE} + {ORDER_INSERTS} + {ORDER_UPDATES} + {GENERATE_STATISTICS} == HIBERNATE_KEYS
  {
  }

  /** The nine copies of `applyHibernateSettings`, one after the other, add exactly the present
      Hibernate settings. */
  lemma {:induction false} CopiesAddHibernateSettings(base: map<string, string>, src: map<string, string>,
      m1: map<string, string>, m2: map<string, string>, m3: map<string, string>, m4: map<string, string>,
      m5: map<string, string>, m6: map<string, string>, m7: map<string, string>, m8: map<string, string>,
      m9: map<string, string>)
    requires m1 == CopyKey(src, base, HBM2DDL_AUTO) && m2 == CopyKey(src, m1, SHOW_SQL)
    requires m3 == CopyKey(src, m2, FORMAT_SQL) && m4 == CopyKey(src, m3, USE_SQL_COMMENTS)
    requires m5 == CopyKey(src, m4, HIGHLIGHT_SQL) && m6 == CopyKey(src, m5, STATEMENT_BATCH_SIZE)
    requires m7 == CopyKey(src, m6, ORDER_INSERTS) && m8 == CopyKey(src, m7, ORDER_UPDATES)
    requires m9 == CopyKey(src, m8, GENERATE_STATISTICS)
    ensures m9 == base + HibernateSettings(src)
  {
    var k0: set<string> := {};
    assert Restrict(src, k0) == map[];
    UnionEmpty(base);
    CopyExtendsRestriction(base, src, k0, HBM2DDL_AUTO);
    var k1 := k0 + {HBM2DDL_AUTO};
    CopyExtendsRestriction(base, src, k1, SHOW_SQL);
    var k2 := k1 + {SHOW_SQL};
    CopyExtendsRestriction(base, src, k2, FORMAT_SQL);
    var k3 := k2 + {FORMAT_SQL};
    CopyExtendsRestriction(base, src, k3, USE_SQL_COMMENTS);
    var k4 := k3 + {USE_SQL_COMMENTS};
    CopyExtendsRestriction(base, src, k4, HIGHLIGHT_SQL);
    var k5 := k4 + {HIGHLIGHT_SQL};
    CopyExtendsRestriction(base, src, k5, STATEMENT_BATCH_SIZE);
    var k6 := k5 + {STATEMENT_BATCH_SIZE};
    CopyExtendsRestriction(base, src, k6, ORDER_INSERTS);
    var k7 := k6 + {ORDER_INSERTS};
    CopyExtendsRestriction(base, src, k7, ORDER_UPDATES);
    var k8 := k7 + {ORDER_UPDATES};
    CopyExtendsRestriction(base, src, k8, GENERATE_STATISTICS);
    HibernateKeysInOrder();
  }

  /** `buildFinalProperties` as a function of the raw entries. */
  function FinalProperties(raw: map<string, string>): Result<map<string, string>, Throwable> {
    match ResolveDatabaseType(Get(raw, "database.type"))
    case Err(e) => Err(e)
    case Ok(t) =>
      var prefix := DatabasePrefix(t);
      match CredentialsSetting(raw, prefix, t)
      case Err(e) => Err(e)
      case Ok((user, password)) => Ok(ConnectionEntries(raw, prefix, t, user, password) + HibernateSettings(raw))
  }

  /** The final properties hold the connection keys and the present Hibernate settings, and
      nothing else; each Hibernate setting is there exactly when the input has it, unchanged. */
  lemma {:induction false} FinalPropertiesKeys(raw: map<string, string>)
    requires FinalProperties(raw).Ok?
    ensures FinalProperties(raw).value.Keys <= CONNECTION_KEYS + HIBERNATE_KEYS
    ensures forall k :: k in HIBERNATE_KEYS ==> (k in FinalProperties(raw).value <==> k in raw)
    ensures forall k :: k in HIBERNATE_KEYS && k in raw ==> FinalProperties(raw).value[k] == raw[k]
    ensures JAKARTA_JDBC_DRIVER in FinalProperties(raw).value && DIALECT in FinalProperties(raw).value
    ensures JAKARTA_JDBC_USER in FinalProperties(raw).value && JAKARTA_JDBC_PASSWORD in FinalProperties(raw).value
  {
    SettingKeysDistinct();
    var t := ResolveDatabaseType(Get(raw, "database.type")).value;
    var p := DatabasePrefix(t);
    var creds := CredentialsSetting(raw, p, t).value;
    var conn := ConnectionEntries(raw, p, t, creds.0, creds.1);
    var hs := HibernateSettings(raw);
    assert FinalProperties(raw).value == conn + hs;
    ConnectionEntriesKeys(raw, p, t, creds.0, creds.1);
    assert forall k :: k in HIBERNATE_KEYS ==> k !in conn;
  }

  /** The connection entries use the connection keys, and always hold driver, dialect and credentials. */
  lemma ConnectionEntriesKeys(raw: map<string, string>, prefix: string, t: DatabaseType, user: string, password: string)
    ensures var conn := ConnectionEntries(raw, prefix, t, user, password);
      && conn.Keys <= CONNECTION_KEYS
      && JAKARTA_JDBC_DRIVER in conn && DIALECT in conn && JAKARTA_JDBC_USER in conn && JAKARTA_JDBC_PASSWORD in conn
  {
  }

  /** The URL rule, for any vendor that resolves: the vendor's non-blank URL is copied,
      otherwise H2 gets the in-memory default and any other vendor gets no URL at all. */
  lemma {:induction false} FinalPropertiesUrl(raw: map<string, string>, t: DatabaseType)
    requires ResolveDatabaseType(Get(raw, "database.type")) == Ok(t)
    requires FinalProperties(raw).Ok?
    ensures var out, p := FinalProperties(raw).value, DatabasePrefix(t);
      && (Given(Get(raw, p + ".url")) ==> JAKARTA_JDBC_URL in out && out[JAKARTA_JDBC_URL] == raw[p + ".url"])
      && (!Given(Get(raw, p + ".url")) && t == H2 ==> JAKARTA_JDBC_URL in out && out[JAKARTA_JDBC_URL] == DEFAULT_H2_URL)
      && (!Given(Get(raw, p + ".url")) && t != H2 ==> JAKARTA_JDBC_URL !in out)
  {
    var p := DatabasePrefix(t);
    var creds := CredentialsSetting(raw, p, t).value;
    ConnectionKeysFromEntries(raw, t);
    ConnectionEntriesValues(raw, p, t, creds.0, creds.1);
  }

  /** Driver and dialect: the vendor's non-blank value, otherwise the vendor default. */
  lemma {:induction false} FinalPropertiesDriverDialect(raw: map<string, string>, t: DatabaseType)
    requires ResolveDatabaseType(Get(raw, "database.type")) == Ok(t)
    requires FinalProperties(raw).Ok?
    ensures var out, p := FinalProperties(raw).value, DatabasePrefix(t);
      && out[JAKARTA_JDBC_DRIVER] == (if Given(Get(raw, p + ".driver")) then raw[p + ".driver"] else DefaultDriver(t))
      && out[DIALECT] == (if Given(Get(raw, p + ".dialect")) then raw[p + ".dialect"] else DefaultDialect(t))
  {
    var p := DatabasePrefix(t);
    var creds := CredentialsSetting(raw, p, t).value;
    ConnectionKeysFromEntries(raw, t);
    ConnectionEntriesKeys(raw, p, t, creds.0, creds.1);
    ConnectionEntriesValues(raw, p, t, creds.0, creds.1);
  }

  /** On the connection keys the final properties agree with the connection entries. */
  lemma ConnectionKeysFromEntries(raw: map<string, string>, t: DatabaseType)
    requires ResolveDatabaseType(Get(raw, "database.type")) == Ok(t)
    requires FinalProperties(raw).Ok?
    ensures var p := DatabasePrefix(t);
      var creds := CredentialsSetting(raw, p, t).value;
      var conn, out := ConnectionEntries(raw, p, t, creds.0, creds.1), FinalProperties(raw).value;
      forall k :: k in CONNECTION_KEYS ==> (k in out <==> k in conn) && (k in conn ==> out[k] == conn[k])
  {
    SettingKeysDistinct();
    var p := DatabasePrefix(t);
    var creds := CredentialsSetting(raw, p, t).value;
    var conn, hs := ConnectionEntries(raw, p, t, creds.0, creds.1), HibernateSettings(raw);
    assert FinalProperties(raw).value == conn + hs;
    assert forall k :: k in CONNECTION_KEYS ==> k !in hs;
  }

  /** The driver and dialect entries are the resolved settings. */
  lemma ConnectionEntriesValues(raw: map<string, string>, prefix: string, t: DatabaseType, user: string, password: string)
    ensures var conn := ConnectionEntries(raw, prefix, t, user, password);
      && JAKARTA_JDBC_DRIVER in conn && conn[JAKARTA_JDBC_DRIVER] == DriverSetting(raw, prefix, t)
      && DIALECT in conn && conn[DIALECT] == DialectSetting(raw, prefix, t)
      && JAKARTA_JDBC_USER in conn && conn[JAKARTA_JDBC_USER] == user
      && JAKARTA_JDBC_PASSWORD in conn && conn[JAKARTA_JDBC_PASSWORD] == password
      && (UrlSetting(raw, prefix, t).Some? ==> JAKARTA_JDBC_URL in conn && conn[JAKARTA_JDBC_URL] == UrlSetting(raw, prefix, t).value)
      && (UrlSetting(raw, prefix, t).None? ==> JAKARTA_JDBC_URL !in conn)
  {
    SettingKeysDistinct();
  }

  /** A missing or blank `database.type` selects H2, whose URL, user and password have defaults,
      so the build cannot fail; the user defaults to `sa` and the password to empty. */
  lemma {:induction false} H2Defaults(raw: map<string, string>)
    requires !Given(Get(raw, "database.type"))
    ensures FinalProperties(raw).Ok?
    ensures var out := FinalProperties(raw).value;
      && out[JAKARTA_JDBC_USER] == Get(raw, "h2.username").GetOr("sa")
      && out[JAKARTA_JDBC_PASSWORD] == Get(raw, "h2.password").GetOr("")
      && out[JAKARTA_JDBC_DRIVER] == (if Given(Get(raw, "h2.driver")) then raw["h2.driver"] else "org.h2.Driver")
      && JAKARTA_JDBC_URL in out
  {
    var p := DatabasePrefix(H2);
    assert p + ".username" == "h2.username" && p + ".password" == "h2.password";
    assert p + ".driver" == "h2.driver";
    var creds := CredentialsSetting(raw, p, H2);
    assert creds == Ok((Get(raw, "h2.username").GetOr("sa"), Get(raw, "h2.password").GetOr("")));
    ConnectionKeysFromEntries(raw, H2);
    ConnectionEntriesValues(raw, p, H2, creds.value.0, creds.value.1);
  }

  /** For any other vendor, a missing or blank user fails, whatever the password. */
  lemma {:induction false} NonH2MissingUser(raw: map<string, string>, t: DatabaseType)
    requires ResolveDatabaseType(Get(raw, "database.type")) == Ok(t) && t != H2
    requires !Given(Get(raw, DatabasePrefix(t) + ".username"))
    ensures FinalProperties(raw).Err? && FinalProperties(raw).error.kind == IllegalArgumentException
    ensures Contains(FinalProperties(raw).error.message.value, "username" + IS_REQUIRED)
  {
    var p := DatabasePrefix(t);
    assert CredentialsSetting(raw, p, t) == Err(Raise(IllegalArgumentException, MissingCredentialMessage("username", t, p)));
    MissingCredentialMentions("username", t, p);
  }

  /** With a user given, a missing password fails. */
  lemma {:induction false} NonH2MissingPassword(raw: map<string, string>, t: DatabaseType)
    requires ResolveDatabaseType(Get(raw, "database.type")) == Ok(t) && t != H2
    requires Given(Get(raw, DatabasePrefix(t) + ".username")) && DatabasePrefix(t) + ".password" !in raw
    ensures FinalProperties(raw).Err? && FinalProperties(raw).error.kind == IllegalArgumentException
    ensures Contains(FinalProperties(raw).error.message.value, "password" + IS_REQUIRED)
  {
    var p := DatabasePrefix(t);
    MissingCredentialMentions("password", t, p);
  }

  /** With a user and a password given, both are copied, even an empty password. */
  lemma {:induction false} NonH2Credentials(raw: map<string, string>, t: DatabaseType)
    requires ResolveDatabaseType(Get(raw, "database.type")) == Ok(t) && t != H2
    requires Given(Get(raw, DatabasePrefix(t) + ".username")) && DatabasePrefix(t) + ".password" in raw
    ensures FinalProperties(raw).Ok?
    ensures FinalProperties(raw).value[JAKARTA_JDBC_USER] == raw[DatabasePrefix(t) + ".username"]
    ensures FinalProperties(raw).value[JAKARTA_JDBC_PASSWORD] == raw[DatabasePrefix(t) + ".password"]
  {
    var p := DatabasePrefix(t);
    var user, password := raw[p + ".username"], raw[p + ".password"];
    assert CredentialsSetting(raw, p, t) == Ok((user, password));
    ConnectionKeysFromEntries(raw, t);
    ConnectionEntriesValues(raw, p, t, user, password);
  }

  /** An unknown vendor name fails with "Unsupported database type". */
  lemma {:induction false} UnsupportedType(raw: map<string, string>)
    requires Given(Get(raw, "database.type"))
    requires forall t :: Name(t) != NormalizeTypeName(raw["database.type"])
    ensures FinalProperties(raw).Err? && FinalProperties(raw).error.kind == IllegalArgumentException
    ensures Contains(FinalProperties(raw).error.message.value, UNSUPPORTED_TYPE)
  {
    var message := UNSUPPORTED_TYPE + (" '" + raw["database.type"] + "'. Supported types: " + SUPPORTED_TYPES);
    assert message[..|UNSUPPORTED_TYPE|] == UNSUPPORTED_TYPE;
    ContainsAt(message, UNSUPPORTED_TYPE, 0);
  }

  /** `copyIfPresent`: copy one value when the source has it. */
  method CopyIfPresent(source: Properties, target: Properties, sourceKey: string, targetKey: string)
    requires source != target
    modifies target
    ensures target.entries == if sourceKey in source.entries then old(target.entries)[targetKey := source.entries[sourceKey]]
                              else old(target.entries)
    ensures sourceKey == targetKey ==> target.entries == CopyKey(source.entries, old(target.entries), targetKey)
  {
    var value := source.GetProperty(sourceKey);
    if value.Some? {
      target.SetProperty(targetKey, value.value);
    }
  }

  /** `applyHibernateSettings`. */
  method ApplyHibernateSettings(source: Properties, target: Properties)
    requires source != target
    modifies target
    ensures target.entries == old(target.entries) + HibernateSettings(source.entries)
  {
    ghost var src := source.entries;
    var hbm2ddl := source.GetProperty("hibernate.hbm2ddl.auto");
    if hbm2ddl.Some? {
      target.SetProperty(HBM2DDL_AUTO, hbm2ddl.value);
    }
    ghost var m1 := target.entries;
    CopyIfPresent(source, target, "hibernate.show_sql", SHOW_SQL);
    ghost var m2 := target.entries;
    CopyIfPresent(source, target, "hibernate.format_sql", FORMAT_SQL);
    ghost var m3 := target.entries;
    CopyIfPresent(source, target, "hibernate.use_sql_comments", USE_SQL_COMMENTS);
    ghost var m4 := target.entries;
    CopyIfPresent(source, target, "hibernate.highlight_sql", HIGHLIGHT_SQL);
    ghost var m5 := target.entries;
    CopyIfPresent(source, target, "hibernate.jdbc.batch_size", STATEMENT_BATCH_SIZE);
    ghost var m6 := target.entries;
    CopyIfPresent(source, target, "hibernate.order_inserts", ORDER_INSERTS);
    ghost var m7 := target.entries;
    CopyIfPresent(source, target, "hibernate.order_updates", ORDER_UPDATES);
    ghost var m8 := target.entries;
    CopyIfPresent(source, target, "hibernate.generate_statistics", GENERATE_STATISTICS);
    CopiesAddHibernateSettings(old(target.entries), src, m1, m2, m3, m4, m5, m6, m7, m8, target.entries);
  }

  /** `applyCredentials`: on failure nothing is written. */
  method ApplyCredentials(source: Properties, target: Properties, prefix: string, t: DatabaseType)
    returns (outcome: Result<(string, string), Throwable>)
    requires source != target
    modifies target
    ensures outcome == CredentialsSetting(source.entries, prefix, t)
    ensures outcome.Ok? ==> target.entries == old(target.entries)[JAKARTA_JDBC_USER := outcome.value.0][JAKARTA_JDBC_PASSWORD := outcome.value.1]
    ensures outcome.Err? ==> target.entries == old(target.entries)
  {
    var username := source.GetProperty(prefix + ".username");
    var password := source.GetProperty(prefix + ".password");
    if t == H2 {
      target.SetProperty(JAKARTA_JDBC_USER, if username.Some? then username.value else "sa");
      target.SetProperty(JAKARTA_JDBC_PASSWORD, if password.Some? then password.value else "");
      outcome := Ok((username.GetOr("sa"), password.GetOr("")));
    } else {
      if !Given(username) {
        outcome := Err(Raise(IllegalArgumentException, MissingCredentialMessage("username", t, prefix)));
        return;
      }
      if password.None? {
        outcome := Err(Raise(IllegalArgumentException, MissingCredentialMessage("password", t, prefix)));
        return;
      }
      target.SetProperty(JAKARTA_JDBC_USER, username.value);
      target.SetProperty(JAKARTA_JDBC_PASSWORD, password.value);
      outcome := Ok((username.value, password.value));
    }
  }

  /** `applyDatabaseProperties`: URL, driver and dialect, then the credentials; when the
      credentials fail, the first three have already been written. */
  method ApplyDatabaseProperties(source: Properties, target: Properties, prefix: string, t: DatabaseType)
    returns (outcome: Result<(string, string), Throwable>)
    requires source != target
    modifies target
    ensures outcome == CredentialsSetting(source.entries, prefix, t)
    ensures outcome.Ok? ==> target.entries == (old(target.entries) + LocationEntries(source.entries, prefix, t))
      [JAKARTA_JDBC_USER := outcome.value.0][JAKARTA_JDBC_PASSWORD := outcome.value.1]
    ensures outcome.Err? ==> target.entries == old(target.entries) + LocationEntries(source.entries, prefix, t)
  {
    ApplyLocation(source, target, prefix, t);
    outcome := ApplyCredentials(source, target, prefix, t);
  }

  /** The first part of `applyDatabaseProperties`: the URL (given, the H2 default, or none),
      the driver and the dialect. */
  method ApplyLocation(source: Properties, target: Properties, prefix: string, t: DatabaseType)
    requires source != target
    modifies target
    ensures target.entries == old(target.entries) + LocationEntries(source.entries, prefix, t)
  {
    ghost var base, src := target.entries, source.entries;
    var url := source.GetProperty(prefix + ".url");
    if Given(url) {
      target.SetProperty(JAKARTA_JDBC_URL, url.value);
    } else if t == H2 {
      target.SetProperty(JAKARTA_JDBC_URL, DEFAULT_H2_URL);
    }
    ghost var withUrl := target.entries;
    var driver := source.GetProperty(prefix + ".driver");
    target.SetProperty(JAKARTA_JDBC_DRIVER, if Given(driver) then driver.value else DefaultDriver(t));
    ghost var withDriver := target.entries;
    var dialect := source.GetProperty(prefix + ".dialect");
    target.SetProperty(DIALECT, if Given(dialect) then dialect.value else DefaultDialect(t));
    LocationWrites(base, src, prefix, t, withUrl, withDriver, target.entries);
  }

  /** What `buildFinalProperties` writes into its empty target, once the type has resolved and
      the credentials were accepted, is `FinalProperties`. */
  lemma FinalPropertiesAssembled(raw: map<string, string>, t: DatabaseType, user: string, password: string,
                                 written: map<string, string>)
    requires ResolveDatabaseType(Get(raw, "database.type")) == Ok(t)
    requires CredentialsSetting(raw, DatabasePrefix(t), t) == Ok((user, password))
    requires written == (map[] + LocationEntries(raw, DatabasePrefix(t), t))[JAKARTA_JDBC_USER := user][JAKARTA_JDBC_PASSWORD := password]
                        + HibernateSettings(raw)
    ensures FinalProperties(raw) == Ok(written)
  {
    var p := DatabasePrefix(t);
    var location := LocationEntries(raw, p, t);
    EmptyUnion(location);
    assert written == ConnectionEntries(raw, p, t, user, password) + HibernateSettings(raw);
  }

  /** `buildFinalProperties`: a fresh Properties holding exactly `FinalProperties` of the input,
      or the exception that function names; the input is not changed. */
  method BuildFinalProperties(raw: Properties) returns (r: Result<Properties, Throwable>)
    ensures r.Ok? <==> FinalProperties(raw.entries).Ok?
    ensures r.Ok? ==> fresh(r.value) && r.value.entries == FinalProperties(raw.entries).value
    ensures r.Err? ==> r.error == FinalProperties(raw.entries).error
  {
    var finalProperties := new Properties();
    var resolved := ResolveDatabaseType(raw.GetProperty("database.type"));
    if resolved.Err? {
      return Err(resolved.error);
    }
    var databaseType := resolved.value;
    var prefix := DatabasePrefix(databaseType);
    var credentials := ApplyDatabaseProperties(raw, finalProperties, prefix, databaseType);
    if credentials.Err? {
      return Err(credentials.error);
    }
    ghost var connection := finalProperties.entries;
    ApplyHibernateSettings(raw, finalProperties);
    assert raw.GetProperty("database.type") == Get(raw.entries, "database.type");
    FinalPropertiesAssembled(raw.entries, databaseType, credentials.value.0, credentials.value.1, finalProperties.entries);
    r := Ok(finalProperties);
  }
}

=== FILE: database_type.dfy ===
/** `DatabaseType`: the eight database vendors the configuration code knows. */
module DatabaseTypes {
  import opened Wrappers
  import opened JavaLang

  datatype DatabaseType = ORACLE | MSSQL_SERVER | POSTGRESQL | MYSQL | MARIADB | SQLITE | HSQLDB | H2

  /** `Enum.name()`. */
  function Name(t: DatabaseType): string {
    match t
    case ORACLE => "ORACLE"
    case MSSQL_SERVER => "MSSQL_SERVER"
    case POSTGRESQL => "POSTGRESQL"
    case MYSQL => "MYSQL"
    case MARIADB => "MARIADB"
    case SQLITE => "SQLITE"
    case HSQLDB => "HSQLDB"
    case H2 => "H2"
  }

  /** `DatabaseType.values()`: every constant once, in declaration order. */
  const Values: seq<DatabaseType> := [ORACLE, MSSQL_SERVER, POSTGRESQL, MYSQL, MARIADB, SQLITE, HSQLDB, H2]

  lemma ValuesListsEveryConstant(t: DatabaseType)
    ensures t in Values
  {
  }

  /** Distinct constants have distinct names, so `valueOf` has at most one answer. */
  lemma NameInjective(a: DatabaseType, b: DatabaseType)
    requires Name(a) == Name(b)
    ensures a == b
  {
  }

  /** The characters of a constant name: capitals, digits and `_`. */
  predicate EnumNameChar(c: char) {
    'A' <= c <= 'Z' || ('0' <= c <= '9') || c == '_'
  }

  lemma NameChars(t: DatabaseType)
    ensures |Name(t)| > 0
    ensures forall i :: 0 <= i < |Name(t)| ==> EnumNameChar(Name(t)[i])
  {
  }

  /** The first constant of `ts` named `name`. */
  function Lookup(ts: seq<DatabaseType>, name: string): (r: Option<DatabaseType>)
    ensures r.Some? ==> r.value in ts && Name(r.value) == name
    ensures r.None? ==> forall t :: t in ts ==> Name(t) != name
  {
    if |ts| == 0 then None
    else if Name(ts[0]) == name then Some(ts[0])
    else Lookup(ts[1..], name)
  }

  /** `DatabaseType.valueOf(name)`: the constant whose name is exactly `name`, or
      IllegalArgumentException. */
  function ValueOf(name: string): (r: Result<DatabaseType, Throwable>)
    ensures r.Ok? <==> exists t :: Name(t) == name
    ensures r.Ok? ==> Name(r.value) == name
    ensures r.Err? ==> r.error.kind == IllegalArgumentException
  {
    match Lookup(Values, name)
    case Some(t) => Ok(t)
    case None =>
      assert forall t :: Name(t) != name by {
        forall t ensures Name(t) != name {
          ValuesListsEveryConstant(t);
        }
      }
      Err(Raise(IllegalArgumentException, "No enum constant de.jexcellence.hibernate.type.DatabaseType." + name))
  }

  /** `Arrays.stream(values()).map(Enum::name).collect(Collectors.joining(sep))`. */
  function JoinNames(ts: seq<DatabaseType>, sep: string): string {
    if |ts| == 0 then ""
    else if |ts| == 1 then Name(ts[0])
    else Name(ts[0]) + sep + JoinNames(ts[1..], sep)
  }
}

=== FILE: hibernate_config_manager.dfy ===
/** `HibernateConfigManager`: the older configuration path, which validates the loaded
    properties in place and fills in only what is missing. */
module HibernateConfigManager {
  import opened Wrappers
  import opened JavaLang
  import opened DatabaseTypes
  import opened JavaProperties
  import opened AvailableSettings
  import ConfigLoader

  const CREDENTIALS_MESSAGE: string := "Database credentials (user/password) must be provided for non-H2 databases."

  /** `getProperty("database.type")`. */
  function TypeSetting(m: map<string, string>): Option<string> {
    if "database.type" in m then Some(m["database.type"]) else None
  }

  /** `m.putIfAbsent(k, v)` on a map value. */
  function PutIfAbsent(m: map<string, string>, k: string, v: string): (r: map<string, string>)
    ensures k in r && r.Keys == m.Keys + {k}
    ensures forall j :: j in m ==> r[j] == m[j]
    ensures k !in m ==> r[k] == v
  {
    if k in m then m else m[k := v]
  }

  /** `resolveDatabaseType`: H2 when missing or blank, otherwise `valueOf` of the uppercased
      text, which throws IllegalArgumentException for any other name; `-` is not mapped to `_`. */
  function ResolveDatabaseType(dbType: Option<string>): (r: Result<DatabaseType, Throwable>)
    ensures dbType.None? || IsBlank(dbType.value) ==> r == Ok(H2)
    ensures dbType.Some? && !IsBlank(dbType.value) ==> (r.Ok? <==> exists t :: Name(t) == ToUpper(dbType.value))
    ensures dbType.Some? && !IsBlank(dbType.value) && r.Ok? ==> Name(r.value) == ToUpper(dbType.value)
    ensures r.Err? ==> r.error.kind == IllegalArgumentException
  {
    if dbType.None? || IsBlank(dbType.value) then Ok(H2)
    else ValueOf(ToUpper(dbType.value))
  }

  /** Unlike the loader, a name spelled with `-` is rejected, since no constant name holds one. */
  lemma {:induction false} HyphenatedNameRejected(s: string, i: nat)
    requires i < |s| && s[i] == '-'
    ensures ResolveDatabaseType(Some(s)).Err?
  {
    assert !IsWhitespace(s[i]);
    forall t ensures Name(t) != ToUpper(s) {
      NameChars(t);
      assert !EnumNameChar(ToUpper(s)[i]);
    }
  }

  /** The lowercase spelling of a constant name resolves to that constant. */
  lemma {:induction false} LowercaseNameResolves(t: DatabaseType)
    ensures ResolveDatabaseType(Some(ToLower(Name(t)))) == Ok(t)
  {
    var n := Name(t);
    NameChars(t);
    assert ToUpper(ToLower(n)) == n;
    assert |n| > 0 && !IsWhitespace(ToLower(n)[0]);
    NameInjective(ResolveDatabaseType(Some(ToLower(n))).value, t);
  }

  /** `buildConnectionString`: an in-memory H2 URL, or `jdbc:<lowercased constant name>://host:port/name`
      with `localhost`, `3306` and `testdb` as defaults. */
  function BuildConnectionString(m: map<string, string>, t: DatabaseType): string
  {
    if t == H2 then
      var databaseName := Lookup(m, "database.name", "testdb");
      "jdbc:h2:mem:" + databaseName + ";DB_CLOSE_DELAY=-1"
    else
      var databaseName := Lookup(m, "database.name", "testdb");
      var databaseHost := Lookup(m, "database.host", "localhost");
      var databasePort := Lookup(m, "database.port", "3306");
      VendorUrl(t, databaseHost, databasePort, databaseName)
  }

  /** `jdbc:<lowercased constant name>://`. */
  function Scheme(t: DatabaseType): string {
    "jdbc:" + ToLower(Name(t)) + "://"
  }

  /** The URL of a server vendor: scheme, host, `:`, port, `/`, database name. */
  function VendorUrl(t: DatabaseType, host: string, port: string, name: string): string {
    Scheme(t) + host + ":" + port + "/" + name
  }

  /** The host, the port and the database name all appear in a vendor URL. */
  lemma VendorUrlContains(t: DatabaseType, host: string, port: string, name: string)
    ensures Contains(VendorUrl(t, host, port, name), host)
    ensures Contains(VendorUrl(t, host, port, name), port)
    ensures Contains(VendorUrl(t, host, port, name), name)
  {
    var scheme := Scheme(t);
    var url := VendorUrl(t, host, port, name);
    assert url == scheme + host + (":" + port + "/" + name);
    ContainsInfix(scheme, host, ":" + port + "/" + name);
    assert url == (scheme + host + ":") + port + ("/" + name);
    ContainsInfix(scheme + host + ":", port, "/" + name);
    assert url == (scheme + host + ":" + port + "/") + name + [];
    ContainsInfix(scheme + host + ":" + port + "/", name, []);
  }

  /** With no database name, H2 gets the same in-memory URL the loader defaults to. */
  lemma {:induction false} DefaultH2ConnectionString(m: map<string, string>)
    requires "database.name" !in m
    ensures BuildConnectionString(m, H2) == ConfigLoader.DEFAULT_H2_URL
  {
  }

  /** With no connection settings, any other vendor gets `localhost`, port 3306 and database `testdb`. */
  lemma {:induction false} DefaultConnectionString(m: map<string, string>, t: DatabaseType)
    requires "database.name" !in m && "database.host" !in m && "database.port" !in m && t != H2
    ensures BuildConnectionString(m, t) == VendorUrl(t, "localhost", "3306", "testdb")
  {
  }

  /** A given database name appears in the URL. */
  lemma {:induction false} ConnectionStringUsesName(m: map<string, string>, t: DatabaseType)
    requires "database.name" in m
    ensures Contains(BuildConnectionString(m, t), m["database.name"])
  {
    var name := m["database.name"];
    if t == H2 {
      ContainsInfix("jdbc:h2:mem:", name, ";DB_CLOSE_DELAY=-1");
    } else {
      VendorUrlContains(t, Lookup(m, "database.host", "localhost"), Lookup(m, "database.port", "3306"), name);
    }
  }

  /** Given a host and a port, a vendor other than H2 puts both in the URL. */
  lemma {:induction false} ConnectionStringUsesHostAndPort(m: map<string, string>, t: DatabaseType)
    requires "database.host" in m && "database.port" in m && t != H2
    ensures Contains(BuildConnectionString(m, t), m["database.host"])
    ensures Contains(BuildConnectionString(m, t), m["database.port"])
  {
    VendorUrlContains(t, m["database.host"], m["database.port"], Lookup(m, "database.name", "testdb"));
  }

  /** `getProperty(key, defaultValue)` on a map value. */
  function Lookup(m: map<string, string>, key: string, defaultValue: string): string {
    if key in m then m[key] else defaultValue
  }

  /** `applyDefaultH2Settings`: the H2 driver, user `sa` and the empty password where absent. */
  function H2Defaults(m: map<string, string>): map<string, string> {
    PutIfAbsent(PutIfAbsent(PutIfAbsent(m, JAKARTA_JDBC_DRIVER, "org.h2.Driver"), JAKARTA_JDBC_USER, "sa"),
      JAKARTA_JDBC_PASSWORD, "")
  }

  /** `ensurePropertiesValidity` on a map value: the entries afterwards and the exception thrown,
      if any. The URL is filled in before the vendor branch, so it is there even when the
      credential check then throws. */
  function Validated(m: map<string, string>): (map<string, string>, Outcome<Throwable>) {
    match ResolveDatabaseType(TypeSetting(m))
    case Err(e) => (m, Fail(e))
    case Ok(t) =>
      VendorChecked(PutIfAbsent(m, JAKARTA_JDBC_URL, BuildConnectionString(m, t)), t)
  }

  /** The vendor branch, once the URL is filled in: H2 defaults, or the credential check. */
  function VendorChecked(withUrl: map<string, string>, t: DatabaseType): (map<string, string>, Outcome<Throwable>) {
    if t == H2 then (H2Defaults(withUrl), Pass)
    else if JAKARTA_JDBC_USER !in withUrl || JAKARTA_JDBC_PASSWORD !in withUrl then
      (withUrl, Fail(Raise(IllegalArgumentException, CREDENTIALS_MESSAGE)))
    else (withUrl, Pass)
  }

  /** Only `putIfAbsent` writes: every input entry keeps its value, whatever the outcome. */
  lemma {:induction false} ValidatedKeepsEntries(m: map<string, string>)
    ensures m.Keys <= Validated(m).0.Keys
    ensures forall k :: k in m ==> Validated(m).0[k] == m[k]
    ensures Validated(m).0.Keys <= m.Keys + {JAKARTA_JDBC_URL, JAKARTA_JDBC_DRIVER, JAKARTA_JDBC_USER, JAKARTA_JDBC_PASSWORD}
  {
    match ResolveDatabaseType(TypeSetting(m))
    case Err(_) =>
    case Ok(t) =>
      var withUrl := PutIfAbsent(m, JAKARTA_JDBC_URL, BuildConnectionString(m, t));
      assert Validated(m) == VendorChecked(withUrl, t);
      if t == H2 {
        H2DefaultsEntries(withUrl);
      }
  }

  /** `applyDefaultH2Settings` keeps every entry and adds the driver, the user `sa` and the
      empty password where they are absent. */
  lemma H2DefaultsEntries(m: map<string, string>)
    ensures var r := H2Defaults(m);
      && r.Keys == m.Keys + {JAKARTA_JDBC_DRIVER, JAKARTA_JDBC_USER, JAKARTA_JDBC_PASSWORD}
      && (forall k :: k in m ==> r[k] == m[k])
      && (JAKARTA_JDBC_DRIVER !in m ==> r[JAKARTA_JDBC_DRIVER] == "org.h2.Driver")
      && (JAKARTA_JDBC_USER !in m ==> r[JAKARTA_JDBC_USER] == "sa")
      && (JAKARTA_JDBC_PASSWORD !in m ==> r[JAKARTA_JDBC_PASSWORD] == "")
  {
    ConnectionKeyLengths();
  }

  /** When the type resolves, a URL is present afterwards, even if the credential check fails;
      an existing URL is kept and a missing one is built from the connection settings. */
  lemma {:induction false} ValidatedUrl(m: map<string, string>, t: DatabaseType)
    requires ResolveDatabaseType(TypeSetting(m)) == Ok(t)
    ensures JAKARTA_JDBC_URL in Validated(m).0
    ensures JAKARTA_JDBC_URL !in m ==> Validated(m).0[JAKARTA_JDBC_URL] == BuildConnectionString(m, t)
  {
    var withUrl := PutIfAbsent(m, JAKARTA_JDBC_URL, BuildConnectionString(m, t));
    assert Validated(m) == VendorChecked(withUrl, t);
    if t == H2 {
      H2DefaultsEntries(withUrl);
    }
  }

  /** H2 never fails once resolved, and ends with a driver, a user and a password; another
      vendor passes exactly when both the user and the password keys were given. */
  lemma {:induction false} ValidatedCredentials(m: map<string, string>, t: DatabaseType)
    requires ResolveDatabaseType(TypeSetting(m)) == Ok(t)
    ensures t == H2 ==> Validated(m).1.Pass?
    ensures t == H2 ==> JAKARTA_JDBC_DRIVER in Validated(m).0 && JAKARTA_JDBC_USER in Validated(m).0
                        && JAKARTA_JDBC_PASSWORD in Validated(m).0
    ensures t == H2 && JAKARTA_JDBC_USER !in m ==> Validated(m).0[JAKARTA_JDBC_USER] == "sa"
    ensures t == H2 && JAKARTA_JDBC_PASSWORD !in m ==> Validated(m).0[JAKARTA_JDBC_PASSWORD] == ""
    ensures t != H2 ==> (Validated(m).1.Pass? <==> JAKARTA_JDBC_USER in m && JAKARTA_JDBC_PASSWORD in m)
    ensures Validated(m).1.Fail? ==> Validated(m).1.error.kind == IllegalArgumentException
  {
    ConnectionKeyLengths();
    var withUrl := PutIfAbsent(m, JAKARTA_JDBC_URL, BuildConnectionString(m, t));
    assert Validated(m) == VendorChecked(withUrl, t);
    if t == H2 {
      H2DefaultsEntries(withUrl);
    }
  }

  /** An unknown type fails before anything is written. */
  lemma {:induction false} UnknownTypeWritesNothing(m: map<string, string>)
    requires ResolveDatabaseType(TypeSetting(m)).Err?
    ensures Validated(m).0 == m && Validated(m).1.Fail?
    ensures Validated(m).1.error.kind == IllegalArgumentException
  {
  }

  /** `applyDefaultH2Settings`. */
  method ApplyDefaultH2Settings(properties: Properties)
    modifies properties
    ensures properties.entries == H2Defaults(old(properties.entries))
  {
    var _ := properties.PutIfAbsent(JAKARTA_JDBC_DRIVER, "org.h2.Driver");
    var _ := properties.PutIfAbsent(JAKARTA_JDBC_USER, "sa");
    var _ := properties.PutIfAbsent(JAKARTA_JDBC_PASSWORD, "");
  }

  /** `checkNonH2Settings`: IllegalArgumentException unless both credential keys are present. */
  method CheckNonH2Settings(properties: Properties) returns (outcome: Outcome<Throwable>)
    ensures outcome.Pass? <==> properties.ContainsKey(JAKARTA_JDBC_USER) && properties.ContainsKey(JAKARTA_JDBC_PASSWORD)
    ensures outcome.Fail? ==> outcome.error == Raise(IllegalArgumentException,
      CREDENTIALS_MESSAGE)
  {
    if !properties.ContainsKey(JAKARTA_JDBC_USER) || !properties.ContainsKey(JAKARTA_JDBC_PASSWORD) {
      return Fail(Raise(IllegalArgumentException, CREDENTIALS_MESSAGE));
    }
    return Pass;
  }

  /** `ensurePropertiesValidity`: updates the caller's properties in place to `Validated`. */
  method EnsurePropertiesValidity(properties: Properties) returns (outcome: Outcome<Throwable>)
    modifies properties
    ensures (properties.entries, outcome) == Validated(old(properties.entries))
  {
    var databaseType := ResolveDatabaseType(properties.GetProperty("database.type"));
    if databaseType.Err? {
      return Fail(databaseType.error);
    }
    FillUrl(properties, databaseType.value);
    outcome := ApplyVendorSettings(properties, databaseType.value);
  }

  /** The URL step: `putIfAbsent` of the URL built from the settings. */
  method FillUrl(properties: Properties, t: DatabaseType)
    modifies properties
    ensures properties.entries == PutIfAbsent(old(properties.entries), JAKARTA_JDBC_URL, BuildConnectionString(old(properties.entries), t))
  {
    var url := BuildConnectionString(properties.entries, t);
    var _ := properties.PutIfAbsent(JAKARTA_JDBC_URL, url);
  }

  /** The vendor branch: H2 defaults, or the credential check. */
  method ApplyVendorSettings(properties: Properties, t: DatabaseType) returns (outcome: Outcome<Throwable>)
    modifies properties
    ensures (properties.entries, outcome) == VendorChecked(old(properties.entries), t)
  {
    if t == H2 {
      ApplyDefaultH2Settings(properties);
      outcome := Pass;
    } else {
      outcome := CheckNonH2Settings(properties);
    }
  }
}

=== FILE: java_lang.dfy ===
/** The pieces of java.lang the core relies on: 32-bit `int` arithmetic,
    exceptions with their cause chains, and the String predicates it calls. */
module JavaLang {
  import opened Wrappers

  const INT_MIN: int := -0x8000_0000
  const INT_MAX: int := 0x7fff_ffff

  /** Java's `int`. */
  newtype int32 = x: int | -0x8000_0000 <= x < 0x8000_0000

  /** Java's `long`. */
  newtype int64 = x: int | -0x8000_0000_0000_0000 <= x < 0x8000_0000_0000_0000

  /** Two's-complement narrowing of an unbounded integer to `int`, as Java's
      `int` multiplication and addition do on overflow. */
  function Wrap32(x: int): (r: int32)
    ensures (r as int - x) % 0x1_0000_0000 == 0
    ensures INT_MIN <= x <= INT_MAX ==> r as int == x
  {
    var m := x % 0x1_0000_0000;
    if m <= INT_MAX then m as int32 else (m - 0x1_0000_0000) as int32
  }

  /** `Math.max(int, int)`. */
  function Max(a: int32, b: int32): (r: int32)
    ensures r >= a && r >= b && (r == a || r == b)
  {
    if a >= b then a else b
  }

  /** `a * b` on Java `int`s. */
  function Mul32(a: int32, b: int32): (r: int32)
    ensures INT_MIN <= a as int * b as int <= INT_MAX ==> r as int == a as int * b as int
  {
    Wrap32(a as int * b as int)
  }

  /** The exception classes the core throws, catches or inspects. */
  datatype ExceptionKind =
    | OptimisticLockException      // jakarta.persistence, a RuntimeException
    | StaleObjectStateException    // org.hibernate, a RuntimeException
    | RollbackException            // jakarta.persistence, a RuntimeException
    | IllegalArgumentException
    | IllegalStateException
    | NullPointerException
    | BufferUnderflowException
    | ArrayIndexOutOfBoundsException
    | RuntimeException             // RuntimeException itself or any other unchecked exception
    | InterruptedException         // checked
    | NoSuchMethodException        // checked (a ReflectiveOperationException)
    | CheckedException             // any other checked exception
    | JavaError                    // java.lang.Error: a Throwable that is not an Exception

  /** A thrown Throwable: its class, its message (possibly null) and its cause (possibly null). */
  datatype Throwable = Throwable(kind: ExceptionKind, message: Option<string>, cause: Option<Throwable>)

  /** True of the RuntimeException subclasses. */
  predicate IsRuntime(k: ExceptionKind) {
    !(k.InterruptedException? || k.NoSuchMethodException? || k.CheckedException? || k.JavaError?)
  }

  /** True of everything a `catch (Exception e)` clause catches. */
  predicate IsException(k: ExceptionKind) {
    !k.JavaError?
  }

  /** A new exception of kind `k` with message `msg` and no cause. */
  function Raise(k: ExceptionKind, msg: string): (t: Throwable)
    ensures t.kind == k && t.message == Some(msg) && t.cause == None
  {
    Throwable(k, Some(msg), None)
  }

  /** `s.startsWith(p)`. */
  predicate StartsWith(s: string, p: string) {
    |p| <= |s| && s[..|p|] == p
  }

  /** `s.contains(sub)`: `sub` occurs in `s` at some position. */
  predicate Contains(s: string, sub: string)
    decreases |s|
  {
    StartsWith(s, sub) || (|s| > 0 && Contains(s[1..], sub))
  }

  /** `Contains` holds exactly when `sub` occurs at some index of `s`. */
  lemma {:induction false} ContainsAt(s: string, sub: string, i: nat)
    requires i + |sub| <= |s| && s[i..i + |sub|] == sub
    ensures Contains(s, sub)
    decreases i
  {
    if i == 0 {
      assert s[..|sub|] == sub;
    } else {
      assert s[1..][i - 1..i - 1 + |sub|] == s[i..i + |sub|];
      ContainsAt(s[1..], sub, i - 1);
    }
  }

  /** A string contains each of its infixes. */
  lemma ContainsInfix(a: string, b: string, c: string)
    ensures Contains(a + b + c, b)
  {
    assert (a + b + c)[|a|..|a| + |b|] == b;
    ContainsAt(a + b + c, b, |a|);
  }

  /** `Character.isWhitespace`: the Unicode space, line and paragraph separators other
      than the non-breaking ones, and the ASCII controls 9-13 and 28-31. */
  predicate IsWhitespace(c: char) {
    c == ' ' || ('\t' <= c <= '\r') || ('\U{1C}' <= c <= '\U{1F}')
    || c == '\U{1680}' || ('\U{2000}' <= c <= '\U{2006}') || ('\U{2008}' <= c <= '\U{200A}')
    || c == '\U{2028}' || c == '\U{2029}' || c == '\U{205F}' || c == '\U{3000}'
  }

  /** `s.isBlank()`. */
  predicate IsBlank(s: string) {
    forall i :: 0 <= i < |s| ==> IsWhitespace(s[i])
  }

  /** `s.trim().isEmpty()`: `trim` drops every leading and trailing char at or below a space. */
  predicate IsEmptyAfterTrim(s: string) {
    forall i :: 0 <= i < |s| ==> s[i] <= ' '
  }

  predicate IsAsciiUpper(c: char) { 'A' <= c <= 'Z' }
  predicate IsAsciiLower(c: char) { 'a' <= c <= 'z' }

  function ToLowerChar(c: char): (r: char)
    ensures !IsAsciiUpper(r)
    ensures IsAsciiUpper(c) ==> IsAsciiLower(r)
    ensures !IsAsciiUpper(c) ==> r == c
  {
    if IsAsciiUpper(c) then (c as int + 32) as char else c
  }

  function ToUpperChar(c: char): (r: char)
    ensures !IsAsciiLower(r)
    ensures IsAsciiLower(c) ==> IsAsciiUpper(r)
    ensures !IsAsciiLower(c) ==> r == c
  {
    if IsAsciiLower(c) then (c as int - 32) as char else c
  }

  /** `s.toLowerCase(...)` on the ASCII letters. */
  function ToLower(s: string): (r: string)
    ensures |r| == |s|
    ensures forall i :: 0 <= i < |s| ==> r[i] == ToLowerChar(s[i])
  {
    seq(|s|, i requires 0 <= i < |s| => ToLowerChar(s[i]))
  }

  /** `s.toUpperCase(...)` on the ASCII letters. */
  function ToUpper(s: string): (r: string)
    ensures |r| == |s|
    ensures forall i :: 0 <= i < |s| ==> r[i] == ToUpperChar(s[i])
  {
    seq(|s|, i requires 0 <= i < |s| => ToUpperChar(s[i]))
  }

  /** `s.replace(from, to)` for single characters. */
  function ReplaceChar(s: string, from: char, to: char): (r: string)
    ensures |r| == |s|
    ensures forall i :: 0 <= i < |s| ==> r[i] == if s[i] == from then to else s[i]
  {
    seq(|s|, i requires 0 <= i < |s| => if s[i] == from then to else s[i])
  }

  /** `String.valueOf(boolean)`. */
  function BoolToString(b: bool): string {
    if b then "true" else "false"
  }
}

=== FILE: je_naming_strategy.dfy ===
/** `JENamingStrategy`: the second physical naming strategy; it matches a lowercase letter
    followed by a whole run of capitals rather than a single capital. */
module JENamingStrategy {
  import opened JavaLang
  import opened SnakeCaseNamingStrategy

  /** Length of the run of ASCII capitals that starts `s`. */
  function UpperRun(s: string): (n: nat)
    ensures n <= |s|
    ensures forall i :: 0 <= i < n ==> IsAsciiUpper(s[i])
    ensures n == |s| || !IsAsciiUpper(s[n])
    decreases |s|
  {
    if |s| > 0 && IsAsciiUpper(s[0]) then 1 + UpperRun(s[1..]) else 0
  }

  /** `name.replaceAll("([a-z])([A-Z]+)", "$1_$2")`: the greedy group swallows the whole run of
      capitals, and the scan resumes after it. */
  function InsertBeforeRuns(s: string): string
    decreases |s|
  {
    if |s| == 0 then []
    else if CamelBoundary(s, 0) then
      var n := UpperRun(s[1..]);
      [s[0], '_'] + s[1..1 + n] + InsertBeforeRuns(s[1 + n..])
    else [s[0]] + InsertBeforeRuns(s[1..])
  }

  /** A run of capitals holds no boundary, and the boundary test at its last capital fails. */
  lemma {:induction false} SplitAfterUpperRun(u: string, t: string)
    requires forall i :: 0 <= i < |u| ==> IsAsciiUpper(u[i])
    ensures SplitAtBoundaries(u + t) == u + SplitAtBoundaries(t)
    decreases |u|
  {
    if |u| > 0 {
      var v := u + t;
      assert v[0] == u[0] && v[1..] == u[1..] + t;
      assert !CamelBoundary(v, 0);
      assert SplitAtBoundaries(v) == [v[0]] + SplitAtBoundaries(v[1..]);
      SplitAfterUpperRun(u[1..], t);
      assert u == [u[0]] + u[1..];
    } else {
      assert u + t == t;
    }
  }

  /** The greedy run-matching regex and the single-capital regex insert `_` at exactly the same
      places: at each lowercase letter that is followed by a capital. */
  lemma {:induction false} InsertBeforeRunsSplitsAtBoundaries(s: string)
    ensures InsertBeforeRuns(s) == SplitAtBoundaries(s)
    decreases |s|
  {
    if |s| == 0 {
    } else if CamelBoundary(s, 0) {
      var n := UpperRun(s[1..]);
      var run, rest := s[1..1 + n], s[1 + n..];
      InsertBeforeRunsSplitsAtBoundaries(rest);
      assert s[1..] == run + rest;
      SplitAfterUpperRun(run, rest);
      calc {
        InsertBeforeRuns(s);
        [s[0], '_'] + run + InsertBeforeRuns(rest);
        [s[0], '_'] + run + SplitAtBoundaries(rest);
        { assert [s[0], '_'] + run + SplitAtBoundaries(rest) == [s[0]] + "_" + (run + SplitAtBoundaries(rest)); }
        [s[0]] + "_" + SplitAtBoundaries(s[1..]);
        SplitAtBoundaries(s);
      }
    } else {
      InsertBeforeRunsSplitsAtBoundaries(s[1..]);
    }
  }

  /** The JVM's default locale, which `toLowerCase()` without an argument consults. On ASCII
      letters only the Turkish and Azerbaijani locales differ from `Locale.ROOT`: there `I`
      lowercases to the dotless `ı`. */
  datatype DefaultLocale = Ordinary | Turkic

  /** U+0131, LATIN SMALL LETTER DOTLESS I. */
  const DOTLESS_I: char := '\U{0131}'

  /** `toLowerCase()` in the default locale, on the ASCII letters. */
  function ToLowerIn(locale: DefaultLocale, s: string): (r: string)
    ensures |r| == |s|
    ensures forall i :: 0 <= i < |s| && (locale.Ordinary? || s[i] != 'I') ==> r[i] == ToLowerChar(s[i])
    ensures forall i :: 0 <= i < |s| && locale.Turkic? && s[i] == 'I' ==> r[i] == DOTLESS_I
  {
    seq(|s|, i requires 0 <= i < |s| => if locale.Turkic? && s[i] == 'I' then DOTLESS_I else ToLowerChar(s[i]))
  }

  /** The boundary split only adds `_`: any other character occurs in the split iff it occurs
      in the input. */
  lemma {:induction false} SplitKeepsCharacters(s: string, c: char)
    requires c != '_'
    ensures c in SplitAtBoundaries(s) <==> c in s
    decreases |s|
  {
    if |s| > 0 {
      SplitKeepsCharacters(s[1..], c);
      assert s == [s[0]] + s[1..];
    }
  }

  /** Lowering the split name in either locale: the same text when the name holds no `I`, and
      under a Turkic locale a different text, holding `ı`, when it holds `I`. */
  lemma LocaleLowering(locale: DefaultLocale, name: string)
    ensures var t := ReplaceChar(SplitAtBoundaries(name), '-', '_');
      (locale.Ordinary? || 'I' !in name ==> ToLowerIn(locale, t) == ToLower(t))
      && (locale.Turkic? && 'I' in name ==>
            ToLowerIn(locale, t) != ToLower(t) && DOTLESS_I in ToLowerIn(locale, t))
  {
    var split := SplitAtBoundaries(name);
    var t := ReplaceChar(split, '-', '_');
    SplitKeepsCharacters(name, 'I');
    if locale.Ordinary? || 'I' !in name {
      assert forall i :: 0 <= i < |t| ==> t[i] != 'I' || locale.Ordinary?;
    } else {
      var j :| 0 <= j < |split| && split[j] == 'I';
      assert t[j] == 'I';
      assert ToLowerIn(locale, t)[j] == DOTLESS_I != ToLower(t)[j];
    }
  }

  /** `applyNamingConvention`: the run regex, then `-` to `_`, then lowercase in the default
      locale. It agrees with the snake-case conversion exactly when the locale maps `I` to `i`
      or the name holds no `I`. */
  function ApplyNamingConvention(locale: DefaultLocale, name: string): (r: string)
    ensures locale.Ordinary? || 'I' !in name ==> r == ConvertText(name)
    ensures locale.Turkic? && 'I' in name ==> r != ConvertText(name) && DOTLESS_I in r
  {
    InsertBeforeRunsSplitsAtBoundaries(name);
    ReplaceCamelPairsSplitsAtBoundaries(name);
    LocaleLowering(locale, name);
    ToLowerIn(locale, ReplaceChar(InsertBeforeRuns(name), '-', '_'))
  }

  /** The three overrides build a new identifier from the converted text and keep the quoted
      flag; outside a Turkic default locale the result equals the snake-case strategy's. */
  function ToPhysicalTableName(locale: DefaultLocale, logicalName: Identifier): (r: Identifier)
    ensures r.quoted == logicalName.quoted
    ensures locale.Ordinary? || 'I' !in logicalName.text ==> r == SnakeCaseNamingStrategy.ToPhysicalTableName(logicalName)
    ensures locale.Turkic? && 'I' in logicalName.text ==>
      r != SnakeCaseNamingStrategy.ToPhysicalTableName(logicalName)
  {
    Identifier(ApplyNamingConvention(locale, logicalName.text), logicalName.quoted)
  }

  function ToPhysicalColumnName(locale: DefaultLocale, logicalName: Identifier): (r: Identifier)
    ensures r.quoted == logicalName.quoted
    ensures locale.Ordinary? || 'I' !in logicalName.text ==> r == SnakeCaseNamingStrategy.ToPhysicalColumnName(logicalName)
    ensures locale.Turkic? && 'I' in logicalName.text ==>
      r != SnakeCaseNamingStrategy.ToPhysicalColumnName(logicalName)
  {
    Identifier(ApplyNamingConvention(locale, logicalName.text), logicalName.quoted)
  }

  function ToPhysicalSequenceName(locale: DefaultLocale, logicalName: Identifier): (r: Identifier)
    ensures r.quoted == logicalName.quoted
    ensures locale.Ordinary? || 'I' !in logicalName.text ==> r == SnakeCaseNamingStrategy.ToPhysicalSequenceName(logicalName)
    ensures locale.Turkic? && 'I' in logicalName.text ==>
      r != SnakeCaseNamingStrategy.ToPhysicalSequenceName(logicalName)
  {
    Identifier(ApplyNamingConvention(locale, logicalName.text), logicalName.quoted)
  }
}

=== FILE: optimistic_lock_handler.dfy ===
/** `OptimisticLockHandler`: runs an operation, retrying it a bounded number of times while it
    fails with an optimistic-locking conflict. */
module OptimisticLockHandler {
  import opened Wrappers
  import opened JavaLang

  const MAX_RETRY_ATTEMPTS: nat := 3
  /** The pause between attempts, in milliseconds; the model counts the pauses, not their length. */
  const RETRY_DELAY_MS: nat := 100

  const OPERATION_NULL: string := "Operation cannot be null"
  const ENTITY_NAME_EMPTY: string := "Entity name cannot be null or empty"
  const RETRY_INTERRUPTED: string := "Retry operation was interrupted"

  /** The message fragments that mark a conflict. */
  const OPTIMISTIC_LOCK_TEXT: string := "OptimisticLockException"
  const STALE_STATE_TEXT: string := "StaleObjectStateException"
  const ROW_CHANGED_TEXT: string := "Row was updated or deleted by another transaction"

  /** What one `operation.call()` did: returned a value or threw. */
  datatype CallOutcome<T> = Returned(value: T) | Threw(thrown: Throwable)

  /** The operation, as the outcome of its `n`-th call (counting from 0). */
  type Operation<T> = nat -> CallOutcome<T>

  /** The `n`-th `Thread.sleep` between attempts: `None` when it completes, or the
      InterruptedException it throws. */
  type Sleeper = nat -> Option<Throwable>

  /** The effect of one `executeWithRetry`: what it returned or threw, how many times the
      operation was called, how many pauses began, and whether the thread's interrupt flag
      was set again. */
  datatype Run<T> = Run(result: Result<T, Throwable>, calls: nat, sleeps: nat, reinterrupted: bool)

  predicate HasConflictText(message: Option<string>) {
    message.Some? &&
    (Contains(message.value, OPTIMISTIC_LOCK_TEXT) || Contains(message.value, STALE_STATE_TEXT)
     || Contains(message.value, ROW_CHANGED_TEXT))
  }

  /** `isOptimisticLockException`: the conflict classes, a rollback judged by its cause alone,
      a conflict message, or else the cause. */
  predicate IsOptimisticLock(t: Option<Throwable>)
    decreases t
  {
    match t
    case None => false
    case Some(e) =>
      if e.kind.OptimisticLockException? || e.kind.StaleObjectStateException? then true
      else if e.kind.RollbackException? && e.cause.Some? then IsOptimisticLock(e.cause)
      else if HasConflictText(e.message) then true
      else IsOptimisticLock(e.cause)
  }

  /** The exception and its causes, outermost first. */
  function CauseChain(t: Option<Throwable>): (chain: seq<Throwable>)
    ensures t.None? <==> |chain| == 0
    ensures t.Some? ==> chain[0] == t.value
    decreases t
  {
    match t
    case None => []
    case Some(e) => [e] + CauseChain(e.cause)
  }

  /** What one link of the chain says on its own: a conflict class, or a conflict message on
      anything but a rollback that has a cause. */
  predicate MarksConflict(e: Throwable) {
    e.kind.OptimisticLockException? || e.kind.StaleObjectStateException?
    || (!(e.kind.RollbackException? && e.cause.Some?) && HasConflictText(e.message))
  }

  /** Some link of the chain marks a conflict. */
  predicate SomeLinkMarksConflict(chain: seq<Throwable>) {
    exists i :: 0 <= i < |chain| && MarksConflict(chain[i])
  }

  /** The classifier is an existential over the cause chain: some link marks a conflict. */
  lemma {:induction false} IsOptimisticLockSearchesChain(t: Option<Throwable>)
    ensures IsOptimisticLock(t) <==> SomeLinkMarksConflict(CauseChain(t))
    decreases t
  {
    match t
    case None =>
    case Some(e) =>
      IsOptimisticLockSearchesChain(e.cause);
      var rest := CauseChain(e.cause);
      var chain := CauseChain(t);
      assert chain == [e] + rest;
      if MarksConflict(e) {
        assert MarksConflict(chain[0]);
      } else if IsOptimisticLock(t) {
        var j :| 0 <= j < |rest| && MarksConflict(rest[j]);
        assert chain[j + 1] == rest[j];
      } else {
        assert !IsOptimisticLock(e.cause);
        forall i | 0 <= i < |chain|
          ensures !MarksConflict(chain[i])
        {
          if i > 0 {
            assert chain[i] == rest[i - 1];
          }
        }
      }
  }

  /** A rollback with a cause is judged by the cause alone, even when its own message names a
      conflict. */
  lemma RollbackIgnoresOwnMessage(cause: Throwable, message: string)
    requires !IsOptimisticLock(Some(cause))
    ensures !IsOptimisticLock(Some(Throwable(RollbackException, Some(message), Some(cause))))
  {
  }

  /** A wrapper whose message names a conflict is a conflict whatever it wraps. */
  lemma ConflictMessageMarks(kind: ExceptionKind, prefix: string, suffix: string, cause: Option<Throwable>)
    requires !kind.RollbackException?
    ensures IsOptimisticLock(Some(Throwable(kind, Some(prefix + ROW_CHANGED_TEXT + suffix), cause)))
  {
    ContainsInfix(prefix, ROW_CHANGED_TEXT, suffix);
  }

  /** The exception thrown when a pause between attempts is interrupted. */
  function InterruptedFailure(interruption: Throwable): (t: Throwable)
    ensures t.kind == RuntimeException && t.message == Some(RETRY_INTERRUPTED)
    ensures t.cause == Some(interruption)
  {
    Throwable(RuntimeException, Some(RETRY_INTERRUPTED), Some(interruption))
  }

  /** The retry loop from the call numbered `k`, once `k` conflicts have been seen. */
  function Attempt<T>(op: Operation<T>, sleep: Sleeper, k: nat): (run: Run<T>)
    requires k < MAX_RETRY_ATTEMPTS
    ensures k < run.calls <= MAX_RETRY_ATTEMPTS
    ensures run.sleeps <= run.calls && run.sleeps < MAX_RETRY_ATTEMPTS
    ensures run.reinterrupted ==> run.sleeps == run.calls
    ensures !run.reinterrupted ==> run.sleeps == run.calls - 1
    decreases MAX_RETRY_ATTEMPTS - k
  {
    match op(k)
    case Returned(v) => Run(Ok(v), k + 1, k, false)
    case Threw(e) =>
      if !IsException(e.kind) || !IsOptimisticLock(Some(e)) || k + 1 == MAX_RETRY_ATTEMPTS then
        Run(Err(e), k + 1, k, false)
      else
        match sleep(k)
        case Some(interruption) => Run(Err(InterruptedFailure(interruption)), k + 1, k + 1, true)
        case None => Attempt(op, sleep, k + 1)
  }

  /** `executeWithRetry`: the argument checks, then the retry loop. */
  function Execute<T>(operation: Option<Operation<T>>, entityName: Option<string>, sleep: Sleeper): (run: Run<T>)
    ensures run.calls <= MAX_RETRY_ATTEMPTS && run.sleeps <= MAX_RETRY_ATTEMPTS - 1
    ensures run.calls == 0 <==> operation.None? || entityName.None? || IsEmptyAfterTrim(entityName.value)
  {
    if operation.None? then Run(Err(Raise(IllegalArgumentException, OPERATION_NULL)), 0, 0, false)
    else if entityName.None? || IsEmptyAfterTrim(entityName.value) then
      Run(Err(Raise(IllegalArgumentException, ENTITY_NAME_EMPTY)), 0, 0, false)
    else Attempt(operation.value, sleep, 0)
  }

  /** The retry loop as written: `attempts` counts the conflicts seen; a conflict before the
      last attempt pauses and goes round again, anything else leaves the loop. */
  method ExecuteWithRetry<T>(operation: Option<Operation<T>>, entityName: Option<string>, sleep: Sleeper)
    returns (run: Run<T>)
    ensures run == Execute(operation, entityName, sleep)
  {
    if operation.None? {
      return Run(Err(Raise(IllegalArgumentException, OPERATION_NULL)), 0, 0, false);
    }
    if entityName.None? || IsEmptyAfterTrim(entityName.value) {
      return Run(Err(Raise(IllegalArgumentException, ENTITY_NAME_EMPTY)), 0, 0, false);
    }
    var op := operation.value;
    var attempts: nat := 0;
    var calls: nat := 0;
    var sleeps: nat := 0;
    var lastException: Option<Throwable> := None;
    while attempts < MAX_RETRY_ATTEMPTS
      invariant attempts < MAX_RETRY_ATTEMPTS
      invariant calls == attempts && sleeps == attempts
      invariant Execute(operation, entityName, sleep) == Attempt(op, sleep, attempts)
      decreases MAX_RETRY_ATTEMPTS - attempts
    {
      calls := calls + 1;
      match op(attempts) {
        case Returned(v) =>
          return Run(Ok(v), calls, sleeps, false);
        case Threw(e) =>
          if !IsException(e.kind) {
            // an Error is not caught by `catch (Exception e)`
            return Run(Err(e), calls, sleeps, false);
          }
          lastException := Some(e);
          if IsOptimisticLock(Some(e)) {
            attempts := attempts + 1;
            if attempts < MAX_RETRY_ATTEMPTS {
              sleeps := sleeps + 1;
              match sleep(attempts - 1) {
                case Some(interruption) =>
                  return Run(Err(InterruptedFailure(interruption)), calls, sleeps, true);
                case None =>
              }
              continue;
            }
          }
          return Run(Err(e), calls, sleeps, false);
      }
    }
    // every pass through the loop returns or goes round with attempts below the bound
    assert false;
  }

  /** A first call that returns: its value is the result, and nothing is called again. */
  lemma FirstSuccessReturned<T>(op: Operation<T>, name: string, sleep: Sleeper, v: T)
    requires !IsEmptyAfterTrim(name) && op(0) == Returned(v)
    ensures Execute(Some(op), Some(name), sleep) == Run(Ok(v), 1, 0, false)
  {
  }

  /** A first failure that is not a conflict is thrown unchanged after one call, without a pause. */
  lemma NonConflictRethrown<T>(op: Operation<T>, name: string, sleep: Sleeper, e: Throwable)
    requires !IsEmptyAfterTrim(name) && op(0) == Threw(e) && !IsOptimisticLock(Some(e))
    ensures Execute(Some(op), Some(name), sleep) == Run(Err(e), 1, 0, false)
  {
  }

  /** An Error (not an Exception) escapes at once, even when it looks like a conflict. */
  lemma ErrorEscapes<T>(op: Operation<T>, name: string, sleep: Sleeper, e: Throwable)
    requires !IsEmptyAfterTrim(name) && op(0) == Threw(e) && e.kind == JavaError
    ensures Execute(Some(op), Some(name), sleep) == Run(Err(e), 1, 0, false)
  {
  }

  /** A conflict on call `i`: an Exception the classifier accepts. */
  predicate ConflictAt<T>(op: Operation<T>, i: nat) {
    op(i).Threw? && IsException(op(i).thrown.kind) && IsOptimisticLock(Some(op(i).thrown))
  }

  /** Conflicts on calls `j` .. `k - 1` with uninterrupted pauses, then a value on call `k`. */
  lemma {:induction false} ConflictsThenValue<T>(op: Operation<T>, sleep: Sleeper, j: nat, k: nat, v: T)
    requires j <= k < MAX_RETRY_ATTEMPTS
    requires forall i :: j <= i < k ==> ConflictAt(op, i) && sleep(i).None?
    requires op(k) == Returned(v)
    ensures Attempt(op, sleep, j) == Run(Ok(v), k + 1, k, false)
    decreases k - j
  {
    if j < k {
      assert ConflictAt(op, j) && sleep(j).None?;
      ConflictsThenValue(op, sleep, j + 1, k, v);
    }
  }

  /** `k` conflicts followed by a value: the value is returned after exactly `k + 1` calls and
      `k` pauses. */
  lemma ConflictsThenSuccess<T>(op: Operation<T>, name: string, sleep: Sleeper, k: nat, v: T)
    requires !IsEmptyAfterTrim(name) && k < MAX_RETRY_ATTEMPTS
    requires forall i :: 0 <= i < k ==> ConflictAt(op, i) && sleep(i).None?
    requires op(k) == Returned(v)
    ensures Execute(Some(op), Some(name), sleep) == Run(Ok(v), k + 1, k, false)
  {
    ConflictsThenValue(op, sleep, 0, k, v);
  }

  /** Three conflicts in a row: the third is thrown after three calls and two pauses. */
  lemma RetriesExhausted<T>(op: Operation<T>, name: string, sleep: Sleeper)
    requires !IsEmptyAfterTrim(name)
    requires ConflictAt(op, 0) && ConflictAt(op, 1) && ConflictAt(op, 2)
    requires sleep(0).None? && sleep(1).None?
    ensures Execute(Some(op), Some(name), sleep) == Run(Err(op(2).thrown), 3, 2, false)
  {
  }

  /** An interrupted pause ends the run with the wrapped interruption and sets the interrupt flag
      again, without another call. */
  lemma InterruptStops<T>(op: Operation<T>, name: string, sleep: Sleeper, interruption: Throwable)
    requires !IsEmptyAfterTrim(name) && ConflictAt(op, 0) && sleep(0) == Some(interruption)
    ensures Execute(Some(op), Some(name), sleep) == Run(Err(InterruptedFailure(interruption)), 1, 1, true)
  {
  }

  /** The argument checks come first: nothing is called. */
  lemma ArgumentChecks<T>(operation: Option<Operation<T>>, entityName: Option<string>, sleep: Sleeper)
    ensures operation.None? ==>
      Execute(operation, entityName, sleep).result == Err(Raise(IllegalArgumentException, OPERATION_NULL))
    ensures operation.Some? && (entityName.None? || IsEmptyAfterTrim(entityName.value)) ==>
      Execute(operation, entityName, sleep).result == Err(Raise(IllegalArgumentException, ENTITY_NAME_EMPTY))
  {
  }
}

=== FILE: properties.dfy ===
/** `java.util.Properties` as the configuration code uses it: a mutable string-to-string map. */
module JavaProperties {
  import opened Wrappers

  class Properties {
    var entries: map<string, string>

    /** `new Properties()`: no entries. */
    constructor()
      ensures entries == map[]
    {
      entries := map[];
    }

    /** `getProperty(key)`: the value, or null when the key is absent. */
    function GetProperty(key: string): (r: Option<string>)
      reads this
      ensures r.Some? <==> key in entries
      ensures r.Some? ==> r.value == entries[key]
    {
      if key in entries then Some(entries[key]) else None
    }

    /** `getProperty(key, defaultValue)`. */
    function GetPropertyOr(key: string, defaultValue: string): (r: string)
      reads this
      ensures key in entries ==> r == entries[key]
      ensures key !in entries ==> r == defaultValue
    {
      if key in entries then entries[key] else defaultValue
    }

    /** `containsKey(key)`. */
    predicate ContainsKey(key: string)
      reads this
    {
      key in entries
    }

    /** `setProperty(key, value)`: insert or overwrite. */
    method SetProperty(key: string, value: string)
      modifies this
      ensures entries == old(entries)[key := value]
    {
      entries := entries[key := value];
    }

    /** `putIfAbsent(key, value)`: write only when the key is absent; return the previous value. */
    method PutIfAbsent(key: string, value: string) returns (previous: Option<string>)
      modifies this
      ensures key in old(entries) ==> entries == old(entries) && previous == Some(old(entries)[key])
      ensures key !in old(entries) ==> entries == old(entries)[key := value] && previous == None
    {
      if key in entries {
        previous := Some(entries[key]);
      } else {
        previous := None;
        entries := entries[key := value];
      }
    }
  }
}

/** The keys of `org.hibernate.cfg.AvailableSettings` that the configuration code writes. */
module AvailableSettings {
  const JAKARTA_JDBC_URL: string := "jakarta.persistence.jdbc.url"
  const JAKARTA_JDBC_DRIVER: string := "jakarta.persistence.jdbc.driver"
  const JAKARTA_JDBC_USER: string := "jakarta.persistence.jdbc.user"
  const JAKARTA_JDBC_PASSWORD: string := "jakarta.persistence.jdbc.password"
  const DIALECT: string := "hibernate.dialect"
  const HBM2DDL_AUTO: string := "hibernate.hbm2ddl.auto"
  const SHOW_SQL: string := "hibernate.show_sql"
  const FORMAT_SQL: string := "hibernate.format_sql"
  const USE_SQL_COMMENTS: string := "hibernate.use_sql_comments"
  const HIGHLIGHT_SQL: string := "hibernate.highlight_sql"
  const STATEMENT_BATCH_SIZE: string := "hibernate.jdbc.batch_size"
  const ORDER_INSERTS: string := "hibernate.order_inserts"
  const ORDER_UPDATES: string := "hibernate.order_updates"
  const GENERATE_STATISTICS: string := "hibernate.generate_statistics"

  /** The connection keys have different lengths, so they are pairwise distinct. */
  lemma ConnectionKeyLengths()
    ensures |JAKARTA_JDBC_URL| == 28 && |JAKARTA_JDBC_DRIVER| == 31 && |JAKARTA_JDBC_USER| == 29
    ensures |JAKARTA_JDBC_PASSWORD| == 33 && |DIALECT| == 17
  {
  }
}

=== FILE: query_builder.dfy ===
/** `BaseRepository.QueryBuilder`: a mutable accumulator of predicates, sort field and direction,
    offset and limit, turned into a criteria query when it is run. */
module QueryBuilders {
  import opened Wrappers
  import opened JavaLang
  import opened Transactions
  import opened QueryPlans

  /** `PredicateSpec(attribute, value, type)`: the type and value together as a condition. */
  datatype PredicateSpec<V> = PredicateSpec(attribute: string, condition: Condition<V>)

  /** The filters of a spec list, resolved in order; the first unresolvable attribute throws. */
  function ResolveSpecs<V>(metamodel: Metamodel, specs: seq<PredicateSpec<V>>): (r: Result<seq<Filter<V>>, Throwable>)
    decreases |specs|
  {
    if |specs| == 0 then Ok([])
    else
      match ResolvePath(metamodel, specs[0].attribute)
      case Err(e) => Err(e)
      case Ok(path) =>
        Prepend([Filter(path, specs[0].condition)], ResolveSpecs(metamodel, specs[1..]))
  }

  /** `filters` ahead of the rest, when the rest resolved. */
  function Prepend<V>(filters: seq<Filter<V>>, rest: Result<seq<Filter<V>>, Throwable>): Result<seq<Filter<V>>, Throwable> {
    match rest
    case Err(e) => Err(e)
    case Ok(r) => Ok(filters + r)
  }

  /** The loop of `applyPredicates` starts with no filters ahead of all the specs. */
  lemma ResolveFrom<V>(metamodel: Metamodel, specs: seq<PredicateSpec<V>>)
    ensures ResolveSpecs(metamodel, specs) == Prepend([], ResolveSpecs(metamodel, specs[0..]))
  {
    assert specs[0..] == specs;
    if ResolveSpecs(metamodel, specs).Ok? {
      assert [] + ResolveSpecs(metamodel, specs).value == ResolveSpecs(metamodel, specs).value;
    }
  }

  /** One step of that loop: a spec that fails to resolve fails the whole resolution, and one
      that resolves moves its filter behind the ones already built. */
  lemma ResolveStep<V>(metamodel: Metamodel, specs: seq<PredicateSpec<V>>, i: nat, filters: seq<Filter<V>>)
    requires i < |specs|
    requires ResolveSpecs(metamodel, specs) == Prepend(filters, ResolveSpecs(metamodel, specs[i..]))
    ensures var path := ResolvePath(metamodel, specs[i].attribute);
      && (path.Err? ==> ResolveSpecs(metamodel, specs) == Err(path.error))
      && (path.Ok? ==> ResolveSpecs(metamodel, specs)
                       == Prepend(filters + [Filter(path.value, specs[i].condition)], ResolveSpecs(metamodel, specs[i + 1..])))
  {
    assert specs[i..][1..] == specs[i + 1..];
    var path := ResolvePath(metamodel, specs[i].attribute);
    if path.Ok? {
      var filter := Filter(path.value, specs[i].condition);
      var rest := ResolveSpecs(metamodel, specs[i + 1..]);
      assert ResolveSpecs(metamodel, specs[i..]) == Prepend([filter], rest);
      if rest.Ok? {
        assert filters + ([filter] + rest.value) == (filters + [filter]) + rest.value;
      }
    }
  }

  /** When the loop has gone through every spec, the filters built are the resolution. */
  lemma ResolveDone<V>(metamodel: Metamodel, specs: seq<PredicateSpec<V>>, filters: seq<Filter<V>>)
    requires ResolveSpecs(metamodel, specs) == Prepend(filters, ResolveSpecs(metamodel, specs[|specs|..]))
    ensures ResolveSpecs(metamodel, specs) == Ok(filters)
  {
    assert specs[|specs|..] == [];
    assert filters + [] == filters;
  }

  /** Resolution keeps the specs' order and conditions, one filter per spec, and fails exactly
      when some attribute does not resolve. */
  lemma {:induction false} ResolveSpecsInOrder<V>(metamodel: Metamodel, specs: seq<PredicateSpec<V>>)
    ensures ResolveSpecs(metamodel, specs).Ok? <==>
      forall i :: 0 <= i < |specs| ==> ResolvePath(metamodel, specs[i].attribute).Ok?
    ensures ResolveSpecs(metamodel, specs).Ok? ==>
      |ResolveSpecs(metamodel, specs).value| == |specs| &&
      forall i :: 0 <= i < |specs| ==>
        ResolveSpecs(metamodel, specs).value[i] ==
          Filter(ResolvePath(metamodel, specs[i].attribute).value, specs[i].condition)
    decreases |specs|
  {
    if |specs| > 0 {
      ResolveSpecsInOrder(metamodel, specs[1..]);
      assert forall i :: 1 <= i < |specs| ==> specs[1..][i - 1] == specs[i];
      if ResolveSpecs(metamodel, specs).Ok? {
        assert ResolvePath(metamodel, specs[0].attribute).Ok?;
      } else if ResolvePath(metamodel, specs[0].attribute).Ok? {
        var j :| 0 <= j < |specs[1..]| && !ResolvePath(metamodel, specs[1..][j].attribute).Ok?;
        assert !ResolvePath(metamodel, specs[j + 1].attribute).Ok?;
      }
    }
  }

  /** `applyPredicates`: no `where` clause for an empty spec list, otherwise one filter per spec. */
  function WhereClause<V>(metamodel: Metamodel, specs: seq<PredicateSpec<V>>): (r: Result<Option<seq<Filter<V>>>, Throwable>)
    ensures |specs| == 0 ==> r == Ok(None)
  {
    if |specs| == 0 then Ok(None)
    else
      match ResolveSpecs(metamodel, specs)
      case Err(e) => Err(e)
      case Ok(filters) => Ok(Some(filters))
  }

  /** `executeQuery`: the filters, the order if a sort field is set (its name is not split on
      dots), the first result only when the offset is positive, and the max results only when the
      limit is below `Integer.MAX_VALUE`. */
  function SelectPlan<V>(metamodel: Metamodel, specs: seq<PredicateSpec<V>>, sortBy: Option<string>,
                         ascending: bool, offset: int32, limit: int32): (r: Result<QueryPlan<V>, Throwable>)
  {
    match WhereClause(metamodel, specs)
    case Err(e) => Err(e)
    case Ok(where) =>
      if sortBy.Some? && WalkPath(metamodel, [sortBy.value]).Err? then Err(WalkPath(metamodel, [sortBy.value]).error)
      else
        Ok(QueryPlan(where,
                     if sortBy.Some? then Some(Order(sortBy.value, ascending)) else None,
                     if offset > 0 then Some(offset) else None,
                     if limit as int < INT_MAX then Some(limit) else None))
  }

  /** The plan run by `count()`: the filters only. */
  function CountPlan<V>(metamodel: Metamodel, specs: seq<PredicateSpec<V>>): (r: Result<QueryPlan<V>, Throwable>)
    ensures r.Ok? ==> r.value.order.None? && r.value.firstResult.None? && r.value.maxResults.None?
  {
    match WhereClause(metamodel, specs)
    case Err(e) => Err(e)
    case Ok(where) => Ok(QueryPlan(where, None, None, None))
  }

  /** The action's outcome once a plan is built: the rows the database returns for it. A plan
      whose window the provider refuses fails with IllegalArgumentException before any row is
      fetched. */
  function WithRows<V, R>(plan: Result<QueryPlan<V>, Throwable>, rows: R): (r: Result<R, Throwable>)
    ensures r.Ok? <==> plan.Ok? && ValidWindow(plan.value)
    ensures r.Ok? ==> r.value == rows
    ensures plan.Err? ==> r == Err(plan.error)
    ensures plan.Ok? && !ValidWindow(plan.value) ==> r.Err? && r.error.kind == IllegalArgumentException
  {
    if plan.Err? then Err(plan.error)
    else if !ValidWindow(plan.value) then Err(Throwable(IllegalArgumentException, None, None))
    else Ok(rows)
  }

  class QueryBuilder<E, V> {
    /** The metamodel of the repository's entity class. */
    const metamodel: Metamodel
    var predicates: seq<PredicateSpec<V>>
    var sortBy: Option<string>
    var ascending: bool
    var offset: int32
    var limit: int32

    /** `repository.query()`: no predicates, no order, offset 0, limit `Integer.MAX_VALUE`. */
    constructor(metamodel: Metamodel)
      ensures this.metamodel == metamodel
      ensures predicates == [] && sortBy.None? && ascending
      ensures offset == 0 && limit as int == INT_MAX
    {
      this.metamodel := metamodel;
      predicates := [];
      sortBy := None;
      ascending := true;
      offset := 0;
      limit := INT_MAX as int32;
    }

    /** Appends one spec; every `where*` method is this with its own condition. */
    method Append(spec: PredicateSpec<V>) returns (self: QueryBuilder<E, V>)
      modifies this
      ensures self == this
      ensures predicates == old(predicates) + [spec]
      ensures sortBy == old(sortBy) && ascending == old(ascending) && offset == old(offset) && limit == old(limit)
    {
      predicates := predicates + [spec];
      return this;
    }

    method Where(attribute: string, value: V) returns (self: QueryBuilder<E, V>)
      modifies this
      ensures self == this
      ensures predicates == old(predicates) + [PredicateSpec(attribute, Equal(value))]
      ensures sortBy == old(sortBy) && ascending == old(ascending) && offset == old(offset) && limit == old(limit)
    {
      self := Append(PredicateSpec(attribute, Equal(value)));
    }

    method WhereLike(attribute: string, pattern: string) returns (self: QueryBuilder<E, V>)
      modifies this
      ensures self == this
      ensures predicates == old(predicates) + [PredicateSpec(attribute, Like(pattern))]
      ensures sortBy == old(sortBy) && ascending == old(ascending) && offset == old(offset) && limit == old(limit)
    {
      self := Append(PredicateSpec(attribute, Like(pattern)));
    }

    method WhereIn(attribute: string, values: seq<V>) returns (self: QueryBuilder<E, V>)
      modifies this
      ensures self == this
      ensures predicates == old(predicates) + [PredicateSpec(attribute, In(values))]
      ensures sortBy == old(sortBy) && ascending == old(ascending) && offset == old(offset) && limit == old(limit)
    {
      self := Append(PredicateSpec(attribute, In(values)));
    }

    method WhereNotNull(attribute: string) returns (self: QueryBuilder<E, V>)
      modifies this
      ensures self == this
      ensures predicates == old(predicates) + [PredicateSpec(attribute, NotNull)]
      ensures sortBy == old(sortBy) && ascending == old(ascending) && offset == old(offset) && limit == old(limit)
    {
      self := Append(PredicateSpec(attribute, NotNull));
    }

    method WhereNull(attribute: string) returns (self: QueryBuilder<E, V>)
      modifies this
      ensures self == this
      ensures predicates == old(predicates) + [PredicateSpec(attribute, IsNull)]
      ensures sortBy == old(sortBy) && ascending == old(ascending) && offset == old(offset) && limit == old(limit)
    {
      self := Append(PredicateSpec(attribute, IsNull));
    }

    method WhereGreaterThan(attribute: string, value: V) returns (self: QueryBuilder<E, V>)
      modifies this
      ensures self == this
      ensures predicates == old(predicates) + [PredicateSpec(attribute, GreaterThan(value))]
      ensures sortBy == old(sortBy) && ascending == old(ascending) && offset == old(offset) && limit == old(limit)
    {
      self := Append(PredicateSpec(attribute, GreaterThan(value)));
    }

    method WhereLessThan(attribute: string, value: V) returns (self: QueryBuilder<E, V>)
      modifies this
      ensures self == this
      ensures predicates == old(predicates) + [PredicateSpec(attribute, LessThan(value))]
      ensures sortBy == old(sortBy) && ascending == old(ascending) && offset == old(offset) && limit == old(limit)
    {
      self := Append(PredicateSpec(attribute, LessThan(value)));
    }

    /** `orderBy`: ascending on `attribute`, replacing any earlier order. */
    method OrderBy(attribute: string) returns (self: QueryBuilder<E, V>)
      modifies this
      ensures self == this
      ensures sortBy == Some(attribute) && ascending
      ensures predicates == old(predicates) && offset == old(offset) && limit == old(limit)
    {
      sortBy := Some(attribute);
      ascending := true;
      return this;
    }

    /** `orderByDesc`: descending on `attribute`, replacing any earlier order. */
    method OrderByDesc(attribute: string) returns (self: QueryBuilder<E, V>)
      modifies this
      ensures self == this
      ensures sortBy == Some(attribute) && !ascending
      ensures predicates == old(predicates) && offset == old(offset) && limit == old(limit)
    {
      sortBy := Some(attribute);
      ascending := false;
      return this;
    }

    /** `offset(n)`: a negative offset is clamped to 0. */
    method Offset(n: int32) returns (self: QueryBuilder<E, V>)
      modifies this
      ensures self == this
      ensures offset >= 0 && (offset == n || (n < 0 && offset == 0))
      ensures predicates == old(predicates) && sortBy == old(sortBy) && ascending == old(ascending) && limit == old(limit)
    {
      offset := Max(0, n);
      return this;
    }

    /** `limit(n)`: a limit below 1 is clamped to 1. */
    method Limit(n: int32) returns (self: QueryBuilder<E, V>)
      modifies this
      ensures self == this
      ensures limit >= 1 && (limit == n || (n < 1 && limit == 1))
      ensures predicates == old(predicates) && sortBy == old(sortBy) && ascending == old(ascending) && offset == old(offset)
    {
      limit := Max(1, n);
      return this;
    }

    /** `page(p, s)`: offset `max(0, p) * max(1, s)` in `int` arithmetic, limit `max(1, s)`. */
    method Page(pageNumber: int32, pageSize: int32) returns (self: QueryBuilder<E, V>)
      modifies this
      ensures self == this
      ensures offset == Mul32(Max(0, pageNumber), Max(1, pageSize)) && limit == Max(1, pageSize)
      ensures predicates == old(predicates) && sortBy == old(sortBy) && ascending == old(ascending)
    {
      offset := Mul32(Max(0, pageNumber), Max(1, pageSize));
      limit := Max(1, pageSize);
      return this;
    }

    /** The builder's private `applyPredicates`: resolves the specs one by one, in order. */
    method ApplyPredicates() returns (r: Result<Option<seq<Filter<V>>>, Throwable>)
      ensures r == WhereClause(metamodel, predicates)
    {
      if |predicates| == 0 {
        return Ok(None);
      }
      var specs := predicates;
      var filters: seq<Filter<V>> := [];
      var i := 0;
      ResolveFrom(metamodel, specs);
      while i < |specs|
        invariant 0 <= i <= |specs|
        invariant ResolveSpecs(metamodel, specs) == Prepend(filters, ResolveSpecs(metamodel, specs[i..]))
      {
        var path := ResolvePath(metamodel, specs[i].attribute);
        ResolveStep(metamodel, specs, i, filters);
        if path.Err? {
          return Err(path.error);
        }
        filters := filters + [Filter(path.value, specs[i].condition)];
        i := i + 1;
      }
      ResolveDone(metamodel, specs, filters);
      return Ok(Some(filters));
    }

    /** `executeQuery` as a plan. */
    method ExecuteQuery() returns (plan: Result<QueryPlan<V>, Throwable>)
      ensures plan == SelectPlan(metamodel, predicates, sortBy, ascending, offset, limit)
    {
      var where := ApplyPredicates();
      if where.Err? {
        return Err(where.error);
      }
      if sortBy.Some? {
        var sortPath := WalkPath(metamodel, [sortBy.value]);
        if sortPath.Err? {
          return Err(sortPath.error);
        }
      }
      var order := if sortBy.Some? then Some(Order(sortBy.value, ascending)) else None;
      var first := if offset > 0 then Some(offset) else None;
      var max := if limit as int < INT_MAX then Some(limit) else None;
      return Ok(QueryPlan(where.value, order, first, max));
    }

    /** `list()`: runs the plan in a transaction; `rows` are what the database returns for it. */
    method List(tx: TxEnv, rows: seq<E>) returns (plan: Result<QueryPlan<V>, Throwable>, r: Result<seq<E>, Throwable>)
      ensures plan == SelectPlan(metamodel, predicates, sortBy, ascending, offset, limit)
      ensures r == ExecuteInTransaction(tx, WithRows(plan, rows)).result
    {
      plan := ExecuteQuery();
      r := ExecuteInTransaction(tx, WithRows(plan, rows)).result;
    }

    /** `first()`: sets the builder's limit to 1 for good, then returns the first row if any. */
    method First(tx: TxEnv, rows: seq<E>) returns (plan: Result<QueryPlan<V>, Throwable>, r: Result<Option<E>, Throwable>)
      modifies this
      ensures limit == 1
      ensures predicates == old(predicates) && sortBy == old(sortBy) && ascending == old(ascending) && offset == old(offset)
      ensures plan == SelectPlan(metamodel, predicates, sortBy, ascending, offset, 1)
      ensures plan.Ok? ==> plan.value.maxResults == Some(1)
      ensures r == ExecuteInTransaction(tx, WithRows(plan, if |rows| > 0 then Some(rows[0]) else None)).result
    {
      limit := 1;
      plan := ExecuteQuery();
      r := ExecuteInTransaction(tx, WithRows(plan, if |rows| > 0 then Some(rows[0]) else None)).result;
    }

    /** `count()`: counts the filtered rows; `total` is the count the database returns. */
    method Count(tx: TxEnv, total: int64) returns (plan: Result<QueryPlan<V>, Throwable>, r: Result<int64, Throwable>)
      ensures plan == CountPlan(metamodel, predicates)
      ensures r == ExecuteInTransaction(tx, WithRows(plan, total)).result
    {
      var where := ApplyPredicates();
      plan := if where.Ok? then Ok(QueryPlan(where.value, None, None, None)) else Err(where.error);
      r := ExecuteInTransaction(tx, WithRows(plan, total)).result;
    }

    /** `exists()`: `count() > 0`, failing as `count()` fails. */
    method Exists(tx: TxEnv, total: int64) returns (r: Result<bool, Throwable>)
      ensures var c := ExecuteInTransaction(tx, WithRows(CountPlan(metamodel, predicates), total)).result;
        r == if c.Ok? then Ok(c.value > 0) else Err(c.error)
    {
      var _, c := Count(tx, total);
      r := if c.Ok? then Ok(c.value > 0) else Err(c.error);
    }
  }

  /** Specs are appended in call order: two `where` calls give their two specs, first call first. */
  method TwoWheres<E, V>(b: QueryBuilder<E, V>, a1: string, v1: V, a2: string, v2: V)
    modifies b
    ensures b.predicates == old(b.predicates) + [PredicateSpec(a1, Equal(v1)), PredicateSpec(a2, Equal(v2))]
  {
    var _ := b.Where(a1, v1);
    var _ := b.Where(a2, v2);
  }

  /** The last `orderBy`/`orderByDesc` call wins. */
  method LastOrderWins<E, V>(b: QueryBuilder<E, V>, first: string, second: string)
    modifies b
    ensures b.sortBy == Some(second) && !b.ascending
  {
    var _ := b.OrderBy(first);
    var _ := b.OrderByDesc(second);
  }

  /** A fresh builder's plan sets no paging and no order, and no `where` clause. */
  lemma DefaultPlan<V>(metamodel: Metamodel)
    ensures SelectPlan<V>(metamodel, [], None, true, 0, INT_MAX as int32) == Ok(QueryPlan(None, None, None, None))
  {
  }

  /** A page without overflow asks for rows `p * s` to `p * s + s - 1`: the first result is set
      exactly when the page is past the first. */
  lemma PagePlan<V>(metamodel: Metamodel, specs: seq<PredicateSpec<V>>, sortBy: Option<string>, ascending: bool,
                    pageNumber: int32, pageSize: int32)
    requires 0 <= pageNumber && 1 <= pageSize && pageSize as int < INT_MAX
    requires pageNumber as int * pageSize as int <= INT_MAX
    requires SelectPlan(metamodel, specs, sortBy, ascending, Mul32(pageNumber, pageSize), pageSize).Ok?
    ensures var plan := SelectPlan(metamodel, specs, sortBy, ascending, Mul32(pageNumber, pageSize), pageSize).value;
      plan.maxResults == Some(pageSize) &&
      (pageNumber == 0 <==> plan.firstResult.None?) &&
      (pageNumber > 0 ==> plan.firstResult.value as int == pageNumber as int * pageSize as int)
  {
    assert Max(0, pageNumber) == pageNumber && Max(1, pageSize) == pageSize;
    if pageNumber > 0 {
      assert pageNumber as int * pageSize as int >= pageSize as int;
    }
  }
}

=== FILE: query_plans.dfy ===
/** The query plans the repositories hand to JPA: filters on attribute paths, an optional order,
    and paging bounds. The rows a plan selects are the database's business and are not modelled. */
module QueryPlans {
  import opened Wrappers
  import opened JavaLang

  /** The seven `PredicateType`s, each with its operand. */
  datatype Condition<V> =
    | Equal(value: V)
    | Like(pattern: string)
    | In(values: seq<V>)
    | NotNull
    | IsNull
    | GreaterThan(bound: V)
    | LessThan(bound: V)

  /** A resolved predicate: the attribute path walked from the root, and the condition on it. */
  datatype Filter<V> = Filter(path: seq<string>, condition: Condition<V>)

  /** `orderBy(asc|desc(root.get(attribute)))`. */
  datatype Order = Order(attribute: string, ascending: bool)

  /** A criteria query: the `where` clause if one was set, the order, and the first-result and
      max-results values if they were set. */
  datatype QueryPlan<V> = QueryPlan(
    where: Option<seq<Filter<V>>>,
    order: Option<Order>,
    firstResult: Option<int32>,
    maxResults: Option<int32>)

  /** The window a plan asks for is one the provider accepts: `setFirstResult` and
      `setMaxResults` throw IllegalArgumentException on a negative argument. */
  predicate ValidWindow<V>(plan: QueryPlan<V>) {
    (plan.firstResult.None? || plan.firstResult.value >= 0)
    && (plan.maxResults.None? || plan.maxResults.value >= 0)
  }

  /** The pieces of `s` between the occurrences of `sep`, keeping empty pieces. */
  function SplitAll(s: string, sep: char): (pieces: seq<string>)
    ensures |pieces| >= 1
    ensures forall i, j :: 0 <= i < |pieces| && 0 <= j < |pieces[i]| ==> pieces[i][j] != sep
    decreases |s|
  {
    if |s| == 0 then [""]
    else
      var rest := SplitAll(s[1..], sep);
      if s[0] == sep then [""] + rest
      else [[s[0]] + rest[0]] + rest[1..]
  }

  /** The pieces put back together, `sep` between each two. */
  function Join(pieces: seq<string>, sep: char): string
    decreases |pieces|
  {
    if |pieces| == 0 then "" else if |pieces| == 1 then pieces[0] else pieces[0] + [sep] + Join(pieces[1..], sep)
  }

  /** Splitting loses nothing: joining the pieces gives back the string. */
  lemma {:induction false} SplitAllJoin(s: string, sep: char)
    ensures Join(SplitAll(s, sep), sep) == s
    decreases |s|
  {
    if |s| > 0 {
      var rest := SplitAll(s[1..], sep);
      SplitAllJoin(s[1..], sep);
      if s[0] == sep {
        assert SplitAll(s, sep) == [""] + rest;
        assert s == [s[0]] + s[1..];
      } else {
        var pieces := [[s[0]] + rest[0]] + rest[1..];
        assert SplitAll(s, sep) == pieces;
        if |rest| == 1 {
          assert rest == [rest[0]];
          assert s[1..] == rest[0];
        } else {
          assert pieces[1..] == rest[1..];
          assert s[1..] == rest[0] + [sep] + Join(rest[1..], sep);
        }
      }
    }
  }

  function DropTrailingEmpty(pieces: seq<string>): (r: seq<string>)
    ensures |r| <= |pieces| && r == pieces[..|r|]
    ensures |r| > 0 ==> r[|r| - 1] != ""
    ensures forall i :: |r| <= i < |pieces| ==> pieces[i] == ""
    decreases |pieces|
  {
    if |pieces| > 0 && pieces[|pieces| - 1] == "" then DropTrailingEmpty(pieces[..|pieces| - 1]) else pieces
  }

  predicate HasDot(s: string) {
    exists i :: 0 <= i < |s| && s[i] == '.'
  }

  /** `s.split("\\.")`: the string itself when there is no dot, otherwise the pieces between the
      dots with the trailing empty pieces removed (so "." gives no piece at all). */
  function SplitDots(s: string): (parts: seq<string>)
  {
    if !HasDot(s) then [s] else DropTrailingEmpty(SplitAll(s, '.'))
  }

  /** `s.contains(".")` is the search for a dot. */
  lemma ContainsDotIsHasDot(s: string)
    ensures Contains(s, ".") <==> HasDot(s)
  {
    if HasDot(s) {
      var i :| 0 <= i < |s| && s[i] == '.';
      assert s[i..i + 1] == ".";
      ContainsAt(s, ".", i);
    }
    ContainsHasDot(s);
  }

  lemma {:induction false} ContainsHasDot(s: string)
    ensures Contains(s, ".") ==> HasDot(s)
    decreases |s|
  {
    if StartsWith(s, ".") {
      assert s[..1] == "." && s[0] == '.';
    } else if |s| > 0 && Contains(s, ".") {
      ContainsHasDot(s[1..]);
      var i :| 0 <= i < |s[1..]| && s[1..][i] == '.';
      assert s[i + 1] == '.';
    }
  }

  /** The attribute path of `resolvePath` and of the map form of `applyPredicates`: the name
      itself when it holds no dot, otherwise its dot-separated segments. */
  function AttributePath(attribute: string): (path: seq<string>)
    ensures !HasDot(attribute) ==> path == [attribute]
  {
    if !Contains(attribute, ".") then [attribute]
    else
      ContainsDotIsHasDot(attribute);
      SplitDots(attribute)
  }

  /** On a dotted name the segments are exactly the dot-separated pieces, less trailing empty
      ones, and rejoined they give back the name up to those trailing dots. */
  lemma DottedPath(attribute: string)
    requires HasDot(attribute)
    ensures AttributePath(attribute) == DropTrailingEmpty(SplitAll(attribute, '.'))
    ensures forall i, j :: 0 <= i < |AttributePath(attribute)| && 0 <= j < |AttributePath(attribute)[i]| ==>
      AttributePath(attribute)[i][j] != '.'
  {
    ContainsDotIsHasDot(attribute);
  }

  /** The attribute paths the entity's metamodel resolves, segment by segment from the root. */
  type Metamodel = set<seq<string>>

  /** Walking `root.get(parts[0]).get(parts[1])...`: each prefix must resolve; an empty segment
      array fails on `parts[0]`. The provider's exception message is not modelled. */
  function WalkPath(metamodel: Metamodel, parts: seq<string>): (r: Result<seq<string>, Throwable>)
  {
    if |parts| == 0 then Err(Throwable(ArrayIndexOutOfBoundsException, None, None))
    else WalkFrom(metamodel, parts, 1)
  }

  function WalkFrom(metamodel: Metamodel, parts: seq<string>, k: nat): (r: Result<seq<string>, Throwable>)
    requires 1 <= k <= |parts|
    decreases |parts| - k
  {
    if parts[..k] !in metamodel then Err(Throwable(IllegalArgumentException, None, None))
    else if k == |parts| then Ok(parts)
    else WalkFrom(metamodel, parts, k + 1)
  }

  /** The walk succeeds exactly when there is a segment and every non-empty prefix resolves; it
      then yields the path itself, and otherwise throws a RuntimeException. */
  lemma WalkPathResolves(metamodel: Metamodel, parts: seq<string>)
    ensures WalkPath(metamodel, parts).Ok? <==>
      |parts| > 0 && forall k :: 1 <= k <= |parts| ==> parts[..k] in metamodel
    ensures WalkPath(metamodel, parts).Ok? ==> WalkPath(metamodel, parts).value == parts
    ensures WalkPath(metamodel, parts).Err? ==> IsRuntime(WalkPath(metamodel, parts).error.kind)
  {
    if |parts| > 0 {
      WalkFromResolves(metamodel, parts, 1);
    }
  }

  lemma {:induction false} WalkFromResolves(metamodel: Metamodel, parts: seq<string>, k: nat)
    requires 1 <= k <= |parts|
    ensures WalkFrom(metamodel, parts, k).Ok? <==> forall j :: k <= j <= |parts| ==> parts[..j] in metamodel
    ensures WalkFrom(metamodel, parts, k).Ok? ==> WalkFrom(metamodel, parts, k).value == parts
    ensures WalkFrom(metamodel, parts, k).Err? ==> WalkFrom(metamodel, parts, k).error.kind == IllegalArgumentException
    decreases |parts| - k
  {
    if parts[..k] in metamodel && k < |parts| {
      WalkFromResolves(metamodel, parts, k + 1);
    }
  }

  /** `resolvePath(root, attribute)`. */
  function ResolvePath(metamodel: Metamodel, attribute: string): (r: Result<seq<string>, Throwable>)
  {
    WalkPath(metamodel, AttributePath(attribute))
  }
}

=== FILE: repository_manager.dfy ===
/** `RepositoryManager`: the registry of repository classes, the construct-once instance table,
    field injection and constructor matching. The process-wide singleton is a `ManagerHolder`;
    the executor and the entity-manager factory are opaque handles. */
module RepositoryManagers {
  import opened Wrappers
  import opened JavaLang
  import opened ClassModel
  import opened RepositoryMetadatas

  const CACHED_REPOSITORY: string := "de.jexcellence.hibernate.repository.CachedRepository"
  const EXECUTOR_SERVICE: string := "java.util.concurrent.ExecutorService"
  const ENTITY_MANAGER_FACTORY: string := "jakarta.persistence.EntityManagerFactory"
  const CLASS: string := "java.lang.Class"
  const FUNCTION: string := "java.util.function.Function"

  const NOT_INITIALIZED: string := "RepositoryManager not initialized. Call initialize() first."
  const NOT_REGISTERED: string := "Repository not registered: "
  const CALL_REGISTER: string := ". Call register() first."
  const FIELD: string := " (field: "
  const IN: string := " in "
  const FAILED_TO_INSTANTIATE: string := "Failed to instantiate "
  const FAILED_TO_CREATE: string := "Failed to create "
  const NO_MATCHING_CONSTRUCTOR: string := "No matching constructor for "

  /** A reference to an object the manager only passes along (the executor, the factory). */
  type Handle = nat

  /** The two constructor shapes `instantiateRepository` looks up. */
  const KEYED_SHAPE: seq<string> := [EXECUTOR_SERVICE, ENTITY_MANAGER_FACTORY, CLASS, FUNCTION]
  const PLAIN_SHAPE: seq<string> := [EXECUTOR_SERVICE, ENTITY_MANAGER_FACTORY, CLASS]

  /** The four-argument constructor is used exactly for a registration with a key extractor
      whose class is a `CachedRepository`. */
  predicate UsesKeyedShape<X>(repositoryClass: JClass, metadata: RepositoryMetadata<X>) {
    metadata.HasKeyExtractor() && IsSubclassNamed(repositoryClass, CACHED_REPOSITORY)
  }

  function ShapeFor<X>(repositoryClass: JClass, metadata: RepositoryMetadata<X>): (shape: seq<string>)
    ensures shape == (if UsesKeyedShape(repositoryClass, metadata) then KEYED_SHAPE else PLAIN_SHAPE)
    ensures |shape| == 4 <==> UsesKeyedShape(repositoryClass, metadata)
  {
    if UsesKeyedShape(repositoryClass, metadata) then KEYED_SHAPE else PLAIN_SHAPE
  }

  /** The exception `getRepository` throws for an unregistered class. */
  function NotRegistered(repositoryClass: JClass): Throwable {
    Raise(IllegalStateException, NOT_REGISTERED + repositoryClass.name + CALL_REGISTER)
  }

  /** The exception `instantiateRepository` throws when the class lacks the constructor shape. */
  function InstantiationFailure(repositoryClass: JClass, shape: seq<string>): Throwable {
    Throwable(IllegalStateException, Some(FAILED_TO_INSTANTIATE + repositoryClass.name),
      Some(Raise(NoSuchMethodException, ConstructorSignature(repositoryClass.name, shape))))
  }

  /** The exception `injectInto` throws for an annotated field of an unregistered type. */
  function FieldNotRegistered(field: Field, targetClass: JClass): Throwable {
    Raise(IllegalStateException,
      NOT_REGISTERED + field.fieldType.name + FIELD + field.name + IN + targetClass.name + ")")
  }

  /** The failure message of an unregistered field names the field's type, the field and the target class. */
  lemma FieldNotRegisteredNames(field: Field, targetClass: JClass)
    ensures FieldNotRegistered(field, targetClass).message.Some?
    ensures Contains(FieldNotRegistered(field, targetClass).message.value, field.fieldType.name)
    ensures Contains(FieldNotRegistered(field, targetClass).message.value, field.name)
    ensures Contains(FieldNotRegistered(field, targetClass).message.value, targetClass.name + ")")
  {
    var t := field.fieldType.name;
    var f := field.name;
    var c := targetClass.name + ")";
    var m := FieldNotRegistered(field, targetClass).message.value;
    assert m == NOT_REGISTERED + t + (FIELD + f + IN + c);
    ContainsInfix(NOT_REGISTERED, t, FIELD + f + IN + c);
    assert m == (NOT_REGISTERED + t + FIELD) + f + (IN + c);
    ContainsInfix(NOT_REGISTERED + t + FIELD, f, IN + c);
    assert m == (NOT_REGISTERED + t + FIELD + f + IN) + c + "";
    ContainsInfix(NOT_REGISTERED + t + FIELD + f + IN, c, "");
  }

  /** An annotated field met by `injectInto`: the class declaring it and the field. */
  datatype Site = Site(declaringClass: string, field: Field) {
    function Slot(): (string, string) { (declaringClass, field.name) }
  }

  /** The annotated fields among `fields`, declared by the class named `declaringClass`. */
  function FieldSites(declaringClass: string, fields: seq<Field>): seq<Site>
  {
    if |fields| == 0 then []
    else (if fields[0].injectRepository then [Site(declaringClass, fields[0])] else [])
         + FieldSites(declaringClass, fields[1..])
  }

  /** The annotated fields of a class and of its superclasses, in the order `injectInto` visits
      them: the class's own declared fields first, then its superclass's, up to `Object`. */
  function SitesFrom(c: Option<JClass>): seq<Site>
    decreases c
  {
    match c
    case None => []
    case Some(k) => FieldSites(k.name, k.fields) + SitesFrom(k.superclass)
  }

  /** The argument classes of non-null arguments. */
  function ClassesOf(args: seq<Option<JClass>>): (r: seq<JClass>)
    requires forall i :: 0 <= i < |args| ==> args[i].Some?
    ensures |r| == |args| && forall i :: 0 <= i < |args| ==> args[i] == Some(r[i])
  {
    if |args| == 0 then [] else ClassesOf(args[..|args| - 1]) + [args[|args| - 1].value]
  }

  /** A repository built by the manager: which class, with which constructor arguments. */
  class Repository<X> {
    const repositoryClass: JClass
    const executor: Handle
    const entityManagerFactory: Handle
    const entityClass: JClass
    /** The key extractor passed to the four-argument constructor; `None` for the three-argument one. */
    const keyExtractor: Option<X>

    constructor(repositoryClass: JClass, executor: Handle, entityManagerFactory: Handle,
                entityClass: JClass, keyExtractor: Option<X>)
      ensures this.repositoryClass == repositoryClass && this.executor == executor
      ensures this.entityManagerFactory == entityManagerFactory
      ensures this.entityClass == entityClass && this.keyExtractor == keyExtractor
    {
      this.repositoryClass := repositoryClass;
      this.executor := executor;
      this.entityManagerFactory := entityManagerFactory;
      this.entityClass := entityClass;
      this.keyExtractor := keyExtractor;
    }
  }

  /** An object that receives injected repositories: its runtime class and the repository held
      by each field, keyed by declaring class and field name. */
  class Target<X> {
    const cls: JClass
    var slots: map<(string, string), Repository<X>>

    constructor(cls: JClass)
      ensures this.cls == cls && slots == map[]
    {
      this.cls := cls;
      slots := map[];
    }
  }

  /** `large` keeps every entry of `small`. */
  predicate Grows<K, V(==)>(small: map<K, V>, large: map<K, V>) {
    forall n :: n in small ==> n in large && large[n] == small[n]
  }

  /** Every site's field type has a built repository. */
  predicate Resolved<X>(sites: seq<Site>, instances: map<string, Repository<X>>) {
    forall k :: 0 <= k < |sites| ==> sites[k].field.fieldType.name in instances
  }

  /** Cutting `done + own + rest` after `count` elements of `own`. */
  lemma SplitAfter<T>(all: seq<T>, done: seq<T>, own: seq<T>, rest: seq<T>, count: nat)
    requires all == done + own + rest && count <= |own|
    ensures all[..|done| + count] == done + own[..count]
    ensures count < |own| ==> all[|done| + count] == own[count]
    ensures count == |own| ==> all == (done + own) + rest
  {
  }

  /** The field values after assigning, in order, the repository of each site's field type. */
  function Assign<X>(slots: map<(string, string), Repository<X>>, sites: seq<Site>, instances: map<string, Repository<X>>)
    : map<(string, string), Repository<X>>
    requires Resolved(sites, instances)
  {
    if |sites| == 0 then slots
    else Assign(slots, sites[..|sites| - 1], instances)[sites[|sites| - 1].Slot() := instances[sites[|sites| - 1].field.fieldType.name]]
  }

  /** `Assign` only reads the entries it needs, so adding instances does not change it. */
  lemma {:induction false} AssignStable<X>(slots: map<(string, string), Repository<X>>, sites: seq<Site>,
                                           small: map<string, Repository<X>>, large: map<string, Repository<X>>)
    requires Resolved(sites, small) && Grows(small, large)
    ensures Assign(slots, sites, small) == Assign(slots, sites, large)
    decreases |sites|
  {
    if |sites| > 0 {
      AssignStable(slots, sites[..|sites| - 1], small, large);
    }
  }

  /** Assigning two runs of sites one after the other is assigning their concatenation. */
  lemma {:induction false} AssignAppend<X>(slots: map<(string, string), Repository<X>>, first: seq<Site>, second: seq<Site>,
                                           instances: map<string, Repository<X>>)
    requires Resolved(first, instances) && Resolved(second, instances)
    ensures Assign(Assign(slots, first, instances), second, instances) == Assign(slots, first + second, instances)
    decreases |second|
  {
    if |second| == 0 {
      assert first + second == first;
    } else {
      var last := |second| - 1;
      AssignAppend(slots, first, second[..last], instances);
      assert (first + second)[..|first| + last] == first + second[..last];
    }
  }

  /** One step of the field walk: the sites from position `i` on are the site of field `i`,
      if it is annotated, followed by the sites after it. */
  lemma FieldSitesStep(declaringClass: string, fields: seq<Field>, i: nat)
    requires i < |fields|
    ensures FieldSites(declaringClass, fields[i..])
            == (if fields[i].injectRepository then [Site(declaringClass, fields[i])] else [])
               + FieldSites(declaringClass, fields[i + 1..])
  {
    assert fields[i..][1..] == fields[i + 1..];
  }

  /** One step of injection: `done` was injected from `start` against `before`, then the first
      `count` sites of `own` against `after`, which keeps every entry of `before`. */
  lemma InjectStep<X>(sites: seq<Site>, done: seq<Site>, own: seq<Site>, rest: seq<Site>, count: nat,
                      start: map<(string, string), Repository<X>>, middle: map<(string, string), Repository<X>>,
                      finish: map<(string, string), Repository<X>>,
                      before: map<string, Repository<X>>, after: map<string, Repository<X>>)
    requires sites == done + own + rest && count <= |own|
    requires Resolved(done, before) && Grows(before, after) && middle == Assign(start, done, before)
    requires Resolved(own[..count], after) && finish == Assign(middle, own[..count], after)
    ensures sites[..|done| + count] == done + own[..count]
    ensures count < |own| ==> sites[|done| + count] == own[count]
    ensures Resolved(done + own[..count], after)
    ensures finish == Assign(start, done + own[..count], after)
  {
    SplitAfter(sites, done, own, rest, count);
    AssignStable(start, done, before, after);
    AssignAppend(start, done, own[..count], after);
  }

  /** Every site that `Assign` has processed holds the repository of its field type, provided
      no two sites share a slot. */
  lemma {:induction false} AssignHolds<X>(slots: map<(string, string), Repository<X>>, sites: seq<Site>,
                                          instances: map<string, Repository<X>>, k: nat)
    requires Resolved(sites, instances)
    requires forall i, j :: 0 <= i < j < |sites| ==> sites[i].Slot() != sites[j].Slot()
    requires k < |sites|
    ensures sites[k].Slot() in Assign(slots, sites, instances)
    ensures Assign(slots, sites, instances)[sites[k].Slot()] == instances[sites[k].field.fieldType.name]
    decreases |sites|
  {
    if k < |sites| - 1 {
      AssignHolds(slots, sites[..|sites| - 1], instances, k);
    }
  }

  /** The manager: the registration table and the instance table, both keyed by class name. */
  class RepositoryManager<X> {
    const executor: Handle
    const entityManagerFactory: Handle
    var registrations: map<string, RepositoryMetadata<X>>
    var instances: map<string, Repository<X>>

    constructor(executor: Handle, entityManagerFactory: Handle)
      ensures this.executor == executor && this.entityManagerFactory == entityManagerFactory
      ensures registrations == map[] && instances == map[]
    {
      this.executor := executor;
      this.entityManagerFactory := entityManagerFactory;
      registrations := map[];
      instances := map[];
    }

    /** `register(repositoryClass, entityClass)`: records a registration without key extractor,
        replacing any earlier one for the class. */
    method Register(repositoryClass: JClass, entityClass: JClass) returns (outcome: Outcome<Throwable>)
      modifies this
      ensures instances == old(instances)
      ensures outcome.Pass? <==> IsSubclassNamed(repositoryClass, BASE_REPOSITORY)
      ensures outcome.Pass? ==> registrations == old(registrations)[repositoryClass.name :=
                RepositoryMetadata(repositoryClass, entityClass, None)]
      ensures outcome.Fail? ==> registrations == old(registrations)
                                && outcome.error == NewRepositoryMetadata<X>(repositoryClass, entityClass, None).error
    {
      var metadata := NewRepositoryMetadata<X>(repositoryClass, entityClass, None);
      if metadata.Err? {
        return Fail(metadata.error);
      }
      registrations := registrations[repositoryClass.name := metadata.value];
      outcome := Pass;
    }

    /** `register(repositoryClass, entityClass, keyExtractor)`. */
    method RegisterKeyed(repositoryClass: JClass, entityClass: JClass, keyExtractor: X) returns (outcome: Outcome<Throwable>)
      modifies this
      ensures instances == old(instances)
      ensures outcome.Pass? <==> IsSubclassNamed(repositoryClass, BASE_REPOSITORY)
      ensures outcome.Pass? ==> registrations == old(registrations)[repositoryClass.name :=
                RepositoryMetadata(repositoryClass, entityClass, Some(keyExtractor))]
      ensures outcome.Fail? ==> registrations == old(registrations)
                                && outcome.error == NewRepositoryMetadata(repositoryClass, entityClass, Some(keyExtractor)).error
    {
      var metadata := NewRepositoryMetadata(repositoryClass, entityClass, Some(keyExtractor));
      if metadata.Err? {
        return Fail(metadata.error);
      }
      registrations := registrations[repositoryClass.name := metadata.value];
      outcome := Pass;
    }

    /** `instantiateRepository`: calls the constructor shape the registration calls for. */
    method InstantiateRepository(repositoryClass: JClass, metadata: RepositoryMetadata<X>)
      returns (r: Result<Repository<X>, Throwable>)
      ensures r.Ok? <==> DeclaresConstructor(repositoryClass, ShapeFor(repositoryClass, metadata))
      ensures r.Err? ==> r.error == InstantiationFailure(repositoryClass, ShapeFor(repositoryClass, metadata))
      ensures r.Ok? ==> fresh(r.value) && r.value.repositoryClass == repositoryClass
                        && r.value.executor == executor && r.value.entityManagerFactory == entityManagerFactory
                        && r.value.entityClass == metadata.entityClass
                        && r.value.keyExtractor == (if UsesKeyedShape(repositoryClass, metadata) then metadata.keyExtractor else None)
    {
      if UsesKeyedShape(repositoryClass, metadata) {
        if !DeclaresConstructor(repositoryClass, KEYED_SHAPE) {
          return Err(InstantiationFailure(repositoryClass, KEYED_SHAPE));
        }
        var repository := new Repository(repositoryClass, executor, entityManagerFactory,
                                          metadata.entityClass, metadata.keyExtractor);
        r := Ok(repository);
      } else {
        if !DeclaresConstructor(repositoryClass, PLAIN_SHAPE) {
          return Err(InstantiationFailure(repositoryClass, PLAIN_SHAPE));
        }
        var repository := new Repository(repositoryClass, executor, entityManagerFactory,
                                          metadata.entityClass, None);
        r := Ok(repository);
      }
    }

    /** `getRepository`: the stored instance if there is one; otherwise the class must be
        registered, and the instance built for it is stored and returned. */
    method GetRepository(repositoryClass: JClass) returns (r: Result<Repository<X>, Throwable>)
      modifies this
      ensures registrations == old(registrations)
      ensures repositoryClass.name in old(instances) ==>
                r == Ok(old(instances)[repositoryClass.name]) && instances == old(instances)
      ensures repositoryClass.name !in old(instances) && repositoryClass.name !in registrations ==>
                r == Err(NotRegistered(repositoryClass)) && instances == old(instances)
      ensures repositoryClass.name !in old(instances) && repositoryClass.name in registrations ==>
                var shape := ShapeFor(repositoryClass, registrations[repositoryClass.name]);
                (r.Ok? <==> DeclaresConstructor(repositoryClass, shape))
                && (r.Err? ==> r.error == InstantiationFailure(repositoryClass, shape) && instances == old(instances))
                && (r.Ok? ==> fresh(r.value) && instances == old(instances)[repositoryClass.name := r.value]
                              && r.value.repositoryClass == repositoryClass
                              && r.value.entityClass == registrations[repositoryClass.name].entityClass)
    {
      if repositoryClass.name in instances {
        return Ok(instances[repositoryClass.name]);
      }
      if repositoryClass.name !in registrations {
        return Err(NotRegistered(repositoryClass));
      }
      var metadata := registrations[repositoryClass.name];
      r := InstantiateRepository(repositoryClass, metadata);
      if r.Ok? {
        instances := instances[repositoryClass.name := r.value];
      }
    }

    /** One annotated field of `injectInto`: its type must be registered, and the field
        receives that type's repository. */
    method InjectSite(target: Target<X>, site: Site) returns (outcome: Outcome<Throwable>)
      modifies this, target
      ensures registrations == old(registrations)
      ensures Grows(old(instances), instances)
      ensures outcome.Pass? ==> site.field.fieldType.name in instances
                                && target.slots == old(target.slots)[site.Slot() := instances[site.field.fieldType.name]]
      ensures outcome.Fail? ==> target.slots == old(target.slots) && instances == old(instances)
                                && Failed(site, target.cls, outcome.error)
    {
      var fieldType := site.field.fieldType;
      if fieldType.name !in registrations {
        return Fail(FieldNotRegistered(site.field, target.cls));
      }
      var repository := GetRepository(fieldType);
      if repository.Err? {
        return Fail(repository.error);
      }
      target.slots := target.slots[site.Slot() := repository.value];
      outcome := Pass;
    }

    /** The next site of the walk, after the sites `done`: on success it joins them, on failure
        it is the site `Failed` describes. */
    method InjectNext(target: Target<X>, site: Site, ghost sites: seq<Site>, ghost done: seq<Site>,
                      ghost rest: seq<Site>, ghost start: map<(string, string), Repository<X>>)
      returns (outcome: Outcome<Throwable>)
      requires sites == done + [site] + rest
      requires Resolved(done, instances) && target.slots == Assign(start, done, instances)
      modifies this, target
      ensures registrations == old(registrations)
      ensures Grows(old(instances), instances)
      ensures outcome.Pass? ==> Resolved(done + [site], instances) && target.slots == Assign(start, done + [site], instances)
      ensures outcome.Fail? ==> Resolved(done, instances) && target.slots == Assign(start, done, instances)
                                && sites[..|done|] == done && Failed(sites[|done|], target.cls, outcome.error)
    {
      ghost var before := instances;
      ghost var slotsBefore := target.slots;
      outcome := InjectSite(target, site);
      ghost var count := if outcome.Pass? then 1 else 0;
      InjectStep(sites, done, [site], rest, count, start, slotsBefore, target.slots, before, instances);
      assert [site][..0] == [] && [site][..1] == [site];
    }

    /** The inner loop of `injectInto`: the annotated fields one class declares, in order. */
    method InjectDeclared(target: Target<X>, cls: JClass) returns (outcome: Outcome<Throwable>, ghost injected: nat)
      modifies this, target
      ensures registrations == old(registrations)
      ensures Grows(old(instances), instances)
      ensures injected <= |FieldSites(cls.name, cls.fields)|
      ensures outcome.Pass? <==> injected == |FieldSites(cls.name, cls.fields)|
      ensures Resolved(FieldSites(cls.name, cls.fields)[..injected], instances)
      ensures target.slots == Assign(old(target.slots), FieldSites(cls.name, cls.fields)[..injected], instances)
      ensures outcome.Fail? ==> Failed(FieldSites(cls.name, cls.fields)[injected], target.cls, outcome.error)
    {
      ghost var sites := FieldSites(cls.name, cls.fields);
      ghost var done: seq<Site> := [];
      var fields := cls.fields;
      injected := 0;
      assert fields[0..] == fields;
      for i := 0 to |fields|
        invariant sites == done + FieldSites(cls.name, fields[i..])
        invariant injected == |done|
        invariant registrations == old(registrations)
        invariant Grows(old(instances), instances)
        invariant Resolved(done, instances)
        invariant target.slots == Assign(old(target.slots), done, instances)
      {
        var field := fields[i];
        FieldSitesStep(cls.name, fields, i);
        if field.injectRepository {
          var site := Site(cls.name, field);
          outcome := InjectNext(target, site, sites, done, FieldSites(cls.name, fields[i + 1..]), old(target.slots));
          if outcome.Fail? {
            return;
          }
          done := done + [site];
          injected := injected + 1;
        }
      }
      assert fields[|fields|..] == [];
      assert sites[..injected] == done;
      outcome := Pass;
    }

    /** How `injectInto` fails at `site`: an unregistered field type, or a registered type
        whose repository cannot be built. */
    ghost predicate Failed(site: Site, targetClass: JClass, error: Throwable)
      reads this
    {
      var fieldType := site.field.fieldType;
      if fieldType.name !in registrations then
        error == FieldNotRegistered(site.field, targetClass)
      else
        fieldType.name !in instances
        && !DeclaresConstructor(fieldType, ShapeFor(fieldType, registrations[fieldType.name]))
        && error == InstantiationFailure(fieldType, ShapeFor(fieldType, registrations[fieldType.name]))
    }

    /** One class of the walk: its declared fields, after the sites `done` of the classes below.
        `next` is the prefix of `sites` injected once this class is through. */
    method InjectLevel(target: Target<X>, cls: JClass, ghost sites: seq<Site>, ghost done: seq<Site>,
                       ghost start: map<(string, string), Repository<X>>)
      returns (outcome: Outcome<Throwable>, ghost next: seq<Site>)
      requires sites == done + FieldSites(cls.name, cls.fields) + SitesFrom(cls.superclass)
      requires Resolved(done, instances) && target.slots == Assign(start, done, instances)
      modifies this, target
      ensures registrations == old(registrations)
      ensures Grows(old(instances), instances)
      ensures |done| <= |next| <= |sites| && next == sites[..|next|]
      ensures outcome.Pass? <==> |next| == |done| + |FieldSites(cls.name, cls.fields)|
      ensures outcome.Pass? ==> sites == next + SitesFrom(cls.superclass)
      ensures Resolved(next, instances)
      ensures target.slots == Assign(start, next, instances)
      ensures outcome.Fail? ==> |next| < |sites| && Failed(sites[|next|], target.cls, outcome.error)
    {
      ghost var own := FieldSites(cls.name, cls.fields);
      ghost var before := instances;
      ghost var slotsBefore := target.slots;
      ghost var count: nat;
      outcome, count := InjectDeclared(target, cls);
      InjectStep(sites, done, own, SitesFrom(cls.superclass), count, start, slotsBefore, target.slots, before, instances);
      next := done + own[..count];
      if outcome.Pass? {
        SplitAfter(sites, done, own, SitesFrom(cls.superclass), count);
        assert own[..count] == own;
      }
    }

    /** `injectInto`: walks the target's class and then each superclass; every annotated field
        must have a registered type and receives that type's repository. The first failure
        stops the walk, and the fields injected before it keep their repositories. */
    method InjectInto(target: Target<X>) returns (outcome: Outcome<Throwable>, ghost injected: nat)
      modifies this, target
      ensures registrations == old(registrations)
      ensures Grows(old(instances), instances)
      ensures injected <= |SitesFrom(Some(target.cls))|
      ensures outcome.Pass? <==> injected == |SitesFrom(Some(target.cls))|
      ensures Resolved(SitesFrom(Some(target.cls))[..injected], instances)
      ensures target.slots == Assign(old(target.slots), SitesFrom(Some(target.cls))[..injected], instances)
      ensures outcome.Fail? ==> Failed(SitesFrom(Some(target.cls))[injected], target.cls, outcome.error)
    {
      ghost var sites := SitesFrom(Some(target.cls));
      ghost var done: seq<Site> := [];
      var current := Some(target.cls);
      injected := 0;
      while current.Some?
        invariant sites == done + SitesFrom(current)
        invariant injected == |done|
        invariant registrations == old(registrations)
        invariant Grows(old(instances), instances)
        invariant Resolved(done, instances)
        invariant target.slots == Assign(old(target.slots), done, instances)
        decreases ChainLength(current)
      {
        var cls := current.value;
        ghost var next: seq<Site>;
        outcome, next := InjectLevel(target, cls, sites, done, old(target.slots));
        injected := |next|;
        if outcome.Fail? {
          assert sites[..injected] == next;
          return;
        }
        done := next;
        current := cls.superclass;
      }
      assert sites[..injected] == done;
      assert target.slots == Assign(old(target.slots), sites[..injected], instances);
      outcome := Pass;
    }

    /** `findConstructor` succeeds: a no-argument constructor when there are no arguments,
        otherwise non-null arguments and a compatible constructor. */
    ghost predicate ConstructorFound(targetClass: JClass, args: seq<Option<JClass>>) {
      if |args| == 0 then exists k :: 0 <= k < |targetClass.constructors| && targetClass.constructors[k] == []
      else (forall i :: 0 <= i < |args| ==> args[i].Some?)
           && exists j :: 0 <= j < |targetClass.constructors| && IsCompatible(targetClass.constructors[j], ClassesOf(args))
    }

    /** `findConstructor`: with no arguments the no-argument constructor; otherwise the first
        declared constructor compatible with the argument classes. */
    method FindConstructor(targetClass: JClass, args: seq<Option<JClass>>) returns (r: Result<nat, Throwable>)
      ensures r.Ok? ==> r.value < |targetClass.constructors|
      ensures |args| == 0 ==>
                (r.Ok? <==> exists k :: 0 <= k < |targetClass.constructors| && targetClass.constructors[k] == [])
                && (r.Ok? ==> targetClass.constructors[r.value] == [])
                && (r.Err? ==> r.error == Raise(NoSuchMethodException, ConstructorSignature(targetClass.name, [])))
      ensures |args| > 0 && (exists i :: 0 <= i < |args| && args[i].None?) ==>
                r == Err(Throwable(NullPointerException, None, None))
      ensures |args| > 0 && (forall i :: 0 <= i < |args| ==> args[i].Some?) ==>
                (r.Ok? ==> IsCompatible(targetClass.constructors[r.value], ClassesOf(args))
                           && forall j :: 0 <= j < r.value ==> !IsCompatible(targetClass.constructors[j], ClassesOf(args)))
                && (r.Err? ==> (forall j :: 0 <= j < |targetClass.constructors| ==> !IsCompatible(targetClass.constructors[j], ClassesOf(args)))
                               && r.error == Raise(NoSuchMethodException, NO_MATCHING_CONSTRUCTOR + targetClass.name))
    {
      var constructors := targetClass.constructors;
      if |args| == 0 {
        if exists k :: 0 <= k < |constructors| && constructors[k] == [] {
          var k :| 0 <= k < |constructors| && constructors[k] == [];
          return Ok(k);
        }
        return Err(Raise(NoSuchMethodException, ConstructorSignature(targetClass.name, [])));
      }
      var argTypes: seq<JClass> := [];
      for i := 0 to |args|
        invariant |argTypes| == i
        invariant forall j :: 0 <= j < i ==> args[j] == Some(argTypes[j])
      {
        if args[i].None? {
          return Err(Throwable(NullPointerException, None, None));
        }
        argTypes := argTypes + [args[i].value];
      }
      assert argTypes == ClassesOf(args);
      for k := 0 to |constructors|
        invariant forall j :: 0 <= j < k ==> !IsCompatible(constructors[j], argTypes)
      {
        if IsCompatible(constructors[k], argTypes) {
          return Ok(k);
        }
      }
      r := Err(Raise(NoSuchMethodException, NO_MATCHING_CONSTRUCTOR + targetClass.name));
    }

    /** `createWithInjection`: builds an instance with the matching constructor, then injects
        its annotated fields. Reflection failures are wrapped; injection failures are not: once
        a constructor is found, the call fails exactly with the failure of the first annotated
        field that cannot be injected (`injected` counts the fields before it). */
    method CreateWithInjection(targetClass: JClass, args: seq<Option<JClass>>)
      returns (r: Result<Target<X>, Throwable>, ghost injected: nat)
      modifies this
      ensures registrations == old(registrations)
      ensures Grows(old(instances), instances)
      ensures r.Ok? ==> fresh(r.value) && r.value.cls == targetClass
                        && Resolved(SitesFrom(Some(targetClass)), instances)
                        && r.value.slots == Assign(map[], SitesFrom(Some(targetClass)), instances)
      ensures ConstructorFound(targetClass, args) && r.Err? ==>
                injected < |SitesFrom(Some(targetClass))|
                && Resolved(SitesFrom(Some(targetClass))[..injected], instances)
                && Failed(SitesFrom(Some(targetClass))[injected], targetClass, r.error)
      ensures |args| == 0 && !(exists k :: 0 <= k < |targetClass.constructors| && targetClass.constructors[k] == []) ==>
                r == Err(Throwable(IllegalStateException, Some(FAILED_TO_CREATE + targetClass.name),
                                   Some(Raise(NoSuchMethodException, ConstructorSignature(targetClass.name, [])))))
      ensures |args| > 0 && (exists i :: 0 <= i < |args| && args[i].None?) ==>
                r == Err(Throwable(NullPointerException, None, None))
      ensures |args| > 0 && (forall i :: 0 <= i < |args| ==> args[i].Some?)
              && (forall j :: 0 <= j < |targetClass.constructors| ==> !IsCompatible(targetClass.constructors[j], ClassesOf(args))) ==>
                r == Err(Throwable(IllegalStateException, Some(FAILED_TO_CREATE + targetClass.name),
                                   Some(Raise(NoSuchMethodException, NO_MATCHING_CONSTRUCTOR + targetClass.name))))
    {
      var found := FindConstructor(targetClass, args);
      if found.Err? {
        if found.error.kind == NoSuchMethodException {
          return Err(Throwable(IllegalStateException, Some(FAILED_TO_CREATE + targetClass.name), Some(found.error))), 0;
        }
        return Err(found.error), 0;
      }
      var target := new Target<X>(targetClass);
      var outcome;
      outcome, injected := InjectInto(target);
      if outcome.Fail? {
        return Err(outcome.error), injected;
      }
      assert SitesFrom(Some(targetClass))[..injected] == SitesFrom(Some(targetClass));
      r := Ok(target);
    }

    /** `clearInstances`: drops every built repository and keeps the registrations. */
    method ClearInstances()
      modifies this
      ensures instances == map[] && registrations == old(registrations)
    {
      instances := map[];
    }
  }

  /** The static `instance` field of `RepositoryManager`. */
  class ManagerHolder<X> {
    var instance: RepositoryManager?<X>

    constructor()
      ensures instance == null
    {
      instance := null;
    }

    predicate IsInitialized()
      reads this
    {
      instance != null
    }

    /** `initialize`: installs a new manager with empty tables, replacing any earlier one. */
    method Initialize(executor: Handle, entityManagerFactory: Handle)
      modifies this
      ensures IsInitialized() && fresh(instance)
      ensures instance.executor == executor && instance.entityManagerFactory == entityManagerFactory
      ensures instance.registrations == map[] && instance.instances == map[]
    {
      instance := new RepositoryManager(executor, entityManagerFactory);
    }

    /** `getInstance`: the installed manager, or an `IllegalStateException` before `initialize`. */
    method GetInstance() returns (r: Result<RepositoryManager<X>, Throwable>)
      ensures r.Ok? <==> IsInitialized()
      ensures r.Ok? ==> r.value == instance
      ensures r.Err? ==> r.error == Raise(IllegalStateException, NOT_INITIALIZED)
    {
      if instance == null {
        return Err(Raise(IllegalStateException, NOT_INITIALIZED));
      }
      r := Ok(instance);
    }

    /** The static `get`: `getInstance().getRepository(repositoryClass)`. */
    method Get(repositoryClass: JClass) returns (r: Result<Repository<X>, Throwable>)
      modifies instance
      ensures instance == old(instance)
      ensures !IsInitialized() ==> r == Err(Raise(IllegalStateException, NOT_INITIALIZED))
      ensures IsInitialized() && repositoryClass.name in old(instance.instances) ==>
                r == Ok(old(instance.instances)[repositoryClass.name]) && instance.instances == old(instance.instances)
      ensures IsInitialized() && r.Ok? ==>
                repositoryClass.name in instance.instances && instance.instances[repositoryClass.name] == r.value
      ensures IsInitialized() ==> instance.registrations == old(instance.registrations)
      ensures IsInitialized() && repositoryClass.name !in old(instance.instances)
              && repositoryClass.name !in instance.registrations ==>
                r == Err(NotRegistered(repositoryClass)) && instance.instances == old(instance.instances)
      ensures IsInitialized() && repositoryClass.name !in old(instance.instances)
              && repositoryClass.name in instance.registrations ==>
                var shape := ShapeFor(repositoryClass, instance.registrations[repositoryClass.name]);
                (r.Ok? <==> DeclaresConstructor(repositoryClass, shape))
                && (r.Err? ==> r.error == InstantiationFailure(repositoryClass, shape)
                               && instance.instances == old(instance.instances))
                && (r.Ok? ==> fresh(r.value) && instance.instances == old(instance.instances)[repositoryClass.name := r.value]
                              && r.value.repositoryClass == repositoryClass
                              && r.value.entityClass == instance.registrations[repositoryClass.name].entityClass)
    {
      var manager := GetInstance();
      if manager.Err? {
        return Err(manager.error);
      }
      r := manager.value.GetRepository(repositoryClass);
    }

    /** `shutdown`: empties the current manager's tables and uninstalls it. */
    method Shutdown()
      modifies this, instance
      ensures !IsInitialized()
      ensures old(instance) != null ==> old(instance).registrations == map[] && old(instance).instances == map[]
    {
      if instance != null {
        instance.instances := map[];
        instance.registrations := map[];
        instance := null;
      }
    }
  }

  /** Construct-once: a second `getRepository` for the same class returns the very instance
      the first one returned, and builds nothing. */
  method GetRepositoryTwice<X>(manager: RepositoryManager<X>, repositoryClass: JClass)
    returns (first: Result<Repository<X>, Throwable>, second: Result<Repository<X>, Throwable>)
    modifies manager
    ensures first.Ok? ==> second == first
    ensures first.Err? ==> second == first
  {
    first := manager.GetRepository(repositoryClass);
    second := manager.GetRepository(repositoryClass);
  }

  /** After `clearInstances`, a registered class gets a newly built instance. */
  method RebuildAfterClear<X>(manager: RepositoryManager<X>, repositoryClass: JClass)
    returns (before: Result<Repository<X>, Throwable>, after: Result<Repository<X>, Throwable>)
    modifies manager
    requires repositoryClass.name in manager.registrations
    requires DeclaresConstructor(repositoryClass, ShapeFor(repositoryClass, manager.registrations[repositoryClass.name]))
    ensures before.Ok? && after.Ok? && fresh(after.value) && after.value != before.value
    ensures manager.instances == map[repositoryClass.name := after.value]
  {
    before := manager.GetRepository(repositoryClass);
    manager.ClearInstances();
    after := manager.GetRepository(repositoryClass);
  }
}

=== FILE: repository_metadata.dfy ===
/** `RepositoryMetadata`: what a registration records about a repository class. */
module RepositoryMetadatas {
  import opened Wrappers
  import opened JavaLang
  import opened ClassModel

  const BASE_REPOSITORY: string := "de.jexcellence.hibernate.repository.BaseRepository"
  const REPOSITORY_CLASS: string := "Repository class "
  const MUST_EXTEND: string := " must extend BaseRepository"
  const TO_STRING_HEAD: string := "RepositoryMetadata{repositoryClass="
  const TO_STRING_ENTITY: string := ", entityClass="
  const HAS_KEY_EXTRACTOR: string := "hasKeyExtractor="

  /** A registration: the repository class, its entity class and the optional key extractor
      (`X` stands for the extractor function objects; `None` is a null extractor). */
  datatype RepositoryMetadata<X> = RepositoryMetadata(repositoryClass: JClass, entityClass: JClass, keyExtractor: Option<X>)
  {
    predicate HasKeyExtractor() {
      keyExtractor.Some?
    }

    /** `equals` against null or another metadata: the key extractor plays no part. */
    predicate Equals(other: Option<RepositoryMetadata<X>>) {
      other.Some?
      && other.value.repositoryClass.name == repositoryClass.name
      && other.value.entityClass.name == entityClass.name
    }

    /** `hashCode`, given the identity hash code of each class. */
    function HashCode(classHash: string -> int32): (h: int32)
      ensures h == ObjectsHash([classHash(repositoryClass.name), classHash(entityClass.name)])
    {
      var values := [classHash(repositoryClass.name), classHash(entityClass.name)];
      assert values[..1][..0] == [] && values[..1] == [values[0]];
      assert ObjectsHash(values[..1]) == Wrap32(31 + values[0] as int);
      Wrap32(31 * Wrap32(31 + values[0] as int) as int + values[1] as int)
    }

    function ToString(): string {
      TO_STRING_HEAD + repositoryClass.name
      + TO_STRING_ENTITY + entityClass.name
      + ", " + HAS_KEY_EXTRACTOR + BoolToString(HasKeyExtractor())
      + "}"
    }
  }

  /** `Objects.hash(values...)`: start from 1 and fold each element in as `31 * h + v` on `int`. */
  function ObjectsHash(values: seq<int32>): int32 {
    if |values| == 0 then 1
    else Wrap32(31 * ObjectsHash(values[..|values| - 1]) as int + values[|values| - 1] as int)
  }

  /** The constructor: it refuses a class that does not extend `BaseRepository`, naming it. */
  function NewRepositoryMetadata<X>(repositoryClass: JClass, entityClass: JClass, keyExtractor: Option<X>)
    : (r: Result<RepositoryMetadata<X>, Throwable>)
    ensures r.Ok? <==> IsSubclassNamed(repositoryClass, BASE_REPOSITORY)
    ensures r.Ok? ==> r.value.repositoryClass == repositoryClass && r.value.entityClass == entityClass
                      && r.value.keyExtractor == keyExtractor
                      && (r.value.HasKeyExtractor() <==> keyExtractor.Some?)
    ensures r.Err? ==> r.error.kind == IllegalArgumentException && r.error.cause == None
                       && r.error.message.Some? && Contains(r.error.message.value, repositoryClass.name)
  {
    if IsSubclassNamed(repositoryClass, BASE_REPOSITORY) then
      Ok(RepositoryMetadata(repositoryClass, entityClass, keyExtractor))
    else
      ContainsInfix(REPOSITORY_CLASS, repositoryClass.name, MUST_EXTEND);
      Err(Raise(IllegalArgumentException, REPOSITORY_CLASS + repositoryClass.name + MUST_EXTEND))
  }

  /** Two metadata objects are equal exactly when they name the same repository and entity
      classes, and equal metadata have equal hash codes. */
  lemma EqualsMatchesClasses<X>(a: RepositoryMetadata<X>, b: RepositoryMetadata<X>, classHash: string -> int32)
    ensures a.Equals(Some(b)) <==> (a.repositoryClass.name == b.repositoryClass.name && a.entityClass.name == b.entityClass.name)
    ensures a.Equals(Some(b)) ==> b.Equals(Some(a)) && a.HashCode(classHash) == b.HashCode(classHash)
    ensures a.Equals(Some(a)) && !a.Equals(None)
  {
  }

  /** Registrations that differ only in their key extractor are equal. */
  lemma EqualsIgnoresExtractor<X>(repositoryClass: JClass, entityClass: JClass, x: Option<X>, y: Option<X>)
    requires NewRepositoryMetadata(repositoryClass, entityClass, x).Ok?
    ensures NewRepositoryMetadata(repositoryClass, entityClass, y).Ok?
    ensures NewRepositoryMetadata(repositoryClass, entityClass, x).value.Equals(Some(NewRepositoryMetadata(repositoryClass, entityClass, y).value))
  {
  }

  /** Where the pieces of `toString` sit, on eight arbitrary strings. */
  lemma {:induction false} EightPieces(h: string, r: string, e: string, n: string, c: string, k: string, b: string, z: string)
    ensures Contains(h + r + e + n + c + k + b + z, r)
    ensures Contains(h + r + e + n + c + k + b + z, n)
    ensures Contains(h + r + e + n + c + k + b + z, k + b)
  {
    var whole := h + r + e + n + c + k + b + z;
    assert whole == h + r + (e + n + c + k + b + z);
    ContainsInfix(h, r, e + n + c + k + b + z);
    assert whole == (h + r + e) + n + (c + k + b + z);
    ContainsInfix(h + r + e, n, c + k + b + z);
    assert whole == (h + r + e + n + c) + (k + b) + z;
    ContainsInfix(h + r + e + n + c, k + b, z);
  }

  /** `toString` names the repository class. */
  lemma ToStringNamesRepository<X>(m: RepositoryMetadata<X>)
    ensures Contains(m.ToString(), m.repositoryClass.name)
  {
    EightPieces(TO_STRING_HEAD, m.repositoryClass.name, TO_STRING_ENTITY, m.entityClass.name, ", ",
                HAS_KEY_EXTRACTOR, BoolToString(m.HasKeyExtractor()), "}");
  }

  /** `toString` names the entity class. */
  lemma ToStringNamesEntity<X>(m: RepositoryMetadata<X>)
    ensures Contains(m.ToString(), m.entityClass.name)
  {
    EightPieces(TO_STRING_HEAD, m.repositoryClass.name, TO_STRING_ENTITY, m.entityClass.name, ", ",
                HAS_KEY_EXTRACTOR, BoolToString(m.HasKeyExtractor()), "}");
  }

  /** `toString` reports whether there is a key extractor. */
  lemma ToStringReportsExtractor<X>(m: RepositoryMetadata<X>)
    ensures Contains(m.ToString(), HAS_KEY_EXTRACTOR + BoolToString(m.keyExtractor.Some?))
  {
    EightPieces(TO_STRING_HEAD, m.repositoryClass.name, TO_STRING_ENTITY, m.entityClass.name, ", ",
                HAS_KEY_EXTRACTOR, BoolToString(m.HasKeyExtractor()), "}");
  }
}

=== FILE: snake_case_naming_strategy.dfy ===
/** `SnakeCaseNamingStrategy`: Hibernate physical names in snake_case. */
module SnakeCaseNamingStrategy {
  import opened JavaLang

  /** Hibernate's `Identifier`: the name text and whether it is quoted. */
  datatype Identifier = Identifier(text: string, quoted: bool)

  /** A lowercase ASCII letter at `i` directly followed by an uppercase ASCII letter. */
  predicate CamelBoundary(s: string, i: int) {
    0 <= i && i + 1 < |s| && IsAsciiLower(s[i]) && IsAsciiUpper(s[i + 1])
  }

  /** `Pattern.compile("([a-z])([A-Z])").matcher(s).replaceAll("$1_$2")`: the scan goes left to
      right, rewrites each match to the two letters joined by `_`, and resumes after the match. */
  function ReplaceCamelPairs(s: string): string
    decreases |s|
  {
    if |s| == 0 then []
    else if CamelBoundary(s, 0) then [s[0], '_', s[1]] + ReplaceCamelPairs(s[2..])
    else [s[0]] + ReplaceCamelPairs(s[1..])
  }

  /** Reference definition: copy `s`, putting one `_` after exactly those positions that
      are camel-case boundaries. */
  function SplitAtBoundaries(s: string): (r: string)
    decreases |s|
  {
    if |s| == 0 then [] else [s[0]] + (if CamelBoundary(s, 0) then "_" else "") + SplitAtBoundaries(s[1..])
  }

  /** The regex scan inserts `_` at every camel-case boundary and nowhere else:
      the second letter of a match can never start another match. */
  lemma {:induction false} ReplaceCamelPairsSplitsAtBoundaries(s: string)
    ensures ReplaceCamelPairs(s) == SplitAtBoundaries(s)
    decreases |s|
  {
    if |s| == 0 {
    } else if CamelBoundary(s, 0) {
      ReplaceCamelPairsSplitsAtBoundaries(s[2..]);
      assert s[1..][1..] == s[2..];
      assert !CamelBoundary(s[1..], 0);
      assert SplitAtBoundaries(s[1..]) == [s[1]] + SplitAtBoundaries(s[2..]);
    } else {
      ReplaceCamelPairsSplitsAtBoundaries(s[1..]);
    }
  }

  /** Text without ASCII capitals is left alone by the regex scan. */
  lemma {:induction false} ReplaceCamelPairsNoUpper(s: string)
    requires forall i :: 0 <= i < |s| ==> !IsAsciiUpper(s[i])
    ensures ReplaceCamelPairs(s) == s
    decreases |s|
  {
    if |s| > 0 {
      ReplaceCamelPairsNoUpper(s[1..]);
    }
  }

  /** `convert` on the identifier text: the camel-case regex, then `-` to `_`, then lowercase. */
  function ConvertText(text: string): (r: string)
  {
    ToLower(ReplaceChar(ReplaceCamelPairs(text), '-', '_'))
  }

  /** The converted text holds no `-` and no ASCII capital, hence no camel-case boundary. */
  lemma ConvertTextIsSnake(text: string)
    ensures forall i :: 0 <= i < |ConvertText(text)| ==> ConvertText(text)[i] != '-'
    ensures forall i :: 0 <= i < |ConvertText(text)| ==> !IsAsciiUpper(ConvertText(text)[i])
    ensures forall i :: !CamelBoundary(ConvertText(text), i)
  {
  }

  /** Converting twice is converting once. */
  lemma {:induction false} ConvertTextIdempotent(text: string)
    ensures ConvertText(ConvertText(text)) == ConvertText(text)
  {
    var once := ConvertText(text);
    ConvertTextIsSnake(text);
    ReplaceCamelPairsNoUpper(once);
    assert ReplaceChar(once, '-', '_') == once;
    assert ToLower(once) == once;
  }

  /** Text without camel-case boundaries is left alone by the regex scan. */
  lemma {:induction false} ReplaceCamelPairsNoBoundary(s: string)
    requires forall i :: !CamelBoundary(s, i)
    ensures ReplaceCamelPairs(s) == s
    decreases |s|
  {
    if |s| > 0 {
      assert forall i :: CamelBoundary(s[1..], i) ==> CamelBoundary(s, i + 1);
      ReplaceCamelPairsNoBoundary(s[1..]);
    }
  }

  /** One step of the scan past a position that starts no match. */
  lemma ScanSkip(c: char, rest: string)
    requires !CamelBoundary([c] + rest, 0)
    ensures ReplaceCamelPairs([c] + rest) == [c] + ReplaceCamelPairs(rest)
  {
    assert ([c] + rest)[1..] == rest;
  }

  /** One step of the scan over a match. */
  lemma ScanMatch(c: char, d: char, rest: string)
    requires IsAsciiLower(c) && IsAsciiUpper(d)
    ensures ReplaceCamelPairs([c, d] + rest) == [c, '_', d] + ReplaceCamelPairs(rest)
  {
    assert ([c, d] + rest)[2..] == rest;
  }

  /** The scan over "UserAccount", one position at a time (the argument is kept symbolic so the
      verifier does not unfold the scan over the literal). */
  lemma ScanUserAccount(s: string)
    requires s == "UserAccount"
    ensures ReplaceCamelPairs(s) == "User_Account"
  {
    var tail := s[5..];
    assert tail == "ccount";
    ReplaceCamelPairsNoUpper(tail);
    assert s[3..] == ['r', 'A'] + tail;
    ScanMatch('r', 'A', tail);
    assert s[2..] == ['e'] + s[3..];
    ScanSkip('e', s[3..]);
    assert s[1..] == ['s'] + s[2..];
    ScanSkip('s', s[2..]);
    assert s == ['U'] + s[1..];
    ScanSkip('U', s[1..]);
  }

  /** Lowercasing "User_Account" changes its two capitals only. */
  lemma LowerUserAccount(s: string)
    requires s == "User_Account"
    ensures ToLower(s) == "user_account"
  {
    var r := ToLower(s);
    assert r[0] == 'u' && r[5] == 'a';
    assert forall i :: 0 <= i < |s| && i != 0 && i != 5 ==> r[i] == s[i];
  }

  /** A camel-case name splits at its one boundary. */
  lemma ExampleUserAccount(text: string)
    requires text == "UserAccount"
    ensures ConvertText(text) == "user_account"
  {
    ScanUserAccount(text);
    var split := ReplaceCamelPairs(text);
    assert ReplaceChar(split, '-', '_') == split;
    LowerUserAccount(split);
  }

  /** Lowercasing "HTTPRequest" changes its five capitals only. */
  lemma LowerHttpRequest(s: string)
    requires s == "HTTPRequest"
    ensures ToLower(s) == "httprequest"
  {
    var r := ToLower(s);
    assert r[0] == 'h' && r[1] == 't' && r[2] == 't' && r[3] == 'p' && r[4] == 'r';
    assert forall i :: 5 <= i < |s| ==> r[i] == s[i];
  }

  /** A run of capitals holds no boundary, so it is only lowercased. */
  lemma ExampleHttpRequest(s: string)
    requires s == "HTTPRequest"
    ensures ConvertText(s) == "httprequest"
  {
    assert forall i :: !CamelBoundary(s, i);
    ReplaceCamelPairsNoBoundary(s);
    assert ReplaceChar(s, '-', '_') == s;
    LowerHttpRequest(s);
  }

  /** A hyphen becomes an underscore. */
  lemma ExampleHyphen(s: string)
    requires s == "user-account"
    ensures ConvertText(s) == "user_account"
  {
    assert forall i :: 0 <= i < |s| ==> !IsAsciiUpper(s[i]);
    ReplaceCamelPairsNoUpper(s);
    var t := ReplaceChar(s, '-', '_');
    assert t == "user_account";
    assert forall i :: 0 <= i < |t| ==> !IsAsciiUpper(t[i]);
    assert ToLower(t) == t;
  }

  /** `convert`: the text is converted and the quoted flag kept. */
  function Convert(logicalName: Identifier): (r: Identifier)
    ensures r.quoted == logicalName.quoted
    ensures r.text == ToLower(ReplaceChar(SplitAtBoundaries(logicalName.text), '-', '_'))
  {
    ReplaceCamelPairsSplitsAtBoundaries(logicalName.text);
    Identifier(ConvertText(logicalName.text), logicalName.quoted)
  }

  function ToPhysicalTableName(logicalName: Identifier): (r: Identifier)
    ensures r == Convert(logicalName)
  {
    Convert(logicalName)
  }

  function ToPhysicalColumnName(logicalName: Identifier): (r: Identifier)
    ensures r == Convert(logicalName)
  {
    Convert(logicalName)
  }

  function ToPhysicalSequenceName(logicalName: Identifier): (r: Identifier)
    ensures r == Convert(logicalName)
  {
    Convert(logicalName)
  }
}

=== FILE: transactions.dfy ===
/** `BaseRepository.executeInTransaction` and `rollbackQuietly`: one entity manager and one
    transaction per call; commit when the action returns, roll back quietly when anything fails. */
module Transactions {
  import opened Wrappers
  import opened JavaLang

  const OPERATION_FAILED: string := "Repository operation failed"

  /** How the persistence provider behaves during one call: whether opening the entity manager
      and its transaction, `begin`, `commit` and `close` throw, whether the transaction reports
      itself active when a failure is handled, and whether `rollback` throws. */
  datatype TxEnv = TxEnv(
    open: Outcome<Throwable>,
    begin: Outcome<Throwable>,
    commit: Outcome<Throwable>,
    close: Outcome<Throwable>,
    active: bool,
    rollback: Outcome<Throwable>)

  /** A provider that throws nowhere. */
  const Smooth: TxEnv := TxEnv(Pass, Pass, Pass, Pass, true, Pass)

  /** The first exception of a call, and whether the transaction object had been obtained
      (so that `rollbackQuietly` is handed a non-null transaction). */
  datatype Failure = Failure(thrown: Throwable, hasTransaction: bool)

  /** What one `executeInTransaction` did: its result, whether the transaction committed, and
      whether it was rolled back. */
  datatype TxRun<R> = TxRun(result: Result<R, Throwable>, committed: bool, rolledBack: bool)

  /** The exception that leaves the `try` block, if any. A failing `close` after an earlier
      failure is suppressed; after a commit it is the failure. */
  function FirstFailure<R>(tx: TxEnv, action: Result<R, Throwable>): (f: Option<Failure>)
    ensures f.None? <==> tx.open.Pass? && tx.begin.Pass? && action.Ok? && tx.commit.Pass? && tx.close.Pass?
  {
    if tx.open.Fail? then Some(Failure(tx.open.error, false))
    else if tx.begin.Fail? then Some(Failure(tx.begin.error, true))
    else if action.Err? then Some(Failure(action.error, true))
    else if tx.commit.Fail? then Some(Failure(tx.commit.error, true))
    else if tx.close.Fail? then Some(Failure(tx.close.error, true))
    else None
  }

  /** A checked exception, wrapped by the second catch clause. */
  function Wrapped(e: Throwable): (t: Throwable)
    ensures t.kind == IllegalStateException && t.message == Some(OPERATION_FAILED) && t.cause == Some(e)
  {
    Throwable(IllegalStateException, Some(OPERATION_FAILED), Some(e))
  }

  /** `rollbackQuietly` is reached: the failure is an Exception (an Error passes both catch
      clauses), there is a transaction, and it is active. */
  predicate RollsBack(tx: TxEnv, f: Failure) {
    IsException(f.thrown.kind) && f.hasTransaction && tx.active
  }

  /** `executeInTransaction` applied to an action whose outcome is `action`. */
  function ExecuteInTransaction<R>(tx: TxEnv, action: Result<R, Throwable>): (run: TxRun<R>)
    ensures run.committed <==> tx.open.Pass? && tx.begin.Pass? && action.Ok? && tx.commit.Pass?
  {
    var committed := tx.open.Pass? && tx.begin.Pass? && action.Ok? && tx.commit.Pass?;
    match FirstFailure(tx, action)
    case None => TxRun(Ok(action.value), true, false)
    case Some(f) =>
      if !IsException(f.thrown.kind) then TxRun(Err(f.thrown), committed, false)
      else if RollsBack(tx, f) && tx.rollback.Fail? && !IsRuntime(tx.rollback.error.kind) then
        // only RuntimeExceptions from `rollback` are swallowed
        TxRun(Err(tx.rollback.error), committed, true)
      else
        TxRun(Err(if IsRuntime(f.thrown.kind) then f.thrown else Wrapped(f.thrown)), committed, RollsBack(tx, f))
  }

  /** `runInTransaction`: the same, for an action with no result. */
  function RunInTransaction(tx: TxEnv, action: Outcome<Throwable>): (run: TxRun<()>)
    ensures run == ExecuteInTransaction(tx, if action.Pass? then Ok(()) else Err(action.error))
  {
    ExecuteInTransaction(tx, if action.Pass? then Ok(()) else Err(action.error))
  }

  /** The action's value is returned exactly when the call commits and the entity manager then
      closes cleanly. */
  lemma ReturnsOnlyCommitted<R>(tx: TxEnv, action: Result<R, Throwable>)
    ensures ExecuteInTransaction(tx, action).result.Ok? <==> ExecuteInTransaction(tx, action).committed && tx.close.Pass?
    ensures ExecuteInTransaction(tx, action).result.Ok? ==> ExecuteInTransaction(tx, action).result.value == action.value
  {
  }

  /** A RuntimeException is rethrown unchanged and a checked exception is wrapped, unless a
      rollback that throws an Error takes over. */
  lemma FailurePropagation<R>(tx: TxEnv, action: Result<R, Throwable>, f: Failure)
    requires FirstFailure(tx, action) == Some(f)
    requires !(RollsBack(tx, f) && tx.rollback.Fail? && !IsRuntime(tx.rollback.error.kind))
    ensures IsRuntime(f.thrown.kind) ==> ExecuteInTransaction(tx, action).result == Err(f.thrown)
    ensures !IsException(f.thrown.kind) ==> ExecuteInTransaction(tx, action).result == Err(f.thrown)
    ensures IsException(f.thrown.kind) && !IsRuntime(f.thrown.kind) ==>
      ExecuteInTransaction(tx, action).result == Err(Wrapped(f.thrown))
  {
  }

  /** A rollback happens only after a failure, only on an active transaction that was obtained,
      and never after an Error; a RuntimeException from the rollback itself is swallowed. */
  lemma RollbackRules<R>(tx: TxEnv, action: Result<R, Throwable>)
    ensures ExecuteInTransaction(tx, action).rolledBack <==>
      FirstFailure(tx, action).Some? && RollsBack(tx, FirstFailure(tx, action).value)
    ensures ExecuteInTransaction(tx, action).rolledBack ==> tx.open.Pass? && tx.active
    ensures tx.rollback.Fail? && IsRuntime(tx.rollback.error.kind) ==>
      ExecuteInTransaction(tx, action) == ExecuteInTransaction(tx.(rollback := Pass), action)
  {
  }

  /** With a provider that throws nowhere, the action's outcome passes through: a value commits,
      a RuntimeException is rethrown after a rollback. */
  lemma SmoothProvider<R>(action: Result<R, Throwable>)
    ensures action.Ok? ==> ExecuteInTransaction(Smooth, action) == TxRun(action, true, false)
    ensures action.Err? && IsRuntime(action.error.kind) ==>
      ExecuteInTransaction(Smooth, action) == TxRun(action, false, true)
  {
  }
}

=== FILE: uuid_bytes_converter.dfy ===
/** The null-safe, length-checked UUID column converter (`UuidBytesConverter`). */
module UuidBytesConverter {
  import opened Wrappers
  import opened JavaLang
  import opened UuidLayout

  const UUID_BYTE_LENGTH: nat := 16

  /** `convertToDatabaseColumn`: null stays null; a UUID becomes its 16-byte big-endian layout. */
  function ConvertToDatabaseColumn(uuid: Option<Uuid>): (r: Option<seq<bv8>>)
    ensures r.None? <==> uuid.None?
    ensures r.Some? ==> |r.value| == UUID_BYTE_LENGTH
    ensures r.Some? ==> (r.value[..8] == PutLong(uuid.value.mostSigBits)
                         && r.value[8..] == PutLong(uuid.value.leastSigBits))
  {
    match uuid
    case None => None
    case Some(u) => Some(Layout(u))
  }

  /** `convertToEntityAttribute`: null stays null; anything but exactly 16 bytes is refused. */
  function ConvertToEntityAttribute(bytes: Option<seq<bv8>>): (r: Result<Option<Uuid>, Throwable>)
    ensures bytes.None? ==> r == Ok(None)
    ensures bytes.Some? && |bytes.value| != UUID_BYTE_LENGTH ==>
              r.Err? && r.error.kind == IllegalArgumentException
              && r.error.message == Some("UUID column must contain exactly 16 bytes")
    ensures bytes.Some? && |bytes.value| == UUID_BYTE_LENGTH ==>
              r.Ok? && r.value.Some?
              && r.value.value.mostSigBits == GetLong(bytes.value[..8])
              && r.value.value.leastSigBits == GetLong(bytes.value[8..])
  {
    match bytes
    case None => Ok(None)
    case Some(b) =>
      if |b| != UUID_BYTE_LENGTH then
        Err(Raise(IllegalArgumentException, "UUID column must contain exactly 16 bytes"))
      else
        Ok(Some(Read(b)))
  }

  /** Every UUID, null included, survives a trip to the column and back. */
  lemma {:induction false} EntityRoundTrip(uuid: Option<Uuid>)
    ensures ConvertToEntityAttribute(ConvertToDatabaseColumn(uuid)) == Ok(uuid)
  {
    if uuid.Some? {
      ReadLayout(uuid.value);
    }
  }

  /** Every 16-byte column value survives a trip to a UUID and back. */
  lemma {:induction false} ColumnRoundTrip(bytes: seq<bv8>)
    requires |bytes| == UUID_BYTE_LENGTH
    ensures ConvertToEntityAttribute(Some(bytes)).Ok?
    ensures ConvertToDatabaseColumn(ConvertToEntityAttribute(Some(bytes)).value) == Some(bytes)
  {
    LayoutRead(bytes);
  }

  /** The nil UUID and the all-ones UUID, whose halves are the longs 0 and -1, encode to
      sixteen 0x00 and sixteen 0xFF bytes. */
  lemma ExtremeValues()
    ensures ConvertToDatabaseColumn(Some(Uuid(0, 0)))
            == Some([0, 0, 0, 0, 0, 0, 0, 0, 0, 0, 0, 0, 0, 0, 0, 0])
    ensures ConvertToDatabaseColumn(Some(Uuid(0xFFFF_FFFF_FFFF_FFFF, 0xFFFF_FFFF_FFFF_FFFF)))
            == Some([0xFF, 0xFF, 0xFF, 0xFF, 0xFF, 0xFF, 0xFF, 0xFF, 0xFF, 0xFF, 0xFF, 0xFF, 0xFF, 0xFF, 0xFF, 0xFF])
  {
    var zeros: seq<bv8> := [0, 0, 0, 0, 0, 0, 0, 0];
    var ones: seq<bv8> := [0xFF, 0xFF, 0xFF, 0xFF, 0xFF, 0xFF, 0xFF, 0xFF];
    assert PutLong(0) == zeros;
    assert PutLong(0xFFFF_FFFF_FFFF_FFFF) == ones;
    assert Layout(Uuid(0, 0)) == zeros + zeros;
    assert Layout(Uuid(0xFFFF_FFFF_FFFF_FFFF, 0xFFFF_FFFF_FFFF_FFFF)) == ones + ones;
    assert zeros + zeros == [0, 0, 0, 0, 0, 0, 0, 0, 0, 0, 0, 0, 0, 0, 0, 0];
    assert ones + ones == [0xFF, 0xFF, 0xFF, 0xFF, 0xFF, 0xFF, 0xFF, 0xFF, 0xFF, 0xFF, 0xFF, 0xFF, 0xFF, 0xFF, 0xFF, 0xFF];
  }
}

=== FILE: uuid_converter.dfy ===
/** The unguarded UUID converter (`UUIDConverter`): no null check and no length
    check, so a null UUID or a short array fails inside `ByteBuffer`. */
module UUIDConverter {
  import opened Wrappers
  import opened JavaLang
  import opened UuidLayout
  import UuidBytesConverter

  /** `convertToDatabaseColumn`: a null UUID throws NullPointerException at `getMostSignificantBits`. */
  function ConvertToDatabaseColumn(uuid: Option<Uuid>): (r: Result<seq<bv8>, Throwable>)
    ensures uuid.None? <==> r.Err?
    ensures r.Err? ==> r.error.kind == NullPointerException
    ensures r.Ok? ==> (|r.value| == 16 && r.value[..8] == PutLong(uuid.value.mostSigBits)
                       && r.value[8..] == PutLong(uuid.value.leastSigBits))
  {
    match uuid
    case None => Err(Throwable(NullPointerException, None, None))
    case Some(u) => Ok(Layout(u))
  }

  /** `convertToEntityAttribute`: `ByteBuffer.wrap(null)` throws NullPointerException, and each
      `getLong` with fewer than 8 bytes left throws BufferUnderflowException. */
  function ConvertToEntityAttribute(bytes: Option<seq<bv8>>): (r: Result<Uuid, Throwable>)
    ensures bytes.None? ==> r.Err? && r.error.kind == NullPointerException
    ensures bytes.Some? && |bytes.value| < 16 ==> r.Err? && r.error.kind == BufferUnderflowException
    ensures bytes.Some? && |bytes.value| >= 16 ==>
              r.Ok? && r.value.mostSigBits == GetLong(bytes.value[..8])
              && r.value.leastSigBits == GetLong(bytes.value[8..16])
  {
    match bytes
    case None => Err(Throwable(NullPointerException, None, None))
    case Some(b) =>
      if |b| < 8 then Err(Throwable(BufferUnderflowException, None, None))
      else if |b| < 16 then Err(Throwable(BufferUnderflowException, None, None))
      else Ok(Read(b))
  }

  /** Every UUID survives a trip to bytes and back. */
  lemma {:induction false} RoundTrip(u: Uuid)
    ensures ConvertToDatabaseColumn(Some(u)).Ok?
    ensures ConvertToEntityAttribute(Some(ConvertToDatabaseColumn(Some(u)).value)) == Ok(u)
  {
    ReadLayout(u);
  }

  /** Bytes past the 16th are never read. */
  lemma {:induction false} TrailingBytesIgnored(bytes: seq<bv8>)
    requires |bytes| >= 16
    ensures ConvertToEntityAttribute(Some(bytes)) == ConvertToEntityAttribute(Some(bytes[..16]))
  {
    ReadPrefix(bytes);
  }

  /** On a non-null UUID and on exactly 16 bytes both converters give the same answer. */
  lemma {:induction false} AgreesWithUuidBytesConverter(u: Uuid, bytes: seq<bv8>)
    requires |bytes| == 16
    ensures ConvertToDatabaseColumn(Some(u)) == Ok(UuidBytesConverter.ConvertToDatabaseColumn(Some(u)).value)
    ensures ConvertToEntityAttribute(Some(bytes)) == Ok(UuidBytesConverter.ConvertToEntityAttribute(Some(bytes)).value.value)
  {
  }
}

=== FILE: uuid_layout.dfy ===
/** The byte layout both UUID converters share: a UUID is two 64-bit halves, and a
    `ByteBuffer` in its default big-endian order writes each half most significant
    byte first. This is the byte order of section 4.1.2 of RFC 4122. */
module UuidLayout {

  /** `java.util.UUID`: the bit patterns of its two `long` halves. */
  datatype Uuid = Uuid(mostSigBits: bv64, leastSigBits: bv64)

  /** `ByteBuffer.putLong` in big-endian order: the eight bytes of `x`, most significant first. */
  function PutLong(x: bv64): (r: seq<bv8>)
    ensures |r| == 8
  {
    [ ((x >> 56) & 0xFF) as bv8, ((x >> 48) & 0xFF) as bv8,
      ((x >> 40) & 0xFF) as bv8, ((x >> 32) & 0xFF) as bv8,
      ((x >> 24) & 0xFF) as bv8, ((x >> 16) & 0xFF) as bv8,
      ((x >> 8) & 0xFF) as bv8, (x & 0xFF) as bv8 ]
  }

  /** `ByteBuffer.getLong` in big-endian order, reading `b[0..8]`. */
  function GetLong(b: seq<bv8>): bv64
    requires |b| >= 8
  {
    (b[0] as bv64 << 56) | (b[1] as bv64 << 48) | (b[2] as bv64 << 40) | (b[3] as bv64 << 32)
    | (b[4] as bv64 << 24) | (b[5] as bv64 << 16) | (b[6] as bv64 << 8) | b[7] as bv64
  }

  /** The 16 bytes of a UUID: the most significant half, then the least significant half. */
  function Layout(u: Uuid): (r: seq<bv8>)
    ensures |r| == 16
  {
    PutLong(u.mostSigBits) + PutLong(u.leastSigBits)
  }

  /** The UUID whose halves are read from `b[0..8]` and `b[8..16]`. */
  function Read(b: seq<bv8>): Uuid
    requires |b| >= 16
  {
    Uuid(GetLong(b[..8]), GetLong(b[8..16]))
  }

  /** `getLong` undoes `putLong`. */
  lemma GetPutLong(x: bv64)
    ensures GetLong(PutLong(x)) == x
  {
  }

  /** `putLong` undoes `getLong` on eight bytes. */
  lemma PutGetLong(b: seq<bv8>)
    requires |b| == 8
    ensures PutLong(GetLong(b)) == b
  {
    var r := PutLong(GetLong(b));
    assert forall i :: 0 <= i < 8 ==> r[i] == b[i];
  }

  /** Reading the layout of `u` gives back `u`. */
  lemma {:induction false} ReadLayout(u: Uuid)
    ensures Read(Layout(u)) == u
  {
    var b := Layout(u);
    assert b[..8] == PutLong(u.mostSigBits);
    assert b[8..16] == PutLong(u.leastSigBits);
    GetPutLong(u.mostSigBits);
    GetPutLong(u.leastSigBits);
  }

  /** Laying out what was read from 16 bytes gives back those bytes. */
  lemma {:induction false} LayoutRead(b: seq<bv8>)
    requires |b| == 16
    ensures Layout(Read(b)) == b
  {
    PutGetLong(b[..8]);
    PutGetLong(b[8..16]);
    assert b == b[..8] + b[8..16];
  }

  /** Only the first 16 bytes take part in `Read`. */
  lemma ReadPrefix(b: seq<bv8>)
    requires |b| >= 16
    ensures Read(b) == Read(b[..16])
  {
    assert b[..16][..8] == b[..8];
    assert b[..16][8..16] == b[8..16];
  }
}

=== FILE: wrappers.dfy ===
/** Option and Result values used wherever the Java code returns null, an Optional,
    or throws instead of returning. */
module Wrappers {

  datatype Option<+T> = None | Some(value: T) {
    function GetOr(default: T): T {
      match this
      case Some(v) => v
      case None => default
    }
  }

  /** The outcome of a Java call that either returns a value or throws. */
  datatype Result<+T, +E> = Ok(value: T) | Err(error: E)

  /** The outcome of a Java `void` call: it returns normally or throws. */
  datatype Outcome<+E> = Pass | Fail(error: E)
}
